=== FILE: README.md ===
# Chat pipeline of a desktop AI chat client, in Dafny

This project models the sequential core of an Electron desktop chat client. The client's main
process talks to a DeepSeek-compatible chat API and stores conversations in SQLite. Its React
window keeps the visible message list in a small store.

The model covers four parts:

- **The plain chat request** (`callDeepSeek`), module `Plain`, built on `Sse` and `Throttle`.
  - It checks the API key and builds a payload: the system message, at most the 20 most recent
    stored messages oldest-first, then the prompt. Reasoning mode only adds the reasoning knobs.
  - It arms a 15-second timer and reacts to transport events.
  - A 200 body is decoded chunk by chunk (`Sse`):
    - Each chunk is split on `\n` on its own; there is no carry-over between chunks.
    - Only lines starting with `data: ` count, and their payload is the rest of the line.
    - `data: [DONE]` abandons the rest of that chunk only.
    - A payload that does not parse is skipped.
    - A `reasoning_content` field goes to `chat:stream-reasoning` at once.
    - A `content` field is added to the full text and to a coalescing buffer (`Throttle`). The
      buffer is sent when more than 50 ms have passed since the last send.
  - The first body chunk of a request without a conversation creates one. That means a
    "New Chat" row, the delayed user message and `chat:created`.
  - At the end of the body, the residue of the buffer is flushed and `chat:stream-end` is sent
    once. A non-empty answer is stored once.
  - A non-200 body is collected and reported with its first 100 code points.
  - A transport error is reported through a fixed map of error codes, with a fallback message.
- **The `chat:send` and `chat:stop` handlers** (`Controller`).
  - A send aborts the current request first.
  - For a known conversation it then stores the user message, with an `[Attached N image(s)]`
    marker when there are attachments.
  - It then routes the send:
    - With attachments it goes to the vision model (`Vision`). The conversation is created
      before the call, and the title backfill runs afterwards.
    - Otherwise, with the web-search flag, it goes to the search chain (`WebSearch`). It needs
      both key rows, and it creates the conversation eagerly.
    - Otherwise it goes to the plain chat, which is the only route that becomes the current,
      cancellable request.
  - `chat:stop` aborts the current request if there is one.
- **The vision call and the web-search chain** (`Vision`, `WebSearch`).
  - The vision side covers the image and text content parts, the one-message payload, and the
    stream decoding. Its promise resolves with the concatenated tokens or rejects.
  - The web-search side covers the key check, the `searching`/`done` status sequence, and the
    context text built from the documents. It also covers the token accumulation and the
    `[Error: …]` suffix on failure.
- **The window's chat store** (`ChatStore`).
  - The reducers `addMessage`, `updateLastMessage`, `updateLastMessageReasoning`,
    `updateLastMessageSearch` and `markLastMessageError`. All except `addMessage` touch only
    the last message.
  - The bubble's "thinking" predicate.
  - `handleSend` with its guard.
  - `removeAttachment`.
  - The listeners that apply the main process's messages to the store.

`Window` puts the two processes together for a plain send. The bubble that `handleSend` adds
ends up showing exactly the streamed text, and that text is the reply stored in the database.
The request is opened on an arbitrary valid database, which covers the one left after the
user message is stored.

Everything the main process does towards the outside is one ordered log of `Channels.Out`
values. The log holds the IPC messages plus two effects that are not messages: `abort()` on a
request, and the launch of a detached title-generation task. The database is an abstract
`Store.Db` with auto-increment ids. `JSON.parse` followed by `choices[0]?.delta` is a parameter
`parse: string -> Option<Delta>`, and an absent or falsy field is the empty string. The clock is
the `now` carried by each body chunk. The vision call's and the search chain's foreign
behaviour (transport events, search outcome, answer stream) are inputs.

Four behaviours of the code are modelled as written:

- The title trigger after lazy creation in `callDeepSeek` reads names that are not in scope
  there. It throws inside the `try`, after the conversation, the user message and
  `chat:created` are done. So a plain chat started without a conversation launches no title
  task (`Controller.NewPlainConversationUntitled`).
- The 15-second timer aborts whatever request is current when it fires, not necessarily its
  own. An aborted request's timer is never cleared, so a stale timer can abort the next request
  (`Controller.StaleTimerScenario`).
- A new vision conversation with a non-blank message launches two title tasks. One comes at
  creation, the other from the backfill after the answer (`Controller.VisionNewConversationTitledTwice`).
- For a known conversation the plain route sends the prompt twice: once as the last history
  entry, because it was stored before the history was read, and once as the appended user turn
  (`Controller.PromptSentTwice`).

The first and third are behaviours of the main process for a `chat:send` without a
conversation id. The window never sends one: `handleSend` creates a "New Chat" conversation
first and always passes its id (`ChatStore.HandleSend`). From the window, a new chat is
therefore titled by the backfill that the routes run for a conversation still titled
"New Chat" (`Controller.BackfillNew`).

## Model

| member | source | states |
|---|---|---|
| Sse.Payloads | src/main/index.js:229-235 | the payloads reached in one chunk are data lines minus the 6-character `data: ` prefix, never the `[DONE]` sentinel, each one present as a line of the chunk |
| Sse.PayloadsStopAtDone | src/main/index.js:229-235 | the payloads of a chunk are exactly the data payloads of the lines before its first `data: [DONE]` line |
| Sse.PayloadsAbandonRest | src/main/index.js:233-235 | once a `[DONE]` line has appeared, nothing after it in the same chunk contributes |
| Sse.PayloadsAppend | src/main/index.js:229-231 | lines with no `[DONE]` among them contribute their payloads in order, independently of what follows |
| Sse.EventsOf | src/main/index.js:236-249 | one payload yields at most a reasoning event and a content event, never an empty one, and nothing when it does not parse |
| Sse.Decode | src/main/index.js:229-258 | the events of a run of payloads are never empty; their content and reasoning channels are the parsed fields (`Sse.ContentChannel`, `Sse.ReasoningChannel`) |
| Sse.DecodeSkipsUnparsable | src/main/index.js:236-258 | a payload that does not parse is dropped without changing what the other payloads produce |
| Sse.DecodeAppend | src/main/index.js:230-259 | decoding a run of payloads is decoding each part and concatenating, in order |
| Sse.ContentChannel | src/main/index.js:246-249 | the content deltas of a chunk, concatenated, are exactly the parsed `content` fields of its payloads, in order |
| Sse.ReasoningChannel | src/main/index.js:241-243 | the reasoning deltas of a chunk, concatenated, are exactly the parsed `reasoning_content` fields of its payloads, in order |
| Throttle.PushContent | src/main/index.js:246-256 | a content delta always extends the full text; the buffer is sent iff `now - lastSend > 50`, and then what is sent is the old buffer plus the delta, the buffer becomes empty and `lastSend` becomes `now`; otherwise the delta is appended to the buffer and `lastSend` is kept |
| Throttle.Flush | src/main/index.js:264-266 | the residue is sent iff the buffer is non-empty |
| Throttle.InitialAccounts | src/main/index.js:167-169 | the initial emitter (empty text, empty buffer, last send at 0) satisfies the accounting invariant with nothing sent |
| Throttle.PushAccounts | src/main/index.js:248-256 | each delta keeps the invariant: what was sent, followed by the buffer, spells the full text |
| Throttle.FlushCompletes | src/main/index.js:263-266 | after the end flush, the concatenation of everything sent equals the full text |
| Throttle.RunSpacing | src/main/index.js:251-256 | successive sends are more than 50 ms apart, the first more than 50 ms after the initial last-send time, and the emitter remembers the time of the last send |
| Throttle.RunAccounts | src/main/index.js:246-256 | over any run of deltas, the full text grows by exactly their concatenation, and the sent texts followed by the buffer equal the old buffer followed by the deltas |
| Store.InsertConversation | src/main/index.js:203-204 | a new conversation gets a fresh positive id and is appended with its title; messages and keys are unchanged |
| Store.InsertMessage | src/main/index.js:207 | exactly one message row with the given conversation, role and content is appended; everything else is unchanged |
| Store.RecentHistory | src/main/index.js:121-128 | the query returns at most 20 rows, all stored and all of the conversation; which rows and in what order is `Store.RecentHistoryWindow` |
| Store.RecentHistoryWindow | src/main/index.js:121-128 | the history read is the last `min(20, n)` messages of the conversation, oldest first, in ascending id order |
| Plain.BuildPayload | src/main/index.js:143-162 | the chat model, `stream: true`, the reasoning parameters exactly in reasoning mode, and the history plus two messages with the prompt last; the full message list is `Plain.PayloadShape` |
| Plain.PayloadShape | src/main/index.js:143-154 | the payload has the chat model, `stream: true`, the system message first, each history row as a message in order, and the prompt last as a user message |
| Plain.ReasoningOnlyAddsKnobs | src/main/index.js:156-162 | reasoning mode adds the thinking, effort, temperature and token-limit knobs and changes nothing else |
| Plain.Open | src/main/index.js:108-179 | without an API key the request reports the missing key and ends the stream, and no session starts; with one, a session starts awaiting the response with the timer armed, an empty emitter and the payload built from the stored history |
| Plain.OnResponse | src/main/index.js:181-186 | a response head clears the timer of a waiting session and selects streaming exactly for status 200, else an empty error body; it sends and stores nothing |
| Plain.LazyCreate | src/main/index.js:198-227 | a fresh "New Chat" conversation, the prompt stored under it as the user message, and exactly `chat:created` with its id, with no title task |
| Plain.OnData | src/main/index.js:186-262 | an error body collects the chunk; a 200 chunk never ends the stream; other phases ignore it; what a 200 chunk sends and stores is `Plain.DataFollowsPayloads` and `Plain.LazyCreation` |
| Plain.OnEnd | src/main/index.js:188-277 | the end of a 200 or an error body closes the session with `chat:stream-end` last; an error body reports the API error and stores nothing; delivery and storage of a 200 body are `Plain.EndDelivers` |
| Plain.OnFailure | src/main/index.js:279-291 | on a live session a transport error closes it, clears the timer and sends an error then `chat:stream-end`; the message is `Plain.FailureReported` |
| Plain.OnTimeout | src/main/index.js:173-179 | a pending timer fires once: it aborts the current request, whichever it is, and reports the timeout; the session closes only if it is the current request |
| Plain.Step | src/main/index.js:173-291 | dispatches one transport event to its callback, keeping the request, prompt and payload; its behaviour is `Plain.StepAccounts`, `Plain.StepEndsOnce`, `Plain.QuietStep` and `Plain.DataFollowsPayloads` |
| Plain.Cancel | src/main/index.js:354-356 | `abort()` closes the session and leaves its timer as it was |
| Plain.NetworkErrorMessageWarns | src/main/index.js:279-287 | every transport-error message starts with the warning sign; for a code not in the map the message is the fallback prefix followed by the code, so distinct unknown codes give distinct messages |
| Plain.ApiErrorMessageQuotes | src/main/index.js:190 | the error message is the warning, `API Error <status>: `, then a prefix of the body of at most 100 code points, the whole body when it is short enough |
| Plain.Feed | src/main/index.js:240-257 | forwarding a chunk's deltas sends only chunk and reasoning messages, and the full text grows by exactly the chunk's content deltas |
| Plain.FeedAccounts | src/main/index.js:246-256 | forwarding a chunk keeps the accounting invariant over everything sent so far |
| Plain.FeedForwardsReasoning | src/main/index.js:241-243 | the reasoning messages of a chunk are exactly its reasoning deltas, in order, and none of them reaches the content text |
| Plain.DataFollowsPayloads | src/main/index.js:229-259 | a 200 body chunk keeps the session streaming, extends the full text by exactly the parsed content fields up to `[DONE]`, and sends exactly the parsed reasoning fields |
| Plain.LazyCreation | src/main/index.js:196-227 | the first body chunk of a request without a conversation appends one "New Chat" conversation with a fresh id and one user message with the prompt, sends `chat:created` with that id first, and launches no title task |
| Plain.LaterChunksDoNotWrite | src/main/index.js:198-200 | any later chunk, or any chunk of a request with a conversation, leaves the database and the conversation id as they were |
| Plain.EndDelivers | src/main/index.js:263-276 | at the end of a 200 body, everything sent spells the full text, exactly one `chat:stream-end` is sent and it comes last, and one assistant row holding that text is stored iff the text is non-empty and a conversation is known; otherwise the database is unchanged |
| Plain.QuietStep | src/main/index.js:173-194 | every event other than a 200 body chunk or a 200 body end sends no content or reasoning, leaves the emitter alone, sends at most one stream end, and, in the model, a finished session ignores it unless it is the timer |
| Plain.StepAccounts | src/main/index.js:181-291 | every event other than the end of a 200 body keeps the accounting invariant over everything sent |
| Plain.StepEndsOnce | src/main/index.js:181-291 | apart from the timer, a finished session ignores every event in the model, and a step that sends `chat:stream-end` finishes the session |
| Plain.StepKeepsTimerOk | src/main/index.js:173-182 | every event and every abort keep the timer invariant: a pending timer means the response head has not arrived or the request was aborted before it did |
| Plain.RunEndsOnce | src/main/index.js:181-291 | without timer events a session sends `chat:stream-end` at most once, only if it was not already finished, and only by finishing |
| Plain.NoWriteWithoutOk | src/main/index.js:184-194 | without a 200 response head nothing is ever written to the database and no body is streamed |
| Plain.ErrorBodyCollects | src/main/index.js:186-187 | the body chunks of an error response are appended in order to the collected body, with nothing sent or stored |
| Plain.ApiErrorReported | src/main/index.js:182-193 | a non-200 head disarms the timer; its body chunks and end send exactly the API error with the first 100 code points of the whole body, then `chat:stream-end`, and store nothing |
| Plain.FailureReported | src/main/index.js:279-291 | a transport error on a live session sends the mapped message then `chat:stream-end`, disarms the timer and stores nothing; in the model, a finished session ignores it |
| Plain.RunAccounts | src/main/index.js:246-256 | over any run of events without a body end, the accounting invariant holds over everything sent |
| Plain.ContentPreserved | src/main/index.js:246-275 | for a session that streams and then ends, the concatenation of all `chat:stream-chunk` payloads equals the full text, and when that text is non-empty and a conversation is known, exactly it is stored as one assistant row |
| Plain.StreamedContent | src/main/index.js:229-249 | over any run of 200 body chunks the session keeps streaming and the full text grows by exactly each chunk's parsed `content` fields, chunk after chunk |
| Plain.StreamedReply | src/main/index.js:229-275 | when a 200 body's chunks all arrive and the body ends, the `chat:stream-chunk` payloads spell exactly the chunks' parsed `content` fields, and that text is the stored assistant reply |
| Vision.ContentPartsShape | src/main/services/visionService.js:18-36 | one `image_url` part per image attachment, in order, carrying its content as the URL, then exactly one text part, last |
| Vision.ImagePartsAreUrls | src/main/services/visionService.js:21-30 | non-image attachments are dropped and each image contributes its content as an image URL, in order |
| Vision.PayloadShape | src/main/services/visionService.js:38-47 | the payload streams and has exactly one user message, whose content is the content parts (no history) |
| Vision.RunConsistent | src/main/services/visionService.js:60-93 | at every point the full text is the concatenation of the tokens handed out, the promise is settled exactly when the request is finished, and an error body is read only while no token was handed out |
| Vision.Step | src/main/services/visionService.js:60-93 | tokens handed out are never taken back, new ones come only from a 200 body chunk, a settled call is unchanged, and settling gives a resolution or a rejection |
| Vision.Run | src/main/services/visionService.js:60-93 | over any events the tokens only grow and a settled call stays as it is |
| Vision.ResolvesWithTokens | src/main/services/visionService.js:60-90 | the promise resolves with the in-order concatenation of exactly the tokens handed to `onToken` |
| Vision.SettledIsFinal | src/main/services/visionService.js:62-93 | once settled, the model's call ignores every further event; that no event reaches the request after `end` or `error` is an assumption about the transport (see "## Left out") |
| Vision.FailureRejects | src/main/services/visionService.js:93 | a transport error before the promise settles rejects it with the error and changes nothing else |
| Vision.FailureIsFinal | src/main/services/visionService.js:93 | after a transport error the call is settled as rejected, and in the model it stays so and hands out no further token, given that the transport delivers nothing after `error` (see "## Left out") |
| Vision.ErrorStatusRejects | src/main/services/visionService.js:63-67 | a non-200 response hands out no token and rejects with `API Error <status>: ` followed by the whole body |
| Vision.ChunkTokens | src/main/services/visionService.js:70-86 | a body chunk hands out exactly the parsed content fields of its payloads up to `[DONE]`, in order, and ignores reasoning |
| WebSearch.SourceLabel | src/main/services/langchainService.js:45 | the source line uses the document's source, else its URL, else "Unknown URL" |
| WebSearch.TitleLabel | src/main/services/langchainService.js:46 | the title line uses the document's title, else "Untitled" |
| WebSearch.FormatBlocks | src/main/services/langchainService.js:44-47 | document i becomes block i, numbered from 1, in the original order |
| WebSearch.FormatBlocksSnoc | src/main/services/langchainService.js:44-47 | one more document appends exactly one block, numbered after all the others |
| WebSearch.ContextShape | src/main/services/langchainService.js:42-51 | no documents give exactly "No relevant search results found."; one document gives its block; appending a document appends the separator and its block |
| WebSearch.RunChain | src/main/services/langchainService.js:14-101 | at least one callback call, and success needs a model request and an answer stream without failure; the order of the callback calls is `WebSearch.StatusSequence`, and the result is `WebSearch.ResultMatchesTokens` |
| WebSearch.ModelAskedIff | src/main/services/langchainService.js:16-78 | the answering model is asked exactly when the search key is set, the search succeeded and the API key is set |
| WebSearch.MissingTavilyKeyFails | src/main/services/langchainService.js:16-18 | without the search key, no status is reported, the only token is the `[Error: …]` suffix, no model request is made, and the chain fails with that error |
| WebSearch.StatusSequence | src/main/services/langchainService.js:33-55 | with the search key, `searching` is reported first, then `done` with the documents even when there are none; every token comes after every status; the model is asked iff the search succeeded and the API key is present, with the formatted context and the prompt |
| WebSearch.SearchFailedSequence | src/main/services/langchainService.js:33-99 | a search that throws after `searching` is reported yields exactly `searching` and then the `[Error: …]` token, and asks no model |
| WebSearch.FoundSequence | src/main/services/langchainService.js:33-55 | a successful search reports `searching` then `done` with its documents, and everything after them is a token; the model is asked iff the API key is present, with the formatted context and the prompt |
| WebSearch.AnsweredRun | src/main/services/langchainService.js:81-101 | with both keys, the outputs are the two statuses then the non-empty chunks as tokens; on success the result is their concatenation; on a stream failure the error suffix follows and the chain fails |
| WebSearch.ResultMatchesTokens | src/main/services/langchainService.js:86-101 | a successful result is the concatenation of all tokens handed out; a failure always ends with the `[Error: …]` token |
| WebSearch.AnswerIsTokens | src/main/services/langchainService.js:86-93 | the answer is the concatenation of the non-empty chunks, each of which is handed out as a token |
| Controller.AbortCurrent | src/main/index.js:354-357 | with a current request it is aborted (logged, its session closed) and cleared, with other sessions unchanged; without one nothing happens |
| Controller.StoredContentMarker | src/main/index.js:362-365 | the stored user text starts with the message; it is longer iff there are attachments, and then the marker's digits spell the attachment count |
| Controller.SaveUserMessage | src/main/index.js:359-370 | saving the user message only extends the database |
| Controller.Backfill | src/main/index.js:418-435 | a title task is launched iff the conversation exists with the default title or at most two messages and the API key is present, and then it is exactly one task for that conversation and prompt |
| Controller.BackfillNew | src/main/index.js:502-506 | with the API key present, a conversation still titled "New Chat" always gets exactly one title task for the prompt |
| Controller.Persist | src/main/index.js:413-415 | an answer is stored as one assistant row iff it is non-empty and a conversation is known; the conversations are untouched |
| Controller.SendVision | src/main/index.js:372-443 | the vision route only extends the database and the log, and never changes the current request or the plain sessions |
| Controller.SendWebSearch | src/main/index.js:445-489 | the web-search route only extends the database and the log, and never changes the current request or the plain sessions |
| Controller.SendPlain | src/main/index.js:491-517 | the plain route starts at most one new session, which becomes current iff the API key is present; the database is unchanged |
| Controller.SendMessage | src/main/index.js:351-518 | `chat:send` keeps the main-process invariant, any current request is the newly started session, and the database only extends the one `Controller.Prelude` leaves |
| Controller.Deliver | src/main/index.js:173-291 | a transport event for one request keeps the invariant, the current request and the number of sessions, and only appends to the log |
| Controller.Prelude | src/main/index.js:354-370 | before routing, the current request is aborted and cleared and the user message of a known conversation is saved; no other session changes |
| Controller.StopGeneration | src/main/index.js:541-547 | `chat:stop` keeps the invariant and leaves no current request |
| Controller.StopAbortsCurrent | src/main/index.js:541-547 | `chat:stop` aborts and clears the current request and closes its session, is a no-op without one, leaves the database and other sessions alone, and a second stop changes nothing |
| Controller.OnlyPlainIsCurrent | src/main/index.js:373-492 | after a send there is a current request iff there are no attachments, no web-search flag, and an API key; it is the new plain session with the message and the given conversation |
| Controller.SendAbortsPrevious | src/main/index.js:354-357 | a send with a current request first logs its abort and closes that session |
| Controller.KnownConversationSavedFirst | src/main/index.js:359-366 | for a known conversation the next stored row is the user message with its attachment marker, ahead of anything the route stores |
| Controller.WebSearchNeedsBothKeys | src/main/index.js:446-454 | web search without either key row reports the one message and ends; nothing else is stored or started |
| Controller.VisionNeedsKey | src/main/index.js:373-379 | the vision route without an API key reports the missing key and ends; nothing else is stored or started |
| Controller.VisionRejectedReports | src/main/index.js:403-441 | a rejected vision call keeps the streamed tokens, then sends the prefixed error and `chat:stream-end`; no answer and no title task follow |
| Controller.PromptSentTwice | src/main/index.js:122-148 | for a known conversation the plain payload's last two messages are both the user's prompt |
| Controller.PlainPayload | src/main/index.js:366-492 | the plain request's payload is built from the history read after the user message was stored |
| Controller.NewPlainConversationUntitled | src/main/index.js:212-226 | a plain send without a conversation launches no title task at all |
| Controller.VisionNewConversationTitledTwice | src/main/index.js:383-436 | a resolved vision send with a non-blank message and no conversation launches two title tasks for the new conversation |
| Controller.VisionResolved | src/main/index.js:403-436 | a resolved vision call logs the creation messages, the tokens, `chat:stream-end` and the backfill, and stores the answer under the conversation |
| Controller.StaleTimerAbortsCurrent | src/main/index.js:173-179 | an armed timer of a request that is not current aborts the current request, reports the timeout, ends the stream, and leaves the current request set |
| Controller.StaleTimerScenario | src/main/index.js:173-179 | two plain sends in a row: the first request's timer, still armed after its abort, kills the second request |
| Controller.VisionDelivers | src/main/index.js:403-415 | a resolved vision send sends chunks spelling exactly the answer, one stream end, and stores the answer iff it is non-empty |
| Controller.WebSearchDelivers | src/main/index.js:469-487 | a web-search send with both keys forwards exactly the chain's tokens as chunks and sends one stream end; a successful, non-empty answer is stored, and the chunks spell it |
| ChatStore.AddMessage | src/renderer/src/App.jsx:33-35 | exactly one message is appended with the given role, content, loading flag, status and attachments and empty reasoning; earlier messages are unchanged |
| ChatStore.UpdateLastMessage | src/renderer/src/App.jsx:37-49 | only the last message changes: its content gains the chunk, its status becomes sent, and it stops loading iff the new content is not blank; an empty list stays empty |
| ChatStore.UpdateLastMessageReasoning | src/renderer/src/App.jsx:51-59 | only the last message's reasoning changes, gaining the chunk after treating a missing one as empty |
| ChatStore.UpdateLastMessageSearch | src/renderer/src/App.jsx:61-72 | only the last message's search status changes, and its results are replaced only when the update carries results |
| ChatStore.MarkLastMessageError | src/renderer/src/App.jsx:76-83 | only the last message changes, to the error status and not loading; an empty list stays empty |
| ChatStore.ThinkingIffTrimmedEmpty | src/renderer/src/App.jsx:138 | a bubble is thinking iff it is not a user message, its trimmed content is empty, it has no reasoning text, and its search status is neither "searching" nor "done" |
| ChatStore.ThinkingEndsOnOutput | src/renderer/src/App.jsx:37-83 | non-blank content, any reasoning text, or any search status ends the thinking state; an empty chunk or an error mark does not change it |
| ChatStore.ChunksAccumulate | src/renderer/src/App.jsx:37-49 | chunks applied in turn append their concatenation to the last message and change nothing else |
| ChatStore.RemoveAttachment | src/renderer/src/App.jsx:366 | removing index i removes exactly that position and keeps the rest in order; any other index changes nothing |
| ChatStore.HandleSend | src/renderer/src/App.jsx:404-444 | blank input, a running generation or being offline change nothing and send nothing; otherwise two messages are appended, generation starts, the input and attachments are cleared, and the message is sent with the flags, the attachments and always a conversation id: the current one or the newly created one |
| ChatStore.SendAppendsPair | src/renderer/src/App.jsx:428-430 | the appended pair is the user's message with its attachments, then an empty assistant placeholder that shows as thinking |
| ChatStore.Listen | src/renderer/src/App.jsx:311-330 | a message changes only the last bubble, never the input, attachments or toggles; only `chat:created` changes the conversation, and only a stream end or an error changes the generating flag, to false |
| ChatStore.ListenStep | src/renderer/src/App.jsx:311-330 | one message from the main process changes only the last bubble, adds any chunk payload to its content, and only a stream end or an error touches the generating flag, only to clear it |
| ChatStore.ReplayShows | src/renderer/src/App.jsx:311-330 | a whole log changes only the last bubble, appends the concatenated chunk payloads to its content, and any stream end leaves generation stopped |
| Window.ReplayOfFinishedSession | src/main/index.js:246-275 | a plain session that streams and ends, shown in an empty last bubble, leaves it holding exactly the full text with generation stopped, and the stored reply is that text |
| Window.AnswerShownIsAnswerStored | src/renderer/src/App.jsx:404-444 | after an accepted send whose plain request streams and ends, the new assistant bubble shows exactly the streamed text, generation has stopped, and any stored reply is the text shown |

## Left out

- Electron's `net.request`, the IPC transport and the preload bridge are transport only. Requests, responses and messages are the events and the log of the model.
- SQLite is the abstract `Store.Db`. A failing statement and the `try`/`catch` around it are not modelled, because every insert succeeds in the model.
- Key encryption and decryption (`safeStorage`, `mockSafeStorage`) are foreign. A key is a present or absent setting row.
- `JSON.parse` and `choices[0]?.delta` are the `parse` parameter. An absent or falsy field is the empty string.
- Plain.ApiErrorMessage: the 100-character cut counts Unicode code points, while `errorBody.slice(0, 100)` counts UTF-16 code units, so a body with characters outside the Basic Multilingual Plane is cut later in the model than in the source, which can also split a surrogate pair.
- Conversation ids are positive: SQLite's `AUTOINCREMENT` row ids start at 1, and `Store.InsertConversation` promises an id of at least 1. The source tests an id for falsiness, and `None` stands for every falsy id; `Some(0)` is never produced.
- Plain.Feed: one clock reading per body chunk, where the source reads `Date.now()` once per content line. `Throttle.Run` models the per-delta readings on their own.
- The 15-second `setTimeout` is the `Timeout` event. Wall-clock time between events is not modelled.
- Vision.SettledIsFinal, Vision.FailureIsFinal, Plain.StepEndsOnce, Plain.RunEndsOnce, Plain.QuietStep, Plain.FailureReported: Electron's `net` is assumed to deliver nothing to a request after its response `end` or its `error`. The source's handlers do not check for this (the vision `data` handler calls `onToken` unguarded, and a late `error` in `callDeepSeek` would send a second `app:error` and `chat:stream-end`). A finished session or settled call ignores such events because the model assumes so.
- Plain.Cancel: what Electron still delivers after `abort()` is unknown. An aborted session is closed and ignores everything but its timer.
- `generateTitle`, its network call and `chat:title-updated` are fire-and-forget. Only the launch of a title task is logged.
- The LangChain model stream and the Tavily retriever are foreign. Their results are inputs (`SearchOutcome`, `AnswerStream`).
- The awaited vision and web-search calls run to completion inside a send. Interleaving with other IPC messages while they are awaited is not modelled.
- The temperatures 0.6 and 0.3 are floats. The reasoning temperature is kept in tenths, and the search model's temperature is left out.
- Model names, endpoint URLs and request headers are constants with no logic. The web-search system prompt is built, but its wording is not analysed.
- The other IPC handlers (listing, creating, deleting conversations, settings, history loading) are not part of this model. Neither are `setCurrentConversation`, `loadConversations` and `handleNewChat` in the window.
- `navigator.onLine` is the `online` input of `ChatStore.HandleSend`. The conversation id returned by `createConversation` is its `created` input.
- JSX rendering, Markdown, syntax highlighting, toasts, clipboard, file reading and the favicon URL are presentation only.
- Message ids (`Date.now() + Math.random()`) are random and nothing depends on them.
- JavaScript `trim` treats every Unicode white space as blank. `Common.IsSpace` uses a fixed set of white-space characters.
- The auto-updater, the packaging scripts and the error boundary component contain no chat logic.

=== FILE: channels.dfy ===
/** What the main process does towards the outside during a send, as one
    ordered log: the messages it sends to the window on its IPC channels, plus
    two effects that are not messages, the abort of an outbound request and
    the launch of a detached title-generation task. */
module Channels {
  import opened Common
  import WebSearch

  datatype Out =
    | StreamChunk(text: string)                        // chat:stream-chunk
    | StreamReasoning(text: string)                    // chat:stream-reasoning
    | SearchUpdate(status: WebSearch.SearchStatus)     // chat:search-update
    | StreamEnd                                        // chat:stream-end
    | Created(conversationId: nat)                     // chat:created
    | AppError(message: string)                        // app:error
    | Abort(request: nat)                              // `abort()` on request number `request`
    | TitleTask(conversationId: nat, prompt: string)   // `generateTitle(prompt, apiKey)` launched

  /** Payloads of the `chat:stream-chunk` messages, in order. */
  function ChunkTexts(log: seq<Out>): seq<string>
  {
    if |log| == 0 then []
    else ChunkTexts(log[..|log| - 1]) + (if log[|log| - 1].StreamChunk? then [log[|log| - 1].text] else [])
  }

  /** Payloads of the `chat:stream-reasoning` messages, in order. */
  function ReasoningTexts(log: seq<Out>): seq<string>
  {
    if |log| == 0 then []
    else ReasoningTexts(log[..|log| - 1]) + (if log[|log| - 1].StreamReasoning? then [log[|log| - 1].text] else [])
  }

  /** Number of `chat:stream-end` messages. */
  function EndCount(log: seq<Out>): nat
  {
    if |log| == 0 then 0
    else EndCount(log[..|log| - 1]) + (if log[|log| - 1].StreamEnd? then 1 else 0)
  }

  lemma {:induction false} ChunkTextsAppend(a: seq<Out>, b: seq<Out>)
    ensures ChunkTexts(a + b) == ChunkTexts(a) + ChunkTexts(b)
    decreases |b|
  {
    if |b| == 0 {
      assert a + b == a;
    } else {
      assert (a + b)[..|a + b| - 1] == a + b[..|b| - 1];
      ChunkTextsAppend(a, b[..|b| - 1]);
    }
  }

  lemma {:induction false} ReasoningTextsAppend(a: seq<Out>, b: seq<Out>)
    ensures ReasoningTexts(a + b) == ReasoningTexts(a) + ReasoningTexts(b)
    decreases |b|
  {
    if |b| == 0 {
      assert a + b == a;
    } else {
      assert (a + b)[..|a + b| - 1] == a + b[..|b| - 1];
      ReasoningTextsAppend(a, b[..|b| - 1]);
    }
  }

  lemma {:induction false} EndCountAppend(a: seq<Out>, b: seq<Out>)
    ensures EndCount(a + b) == EndCount(a) + EndCount(b)
    decreases |b|
  {
    if |b| == 0 {
      assert a + b == a;
    } else {
      assert (a + b)[..|a + b| - 1] == a + b[..|b| - 1];
      EndCountAppend(a, b[..|b| - 1]);
    }
  }

  /** The `stream-chunk` payloads of single messages. */
  lemma SingleOut(o: Out)
    ensures ChunkTexts([o]) == (if o.StreamChunk? then [o.text] else [])
    ensures ReasoningTexts([o]) == (if o.StreamReasoning? then [o.text] else [])
    ensures EndCount([o]) == (if o.StreamEnd? then 1 else 0)
  {
    assert [o][..0] == [];
  }

  lemma {:induction false} NoChunks(log: seq<Out>)
    requires forall i :: 0 <= i < |log| ==> !log[i].StreamChunk?
    ensures ChunkTexts(log) == []
    decreases |log|
  {
    if |log| > 0 {
      NoChunks(log[..|log| - 1]);
    }
  }

  lemma {:induction false} NoReasonings(log: seq<Out>)
    requires forall i :: 0 <= i < |log| ==> !log[i].StreamReasoning?
    ensures ReasoningTexts(log) == []
    decreases |log|
  {
    if |log| > 0 {
      NoReasonings(log[..|log| - 1]);
    }
  }

  lemma {:induction false} NoEnds(log: seq<Out>)
    requires forall i :: 0 <= i < |log| ==> !log[i].StreamEnd?
    ensures EndCount(log) == 0
    decreases |log|
  {
    if |log| > 0 {
      NoEnds(log[..|log| - 1]);
    }
  }

  /** A log whose only `chat:stream-end` is its last message. */
  lemma EndsOnceAtLast(log: seq<Out>)
    requires |log| > 0 && log[|log| - 1].StreamEnd?
    requires forall i :: 0 <= i < |log| - 1 ==> !log[i].StreamEnd?
    ensures EndCount(log) == 1
  {
    NoEnds(log[..|log| - 1]);
  }

  /** Each token handed to `onToken`, as a `chat:stream-chunk`. */
  function TokenMessages(tokens: seq<string>): (r: seq<Out>)
    ensures |r| == |tokens|
    ensures forall i :: 0 <= i < |r| ==> r[i] == StreamChunk(tokens[i])
  {
    if |tokens| == 0 then [] else [StreamChunk(tokens[0])] + TokenMessages(tokens[1..])
  }

  /** The web-search callbacks, as messages: statuses on `chat:search-update`,
      tokens on `chat:stream-chunk`. */
  function ChainMessages(outs: seq<WebSearch.ChainOut>): (r: seq<Out>)
    ensures |r| == |outs|
    ensures forall i :: 0 <= i < |r| ==>
      r[i] == (match outs[i] case Status(st) => SearchUpdate(st) case Token(t) => StreamChunk(t))
  {
    if |outs| == 0 then []
    else
      [match outs[0] case Status(st) => SearchUpdate(st) case Token(t) => StreamChunk(t)] + ChainMessages(outs[1..])
  }

  lemma {:induction false} TokenMessagesChunks(tokens: seq<string>)
    ensures ChunkTexts(TokenMessages(tokens)) == tokens
    ensures EndCount(TokenMessages(tokens)) == 0
    decreases |tokens|
  {
    NoEnds(TokenMessages(tokens));
    if |tokens| > 0 {
      TokenMessagesChunks(tokens[1..]);
      ChunkTextsAppend([StreamChunk(tokens[0])], TokenMessages(tokens[1..]));
      SingleOut(StreamChunk(tokens[0]));
    }
  }

  lemma {:induction false} ChainMessagesChunks(outs: seq<WebSearch.ChainOut>)
    ensures ChunkTexts(ChainMessages(outs)) == WebSearch.TokenTexts(outs)
    ensures EndCount(ChainMessages(outs)) == 0
    decreases |outs|
  {
    NoEnds(ChainMessages(outs));
    if |outs| > 0 {
      var head := ChainMessages(outs)[0];
      ChainMessagesChunks(outs[1..]);
      ChunkTextsAppend([head], ChainMessages(outs[1..]));
      SingleOut(head);
      assert ChainMessages(outs) == [head] + ChainMessages(outs[1..]);
    }
  }

  lemma DropPrefix4<T>(a: seq<T>, b: seq<T>, c: seq<T>, d: seq<T>)
    ensures |a| <= |a + b + c + d| && (a + b + c + d)[|a|..] == b + c + d
  {
  }

  /** Chunk payloads and stream ends of three consecutive stretches of the log. */
  lemma Split3(a: seq<Out>, b: seq<Out>, c: seq<Out>)
    ensures ChunkTexts(a + b + c) == ChunkTexts(a) + ChunkTexts(b) + ChunkTexts(c)
    ensures EndCount(a + b + c) == EndCount(a) + EndCount(b) + EndCount(c)
  {
    ChunkTextsAppend(a, b);
    ChunkTextsAppend(a + b, c);
    EndCountAppend(a, b);
    EndCountAppend(a + b, c);
  }

  /** The messages of a settled vision call: creation messages, the streamed
      tokens, `chat:stream-end`, and title tasks. */
  lemma AddedTexts(created: seq<Out>, tokens: seq<string>, title: seq<Out>)
    requires forall i :: 0 <= i < |created| ==> created[i].Created? || created[i].TitleTask?
    requires forall i :: 0 <= i < |title| ==> title[i].TitleTask?
    ensures var added := created + TokenMessages(tokens) + ([StreamEnd] + title);
      Concat(ChunkTexts(added)) == Concat(tokens) && EndCount(added) == 1
  {
    var tail := [StreamEnd] + title;
    NoChunks(created);
    NoEnds(created);
    NoChunks(tail);
    NoEnds(title);
    EndCountAppend([StreamEnd], title);
    SingleOut(StreamEnd);
    TokenMessagesChunks(tokens);
    Split3(created, TokenMessages(tokens), tail);
    assert [] + tokens + [] == tokens;
  }

  /** The messages of a web search: creation messages, the chain's messages,
      and `chat:stream-end`. */
  lemma ChainAddedTexts(created: seq<Out>, outs: seq<WebSearch.ChainOut>)
    requires forall i :: 0 <= i < |created| ==> created[i].Created? || created[i].TitleTask?
    ensures var added := created + ChainMessages(outs) + [StreamEnd];
      ChunkTexts(added) == WebSearch.TokenTexts(outs) && EndCount(added) == 1
  {
    ChainMessagesChunks(outs);
    NoChunks(created);
    NoEnds(created);
    SingleOut(StreamEnd);
    Split3(created, ChainMessages(outs), [StreamEnd]);
    assert [] + WebSearch.TokenTexts(outs) + [] == WebSearch.TokenTexts(outs);
  }
}

=== FILE: chatstore.dfy ===
/** The renderer's chat store and the input box's send action: the message
    list reducers, which touch only the last message, the "thinking"
    predicate of a message bubble, `handleSend` with its guard, and the
    listeners that apply the main process's messages to the store. */
module ChatStore {
  import opened Common
  import opened Channels
  import Vision
  import WebSearch

  datatype MessageStatus = Sent | Errored

  /** A message in the list. `reasoning` is `None` for a message that never
      had the field; `searchStatus` holds "searching" or "done" once set.
      Message ids are left out. */
  datatype UiMessage = UiMessage(
    role: Role,
    content: string,
    reasoning: Option<string>,
    isLoading: bool,
    status: MessageStatus,
    attachments: seq<Vision.Attachment>,
    searchStatus: Option<string>,
    searchResults: Option<seq<WebSearch.Doc>>)

  /** The store, plus the input box's text and pending attachments. */
  datatype UiState = UiState(
    currentConversationId: Option<nat>,
    messages: seq<UiMessage>,
    isGenerating: bool,
    isReasoningEnabled: bool,
    isWebSearchEnabled: bool,
    input: string,
    attachments: seq<Vision.Attachment>)

  /** Everything but the last message is as it was, and the length is kept. */
  predicate OnlyLastChanged(before: seq<UiMessage>, after: seq<UiMessage>)
  {
    |after| == |before| && (|before| > 0 ==> after[..|after| - 1] == before[..|before| - 1])
  }

  function Last(msgs: seq<UiMessage>): UiMessage
    requires |msgs| > 0
  {
    msgs[|msgs| - 1]
  }

  /** The list with its last message replaced. */
  function WithLast(msgs: seq<UiMessage>, m: UiMessage): (r: seq<UiMessage>)
    requires |msgs| > 0
    ensures OnlyLastChanged(msgs, r) && Last(r) == m
  {
    msgs[..|msgs| - 1] + [m]
  }

  /** `addMessage(role, content, isLoading, status, attachments)`. */
  function AddMessage(msgs: seq<UiMessage>, role: Role, content: string, isLoading: bool,
                      status: MessageStatus, attachments: seq<Vision.Attachment>): (r: seq<UiMessage>)
    ensures |r| == |msgs| + 1 && r[..|msgs|] == msgs
    ensures var m := r[|msgs|];
      && m.role == role && m.content == content && m.isLoading == isLoading
      && m.status == status && m.attachments == attachments
      && m.reasoning == Some("") && m.searchStatus.None? && m.searchResults.None?
  {
    msgs + [UiMessage(role, content, Some(""), isLoading, status, attachments, None, None)]
  }

  /** `updateLastMessage(chunk)`. */
  function UpdateLastMessage(msgs: seq<UiMessage>, chunk: string): (r: seq<UiMessage>)
    ensures OnlyLastChanged(msgs, r)
    ensures |msgs| > 0 ==> var a := Last(msgs); var b := Last(r);
      && b.content == a.content + chunk
      && b.status == Sent
      && b.isLoading == (a.isLoading && IsBlank(a.content + chunk))
      && b.role == a.role && b.reasoning == a.reasoning && b.attachments == a.attachments
      && b.searchStatus == a.searchStatus && b.searchResults == a.searchResults
  {
    if |msgs| == 0 then msgs
    else
      var a := Last(msgs);
      var content := a.content + chunk;
      WithLast(msgs, a.(content := content, isLoading := if !IsBlank(content) then false else a.isLoading, status := Sent))
  }

  /** `updateLastMessageReasoning(chunk)`: a missing field counts as empty. */
  function UpdateLastMessageReasoning(msgs: seq<UiMessage>, chunk: string): (r: seq<UiMessage>)
    ensures OnlyLastChanged(msgs, r)
    ensures |msgs| > 0 ==> var a := Last(msgs); var b := Last(r);
      && b.reasoning == Some(OrEmpty(a.reasoning) + chunk)
      && b.content == a.content && b.isLoading == a.isLoading && b.status == a.status
      && b.role == a.role && b.attachments == a.attachments
      && b.searchStatus == a.searchStatus && b.searchResults == a.searchResults
  {
    if |msgs| == 0 then msgs
    else
      var a := Last(msgs);
      WithLast(msgs, a.(reasoning := Some(OrEmpty(a.reasoning) + chunk)))
  }

  function OrEmpty(s: Option<string>): string
  {
    match s case Some(v) => v case None => ""
  }

  function StatusName(st: WebSearch.SearchStatus): string
  {
    match st
    case Searching => "searching"
    case Done(_) => "done"
  }

  /** `updateLastMessageSearch(statusData)`: the status is always taken; the
      results only when the update carries them, and a `done` update always
      does (an empty list of results still counts). */
  function UpdateLastMessageSearch(msgs: seq<UiMessage>, st: WebSearch.SearchStatus): (r: seq<UiMessage>)
    ensures OnlyLastChanged(msgs, r)
    ensures |msgs| > 0 ==> var a := Last(msgs); var b := Last(r);
      && b.searchStatus == Some(StatusName(st))
      && (st.Done? ==> b.searchResults == Some(st.results))
      && (st.Searching? ==> b.searchResults == a.searchResults)
      && b.content == a.content && b.reasoning == a.reasoning && b.isLoading == a.isLoading
      && b.status == a.status && b.role == a.role && b.attachments == a.attachments
  {
    if |msgs| == 0 then msgs
    else
      var a := Last(msgs);
      var results := match st case Done(rs) => Some(rs) case Searching => a.searchResults;
      WithLast(msgs, a.(searchStatus := Some(StatusName(st)), searchResults := results))
  }

  /** `markLastMessageError()`. */
  function MarkLastMessageError(msgs: seq<UiMessage>): (r: seq<UiMessage>)
    ensures OnlyLastChanged(msgs, r)
    ensures |msgs| > 0 ==> var a := Last(msgs); var b := Last(r);
      && b.status == Errored && !b.isLoading
      && b.content == a.content && b.reasoning == a.reasoning && b.role == a.role
      && b.attachments == a.attachments && b.searchStatus == a.searchStatus && b.searchResults == a.searchResults
  {
    if |msgs| == 0 then msgs
    else WithLast(msgs, Last(msgs).(status := Errored, isLoading := false))
  }

  /** A message bubble shows the thinking dots: an assistant-side message
      with blank content, no reasoning text, and no search status. */
  predicate IsThinking(m: UiMessage)
  {
    && m.role != User
    && IsBlank(m.content)
    && OrEmpty(m.reasoning) == ""
    && m.searchStatus != Some("searching") && m.searchStatus != Some("done")
  }

  /** The thinking state in the bubble's own terms: not a user message, the
      trimmed content empty, the reasoning absent or empty, and the search
      status neither "searching" nor "done". */
  lemma ThinkingIffTrimmedEmpty(m: UiMessage)
    ensures IsThinking(m) <==>
      && m.role != User
      && |Trim(m.content)| == 0
      && (m.reasoning.None? || m.reasoning == Some(""))
      && m.searchStatus !in {Some("searching"), Some("done")}
  {
    TrimEmptyIffBlank(m.content);
  }

  /** Whatever becomes visible ends the thinking state: non-blank content,
      any reasoning text, or any search status; an empty chunk or an error
      mark does not. */
  lemma ThinkingEndsOnOutput(msgs: seq<UiMessage>, chunk: string, st: WebSearch.SearchStatus)
    requires |msgs| > 0
    ensures !IsBlank(Last(msgs).content + chunk) ==> !IsThinking(Last(UpdateLastMessage(msgs, chunk)))
    ensures chunk != "" ==> !IsThinking(Last(UpdateLastMessageReasoning(msgs, chunk)))
    ensures !IsThinking(Last(UpdateLastMessageSearch(msgs, st)))
    ensures IsThinking(Last(MarkLastMessageError(msgs))) == IsThinking(Last(msgs))
    ensures chunk == "" ==> IsThinking(Last(UpdateLastMessage(msgs, chunk))) == IsThinking(Last(msgs))
  {
    if chunk == "" {
      assert Last(msgs).content + chunk == Last(msgs).content;
    }
  }

  /** Chunks applied one after another, as the chunk listener does. */
  function ApplyChunks(msgs: seq<UiMessage>, chunks: seq<string>): seq<UiMessage>
    decreases |chunks|
  {
    if |chunks| == 0 then msgs else ApplyChunks(UpdateLastMessage(msgs, chunks[0]), chunks[1..])
  }

  /** Streaming into the last message appends the chunks, in order, and
      leaves the rest of the list alone. */
  lemma {:induction false} ChunksAccumulate(msgs: seq<UiMessage>, chunks: seq<string>)
    requires |msgs| > 0
    ensures var r := ApplyChunks(msgs, chunks);
      && OnlyLastChanged(msgs, r)
      && Last(r).content == Last(msgs).content + Concat(chunks)
      && Last(r).role == Last(msgs).role
    decreases |chunks|
  {
    if |chunks| > 0 {
      var next := UpdateLastMessage(msgs, chunks[0]);
      ChunksAccumulate(next, chunks[1..]);
      ConcatCons(chunks[0], chunks[1..]);
      assert chunks == [chunks[0]] + chunks[1..];
    } else {
      assert Concat([]) == "";
      assert Last(msgs).content + "" == Last(msgs).content;
    }
  }

  /** `removeAttachment(index)`: the filter that keeps every position but
      `index`. */
  method RemoveAttachment<T>(atts: seq<T>, index: int) returns (r: seq<T>)
    ensures 0 <= index < |atts| ==> r == atts[..index] + atts[index + 1..]
    ensures !(0 <= index < |atts|) ==> r == atts
  {
    r := [];
    var i := 0;
    while i < |atts|
      invariant 0 <= i <= |atts|
      invariant 0 <= index < i ==> r == atts[..index] + atts[index + 1..i]
      invariant !(0 <= index < i) ==> r == atts[..i]
    {
      if i != index {
        if 0 <= index < i {
          assert atts[index + 1..i + 1] == atts[index + 1..i] + [atts[i]];
        } else {
          assert atts[..i + 1] == atts[..i] + [atts[i]];
        }
        r := r + [atts[i]];
      }
      i := i + 1;
    }
    assert atts[..|atts|] == atts;
  }

  /** The arguments of `sendMessage`. */
  datatype Outgoing = Outgoing(
    message: string,
    conversationId: Option<nat>,
    isReasoning: bool,
    isWebSearch: bool,
    attachments: seq<Vision.Attachment>)

  datatype Handled = Handled(ui: UiState, sent: Option<Outgoing>)

  /** `handleSend`: nothing for blank input, while generating, or offline;
      otherwise the user message (with its attachments) and an empty
      assistant placeholder are appended, generation starts, a missing
      conversation is created first (`created` is the id that call returns),
      and the message is sent, always under a conversation id. */
  function HandleSend(ui: UiState, online: bool, created: nat): (r: Handled)
    ensures IsBlank(ui.input) || ui.isGenerating || !online ==> r == Handled(ui, None)
    ensures !(IsBlank(ui.input) || ui.isGenerating || !online) ==>
      && r.sent.Some?
      && r.ui.isGenerating && r.ui.input == "" && r.ui.attachments == []
      && |r.ui.messages| == |ui.messages| + 2 && r.ui.messages[..|ui.messages|] == ui.messages
      && r.sent.value.message == ui.input && r.sent.value.attachments == ui.attachments
      && r.sent.value.isReasoning == ui.isReasoningEnabled && r.sent.value.isWebSearch == ui.isWebSearchEnabled
      && r.sent.value.conversationId.Some?
      && r.sent.value.conversationId == (if ui.currentConversationId.Some? then ui.currentConversationId else Some(created))
      && r.ui.currentConversationId == r.sent.value.conversationId
  {
    if IsBlank(ui.input) || ui.isGenerating || !online then Handled(ui, None)
    else
      var withUser := AddMessage(ui.messages, User, ui.input, false, Sent, ui.attachments);
      var withPlaceholder := AddMessage(withUser, Assistant, "", false, Sent, []);
      var conversationId := if ui.currentConversationId.Some? then ui.currentConversationId else Some(created);
      assert withPlaceholder[..|ui.messages|] == withUser[..|ui.messages|];
      Handled(ui.(messages := withPlaceholder, isGenerating := true, input := "", attachments := [],
                  currentConversationId := conversationId),
              Some(Outgoing(ui.input, conversationId, ui.isReasoningEnabled, ui.isWebSearchEnabled, ui.attachments)))
  }

  /** After a send the list ends with the user's message and then a thinking
      placeholder. */
  lemma SendAppendsPair(ui: UiState, online: bool, created: nat)
    requires !IsBlank(ui.input) && !ui.isGenerating && online
    ensures var r := HandleSend(ui, online, created).ui;
      var n := |ui.messages|;
      && r.messages[n].role == User && r.messages[n].content == ui.input && r.messages[n].attachments == ui.attachments
      && r.messages[n].status == Sent
      && r.messages[n + 1].role == Assistant && r.messages[n + 1].content == ""
      && Last(r.messages).role == Assistant && Last(r.messages).content == ""
      && IsThinking(Last(r.messages))
  {
    var n := |ui.messages|;
    var withUser := AddMessage(ui.messages, User, ui.input, false, Sent, ui.attachments);
    assert HandleSend(ui, online, created).ui.messages == AddMessage(withUser, Assistant, "", false, Sent, []);
    assert IsBlank("");
  }

  // ---------------------------------------------------------------------------
  // Listeners

  /** What the window does with one message from the main process. */
  function Listen(ui: UiState, o: Out): (r: UiState)
    ensures OnlyLastChanged(ui.messages, r.messages)
    ensures r.input == ui.input && r.attachments == ui.attachments
    ensures r.isReasoningEnabled == ui.isReasoningEnabled && r.isWebSearchEnabled == ui.isWebSearchEnabled
    ensures r.currentConversationId != ui.currentConversationId ==> o.Created?
    ensures r.isGenerating != ui.isGenerating ==> !r.isGenerating && (o.StreamEnd? || o.AppError?)
  {
    match o
    case StreamChunk(t) => ui.(messages := UpdateLastMessage(ui.messages, t))
    case StreamReasoning(t) => ui.(messages := UpdateLastMessageReasoning(ui.messages, t))
    case SearchUpdate(st) => ui.(messages := UpdateLastMessageSearch(ui.messages, st))
    case StreamEnd => ui.(isGenerating := false)
    case Created(id) => ui.(currentConversationId := Some(id))
    case AppError(_) => ui.(isGenerating := false, messages := MarkLastMessageError(ui.messages))
    case Abort(_) => ui
    case TitleTask(_, _) => ui
  }

  function Replay(ui: UiState, log: seq<Out>): UiState
    decreases |log|
  {
    if |log| == 0 then ui else Listen(Replay(ui, log[..|log| - 1]), log[|log| - 1])
  }

  /** One message from the main process: the last message's content grows
      by the chunk payload, if any; only a stream end or an error touches
      the generating flag, and only to clear it. */
  lemma ListenStep(ui: UiState, o: Out)
    requires |ui.messages| > 0
    ensures var r := Listen(ui, o);
      && OnlyLastChanged(ui.messages, r.messages)
      && Last(r.messages).content == Last(ui.messages).content + Concat(ChunkTexts([o]))
      && Last(r.messages).role == Last(ui.messages).role
      && (EndCount([o]) > 0 ==> !r.isGenerating)
      && (!ui.isGenerating ==> !r.isGenerating)
  {
    SingleOut(o);
    if o.StreamChunk? {
      ConcatOne(o.text);
    } else {
      assert Concat([]) == "";
      assert Last(ui.messages).content + "" == Last(ui.messages).content;
    }
  }

  lemma ChunkConcatSnoc(init: seq<Out>, o: Out)
    ensures Concat(ChunkTexts(init + [o])) == Concat(ChunkTexts(init)) + Concat(ChunkTexts([o]))
    ensures EndCount(init + [o]) == EndCount(init) + EndCount([o])
  {
    ChunkTextsAppend(init, [o]);
    ConcatAppend(ChunkTexts(init), ChunkTexts([o]));
    EndCountAppend(init, [o]);
  }

  /** Replaying messages: only the last message of the list changes, its
      content grows by exactly the `chat:stream-chunk` payloads, and any
      `chat:stream-end` stops the generating flag for good. */
  lemma {:induction false} ReplayShows(ui: UiState, log: seq<Out>)
    requires |ui.messages| > 0
    ensures var r := Replay(ui, log);
      && OnlyLastChanged(ui.messages, r.messages)
      && Last(r.messages).content == Last(ui.messages).content + Concat(ChunkTexts(log))
      && Last(r.messages).role == Last(ui.messages).role
      && (EndCount(log) > 0 ==> !r.isGenerating)
    decreases |log|
  {
    if |log| == 0 {
      assert Concat([]) == "";
      assert Last(ui.messages).content + "" == Last(ui.messages).content;
    } else {
      var init := log[..|log| - 1];
      var o := log[|log| - 1];
      ReplayShows(ui, init);
      var before := Replay(ui, init);
      ListenStep(before, o);
      assert log == init + [o];
      ChunkConcatSnoc(init, o);
      Assoc(Last(ui.messages).content, Concat(ChunkTexts(init)), Concat(ChunkTexts([o])));
    }
  }
}

=== FILE: common.dfy ===
/** Shared vocabulary of the chat pipeline: optional values, the role of a
    chat turn, and the few JavaScript string operations the pipeline relies on
    (`split`, `startsWith`, `slice`, `trim`, number-to-decimal conversion). */
module Common {

  /** A value that may be absent (`null`, `undefined` or a missing key). */
  datatype Option<+T> = None | Some(value: T)

  /** A settled promise: its value, or the message of the error it rejected with. */
  datatype Result<+T> = Ok(value: T) | Err(message: string)

  /** The `role` of a chat turn, as stored in the messages table and sent upstream. */
  datatype Role = System | User | Assistant

  /** The warning sign and variation selector that prefix every user-facing error. */
  const Warn: string := "\U{26A0}\U{FE0F} "

  /** Concatenation of a sequence of strings, in order. */
  function Concat(ss: seq<string>): string
  {
    if |ss| == 0 then "" else Concat(ss[..|ss| - 1]) + ss[|ss| - 1]
  }

  lemma ConcatAppend(a: seq<string>, b: seq<string>)
    ensures Concat(a + b) == Concat(a) + Concat(b)
    decreases |b|
  {
    if |b| == 0 {
      assert a + b == a;
    } else {
      assert (a + b)[..|a + b| - 1] == a + b[..|b| - 1];
      ConcatAppend(a, b[..|b| - 1]);
    }
  }

  lemma Assoc(a: string, b: string, c: string)
    ensures a + (b + c) == a + b + c
  {
  }

  lemma ConcatOne(s: string)
    ensures Concat([s]) == s
  {
    assert [s][..0] == [];
  }

  /** Concatenation of a sequence that starts with `s`. */
  lemma ConcatCons(s: string, ss: seq<string>)
    ensures Concat([s] + ss) == s + Concat(ss)
  {
    ConcatAppend([s], ss);
    ConcatOne(s);
  }

  /** `s.startsWith(p)`. */
  predicate StartsWith(s: string, p: string)
  {
    |p| <= |s| && s[..|p|] == p
  }

  /** `s.slice(0, n)`: the first `n` characters, or all of `s` when it is shorter. */
  function Take(s: string, n: nat): (r: string)
    ensures |r| <= n && |r| <= |s|
    ensures |s| <= n ==> r == s
    ensures r <= s
  {
    if |s| <= n then s else s[..n]
  }

  /** `s.split(sep)` for a one-character separator: the maximal separator-free
      pieces between separators, including empty pieces at either end. */
  function Split(s: string, sep: char): (pieces: seq<string>)
    ensures |pieces| >= 1
    decreases |s|
  {
    if |s| == 0 then [""]
    else
      var rest := Split(s[1..], sep);
      if s[0] == sep then [""] + rest
      else [[s[0]] + rest[0]] + rest[1..]
  }

  /** `pieces.join(sep)`. */
  function Join(pieces: seq<string>, sep: string): string
  {
    if |pieces| == 0 then ""
    else if |pieces| == 1 then pieces[0]
    else pieces[0] + sep + Join(pieces[1..], sep)
  }

  /** Splitting and re-joining with the same separator gives back the input. */
  lemma {:induction false} JoinSplit(s: string, sep: char)
    ensures Join(Split(s, sep), [sep]) == s
    decreases |s|
  {
    if |s| == 0 {
    } else {
      var rest := Split(s[1..], sep);
      JoinSplit(s[1..], sep);
      if s[0] == sep {
        assert Split(s, sep) == [""] + rest;
        assert ([""] + rest)[1..] == rest;
        assert s == [sep] + s[1..];
      } else {
        var first := [s[0]] + rest[0];
        assert Split(s, sep) == [first] + rest[1..];
        if |rest| == 1 {
          assert Join(rest, [sep]) == rest[0];
        } else {
          assert ([first] + rest[1..])[1..] == rest[1..];
          assert Join(rest, [sep]) == rest[0] + [sep] + Join(rest[1..], [sep]);
        }
        assert s == [s[0]] + s[1..];
      }
    }
  }

  /** No piece produced by `Split` contains the separator. */
  lemma {:induction false} SplitPiecesFree(s: string, sep: char)
    ensures forall i :: 0 <= i < |Split(s, sep)| ==> sep !in Split(s, sep)[i]
    decreases |s|
  {
    if |s| > 0 {
      SplitPiecesFree(s[1..], sep);
    }
  }

  /** Characters JavaScript's `String.prototype.trim` removes: the WhiteSpace
      and LineTerminator code points of ECMAScript. */
  predicate IsSpace(c: char)
  {
    || c == '\t' || c == '\n' || c == '\U{000B}' || c == '\U{000C}' || c == '\r'
    || c == ' ' || c == '\U{00A0}' || c == '\U{1680}'
    || ('\U{2000}' <= c <= '\U{200A}')
    || c == '\U{2028}' || c == '\U{2029}' || c == '\U{202F}' || c == '\U{205F}'
    || c == '\U{3000}' || c == '\U{FEFF}'
  }

  function TrimStart(s: string): (r: string)
    ensures |r| <= |s|
    ensures r == s[|s| - |r|..]
    ensures |r| > 0 ==> !IsSpace(r[0])
    ensures forall i :: 0 <= i < |s| - |r| ==> IsSpace(s[i])
  {
    if |s| > 0 && IsSpace(s[0]) then TrimStart(s[1..]) else s
  }

  function TrimEnd(s: string): (r: string)
    ensures |r| <= |s|
    ensures r == s[..|r|]
    ensures |r| > 0 ==> !IsSpace(r[|r| - 1])
    ensures forall i :: |r| <= i < |s| ==> IsSpace(s[i])
  {
    if |s| > 0 && IsSpace(s[|s| - 1]) then TrimEnd(s[..|s| - 1]) else s
  }

  /** `s.trim()`. */
  function Trim(s: string): string
  {
    TrimEnd(TrimStart(s))
  }

  /** A string is blank when every character is trimmable. */
  predicate IsBlank(s: string)
  {
    forall i :: 0 <= i < |s| ==> IsSpace(s[i])
  }

  /** `s.trim().length === 0` holds exactly for blank strings. */
  lemma TrimEmptyIffBlank(s: string)
    ensures |Trim(s)| == 0 <==> IsBlank(s)
  {
    var t := TrimStart(s);
    if |Trim(s)| != 0 {
      var r := Trim(s);
      assert r == t[..|r|] && |t| > 0;
      assert !IsSpace(t[0]);
      assert s[|s| - |t|] == t[0];
    }
  }

  /** A trimmed string begins and ends with a non-space character. */
  lemma TrimEnds(s: string)
    ensures var r := Trim(s); |r| > 0 ==> !IsSpace(r[0]) && !IsSpace(r[|r| - 1])
  {
    var t := TrimStart(s);
    var r := TrimEnd(t);
    assert Trim(s) == r;
    if |r| > 0 {
      assert |t| > 0 && !IsSpace(t[0]);
      assert r == t[..|r|];
      assert r[0] == t[0];
    }
  }

  /** Decimal digit of a value below ten. */
  function Digit(d: nat): (c: char)
    requires d < 10
    ensures '0' <= c <= '9' && (c - '0') as nat == d
  {
    "0123456789"[d]
  }

  /** Decimal rendering of a natural number, as JavaScript's template literals
      render a non-negative integer. */
  function NatToString(n: nat): (r: string)
    ensures |r| >= 1
    ensures forall i :: 0 <= i < |r| ==> '0' <= r[i] <= '9'
    ensures n > 0 ==> r[0] != '0'
  {
    if n < 10 then [Digit(n)] else NatToString(n / 10) + [Digit(n % 10)]
  }

  /** Value of a string of decimal digits. */
  function DecimalValue(s: string): nat
    requires forall i :: 0 <= i < |s| ==> '0' <= s[i] <= '9'
  {
    if |s| == 0 then 0 else 10 * DecimalValue(s[..|s| - 1]) + (s[|s| - 1] - '0') as nat
  }

  /** Reading back the decimal rendering gives the number. */
  lemma {:induction false} NatToStringRoundTrip(n: nat)
    ensures DecimalValue(NatToString(n)) == n
  {
    if n >= 10 {
      var r := NatToString(n);
      NatToStringRoundTrip(n / 10);
      assert r[..|r| - 1] == NatToString(n / 10);
      assert r[|r| - 1] == Digit(n % 10);
    }
  }
}

=== FILE: controller.dfy ===
/** The main-process handlers `chat:send` and `chat:stop`, and the delivery of
    transport events to the plain-chat requests in flight. A send first aborts
    the current request and, for a known conversation, stores the user message
    (with an attachment marker); it then routes on the attachments (vision),
    else on the web-search flag, else to the plain chat. Only the plain chat
    becomes the current, cancellable request. The awaited vision and
    web-search calls run to completion inside the send, their foreign
    behaviour supplied as inputs. */
module Controller {
  import opened Common
  import opened Sse
  import opened Store
  import opened Channels
  import Plain
  import Vision
  import WebSearch

  const WebSearchKeysMessage: string := Warn + "Missing API Keys (DeepSeek or Tavily). Please check Settings."
  const VisionErrorPrefix: string := Warn + "Vision Model Error: "

  /** The title prompt of an image-only message. */
  const ImageAnalysis: string := "Image Analysis"

  /** The `chat:send` arguments. */
  datatype SendRequest = SendRequest(
    message: string,
    conversationId: Option<nat>,
    isReasoning: bool,
    isWebSearch: bool,
    attachments: seq<Vision.Attachment>)

  /** What the awaited foreign calls do: the vision request's transport
      events, the web search's outcome, and the answering model's stream. */
  datatype Foreign = Foreign(visionEvents: seq<NetEvent>, search: WebSearch.SearchOutcome, answer: WebSearch.AnswerStream)

  /** The main process: the database, the current (cancellable) request, every
      plain-chat request ever started (numbered by position), and everything
      sent to the window so far. */
  datatype Main = Main(db: Db, current: Option<nat>, sessions: seq<Plain.Session>, log: seq<Out>)

  datatype Command = Send(request: SendRequest, foreign: Foreign) | Stop | Net(session: nat, event: NetEvent)

  predicate Inv(m: Main)
  {
    && Valid(m.db)
    && (forall i :: 0 <= i < |m.sessions| ==> m.sessions[i].request == i && Plain.TimerOk(m.sessions[i]))
    && (m.current.Some? ==> m.current.value < |m.sessions|)
  }

  function Boot(apiKey: Option<string>, tavilyKey: Option<string>): (m: Main)
    ensures Inv(m) && m.current.None? && m.log == []
  {
    Main(Empty(apiKey, tavilyKey), None, [], [])
  }

  /** The rows of `a` are still there, in place, in `b`. */
  predicate Extends(a: Db, b: Db)
  {
    && |a.messages| <= |b.messages| && b.messages[..|a.messages|] == a.messages
    && |a.conversations| <= |b.conversations| && b.conversations[..|a.conversations|] == a.conversations
    && a.apiKey == b.apiKey && a.tavilyKey == b.tavilyKey
  }

  lemma ExtendsTrans(a: Db, b: Db, c: Db)
    requires Extends(a, b) && Extends(b, c)
    ensures Extends(a, c)
  {
    assert c.messages[..|a.messages|] == c.messages[..|b.messages|][..|a.messages|];
    assert c.conversations[..|a.conversations|] == c.conversations[..|b.conversations|][..|a.conversations|];
  }

  /** `currentRequest.abort(); currentRequest = null`, when there is one. */
  function AbortCurrent(m: Main): (r: Main)
    requires Inv(m)
    ensures Inv(r) && r.current.None? && r.db == m.db && |r.sessions| == |m.sessions|
    ensures m.current.None? ==> r == m
    ensures m.current.Some? ==> var k := m.current.value;
      && r.log == m.log + [Abort(k)]
      && r.sessions[k] == Plain.Cancel(m.sessions[k])
      && (forall i :: 0 <= i < |m.sessions| && i != k ==> r.sessions[i] == m.sessions[i])
  {
    match m.current
    case None => m
    case Some(k) =>
      m.(current := None, sessions := m.sessions[k := Plain.Cancel(m.sessions[k])], log := m.log + [Abort(k)])
  }

  /** The marker appended to a stored user message: the number of all
      attachments, whatever their kind. */
  function AttachmentMarker(n: nat): string
  {
    "\n\n[Attached " + NatToString(n) + " image(s)]"
  }

  /** The stored text of a user message. */
  function StoredContent(req: SendRequest): string
  {
    req.message + (if |req.attachments| > 0 then AttachmentMarker(|req.attachments|) else "")
  }

  /** The marker reads back as the attachment count, and a message without
      attachments is stored verbatim. */
  lemma StoredContentMarker(req: SendRequest)
    ensures var c := StoredContent(req);
      && c[..|req.message|] == req.message
      && (|req.attachments| == 0 <==> |c| == |req.message|)
      && (|req.attachments| > 0 ==>
            var digits := c[|req.message| + |"\n\n[Attached "|..|c| - |" image(s)]"|];
            DecimalValue(digits) == |req.attachments|)
  {
    var c := StoredContent(req);
    if |req.attachments| > 0 {
      var n := NatToString(|req.attachments|);
      assert c == req.message + "\n\n[Attached " + n + " image(s)]";
      assert c[|req.message| + |"\n\n[Attached "|..|c| - |" image(s)]"|] == n;
      NatToStringRoundTrip(|req.attachments|);
    }
  }

  /** The immediate save for a known conversation. */
  function SaveUserMessage(db: Db, req: SendRequest): (r: Db)
    requires Valid(db)
    ensures Valid(r) && Extends(db, r)
  {
    match req.conversationId
    case None => db
    case Some(id) =>
      var r := InsertMessage(db, id, User, StoredContent(req));
      assert r.conversations[..|db.conversations|] == db.conversations;
      r
  }

  /** Title backfill: a title task for a conversation that still has the
      default title or at most two messages, when the API key is set. */
  function Backfill(db: Db, id: nat, prompt: string): (out: seq<Out>)
    requires Valid(db)
    ensures |out| <= 1
    ensures |out| == 1 <==>
      && (exists c :: c in db.conversations && c.id == id && (c.title == DefaultTitle || MessageCount(db, id) <= 2))
      && db.apiKey.Some?
    ensures |out| == 1 ==> out[0] == TitleTask(id, prompt)
    ensures forall i :: 0 <= i < |out| ==> out[i].TitleTask?
  {
    match FindConversation(db.conversations, id)
    case None => []
    case Some(c) =>
      FindConversationUnique(db.conversations, id);
      if (c.title == DefaultTitle || MessageCount(db, id) <= 2) && db.apiKey.Some? then [TitleTask(id, prompt)] else []
  }

  /** Conversation ids are unique in a store, so the lookup finds the one row
      with the id. */
  lemma {:induction false} FindConversationUnique(convs: seq<Conversation>, id: nat)
    requires forall i, j :: 0 <= i < j < |convs| ==> convs[i].id < convs[j].id
    ensures forall c :: c in convs && c.id == id ==> FindConversation(convs, id) == Some(c)
    decreases |convs|
  {
    if |convs| > 0 {
      FindConversationUnique(convs[1..], id);
      forall c | c in convs && c.id == id
        ensures FindConversation(convs, id) == Some(c)
      {
        var k :| 0 <= k < |convs| && convs[k] == c;
        if convs[0].id == id {
          assert forall j :: 0 < j < |convs| ==> convs[j].id > convs[0].id;
          assert k == 0;
        } else {
          assert convs[1..][k - 1] == c;
        }
      }
    }
  }

  // ---------------------------------------------------------------------------
  // The three routes of a send

  /** Vision route. Without an API key it reports and ends. Otherwise a new
      conversation is created first (user message with marker,
      `chat:created`, and a title task when the message is not blank), then
      the vision call streams its tokens; on success `chat:stream-end`, the
      answer stored when non-empty, and the title backfill with the message or
      "Image Analysis"; on failure the error and `chat:stream-end`. A call that
      never settles leaves the handler waiting. */
  function SendVision(m: Main, req: SendRequest, evs: seq<NetEvent>, parse: Parser): (r: Main)
    requires Inv(m)
    ensures Inv(r) && Extends(m.db, r.db)
    ensures r.current == m.current && r.sessions == m.sessions
    ensures |r.log| >= |m.log| && r.log[..|m.log|] == m.log
  {
    if m.db.apiKey.None? then m.(log := m.log + [AppError(Plain.MissingKeyMessage), StreamEnd])
    else
      var l := VisionLazy(m.db, req);
      var call := Vision.CallVision(evs, parse);
      var streamed := TokenMessages(call.tokens);
      var tail := VisionSettle(l, call.outcome, req.message);
      ExtendsTrans(m.db, l.db, tail.db);
      assert (m.log + l.out + streamed + tail.out)[..|m.log|] == m.log;
      m.(db := tail.db, log := m.log + l.out + streamed + tail.out)
  }

  /** What follows the streamed tokens of a vision call, by its outcome. */
  function VisionSettle(l: Plain.Lazy, outcome: Vision.Outcome, message: string): (t: Plain.Lazy)
    requires Valid(l.db) && l.conversationId.Some?
    ensures Valid(t.db) && Extends(l.db, t.db)
  {
    match outcome
    case Pending => Plain.Lazy(l.db, l.conversationId, [])
    case Rejected(msg) => Plain.Lazy(l.db, l.conversationId, [AppError(VisionErrorPrefix + msg), StreamEnd])
    case Resolved(text) =>
      var db2 := Persist(l.db, l.conversationId, text);
      var title := Backfill(db2, l.conversationId.value, if IsBlank(message) then ImageAnalysis else message);
      Plain.Lazy(db2, l.conversationId, [StreamEnd] + title)
  }

  /** Lazy creation on the vision route. */
  function VisionLazy(db: Db, req: SendRequest): (r: Plain.Lazy)
    requires Valid(db)
    ensures Valid(r.db) && Extends(db, r.db) && r.conversationId.Some?
    ensures forall i :: 0 <= i < |r.out| ==> r.out[i].Created? || r.out[i].TitleTask?
    ensures req.conversationId.Some? ==> r == Plain.Lazy(db, req.conversationId, [])
  {
    match req.conversationId
    case Some(_) => Plain.Lazy(db, req.conversationId, [])
    case None =>
      var c := InsertConversation(db, DefaultTitle);
      var db2 := InsertMessage(c.db, c.id, User, req.message + AttachmentMarker(|req.attachments|));
      assert db2.conversations[..|db.conversations|] == db.conversations;
      assert db2.messages[..|db.messages|] == db.messages;
      Plain.Lazy(db2, Some(c.id), [Created(c.id)] + (if IsBlank(req.message) then [] else [TitleTask(c.id, req.message)]))
  }

  /** Storing an answer: only a non-empty one, and only under a conversation. */
  function Persist(db: Db, conversationId: Option<nat>, text: string): (r: Db)
    requires Valid(db)
    ensures Valid(r) && Extends(db, r) && r.conversations == db.conversations
    ensures |r.messages| == |db.messages| + (if text != "" && conversationId.Some? then 1 else 0)
    ensures text != "" && conversationId.Some? ==>
      r.messages[|db.messages|].conversationId == conversationId.value
      && r.messages[|db.messages|].role == Assistant && r.messages[|db.messages|].content == text
  {
    if text != "" && conversationId.Some? then
      var r := InsertMessage(db, conversationId.value, Assistant, text);
      assert r.conversations[..|db.conversations|] == db.conversations;
      r
    else db
  }

  /** Web-search route. Both key rows must exist; a new conversation is
      created with the plain message and no title task; the chain's statuses
      and tokens are forwarded; `chat:stream-end` follows either way, and a
      non-empty answer is stored on success. */
  function SendWebSearch(m: Main, req: SendRequest, search: WebSearch.SearchOutcome, answer: WebSearch.AnswerStream): (r: Main)
    requires Inv(m)
    ensures Inv(r) && Extends(m.db, r.db)
    ensures r.current == m.current && r.sessions == m.sessions
    ensures |r.log| >= |m.log| && r.log[..|m.log|] == m.log
  {
    if m.db.apiKey.None? || m.db.tavilyKey.None? then
      m.(log := m.log + [AppError(WebSearchKeysMessage), StreamEnd])
    else
      var l := SearchLazy(m.db, req);
      var run := WebSearch.RunChain(req.message, m.db.apiKey.value, m.db.tavilyKey.value, search, answer);
      var db2 := match run.result
        case Ok(text) => Persist(l.db, l.conversationId, text)
        case Err(_) => l.db;
      ExtendsTrans(m.db, l.db, db2);
      assert (m.log + l.out + ChainMessages(run.outs) + [StreamEnd])[..|m.log|] == m.log;
      m.(db := db2, log := m.log + l.out + ChainMessages(run.outs) + [StreamEnd])
  }

  /** Lazy creation on the web-search route. */
  function SearchLazy(db: Db, req: SendRequest): (r: Plain.Lazy)
    requires Valid(db)
    ensures Valid(r.db) && Extends(db, r.db) && r.conversationId.Some?
    ensures forall i :: 0 <= i < |r.out| ==> r.out[i].Created? || r.out[i].TitleTask?
    ensures req.conversationId.Some? ==> r == Plain.Lazy(db, req.conversationId, [])
  {
    match req.conversationId
    case Some(_) => Plain.Lazy(db, req.conversationId, [])
    case None =>
      var c := InsertConversation(db, DefaultTitle);
      var db2 := InsertMessage(c.db, c.id, User, req.message);
      assert db2.conversations[..|db.conversations|] == db.conversations;
      assert db2.messages[..|db.messages|] == db.messages;
      Plain.Lazy(db2, Some(c.id), [Created(c.id)])
  }

  /** Plain route: `callDeepSeek` starts request number `|sessions|` and makes
      it current (or reports a missing key), then the title backfill runs for a
      conversation known at send time. */
  function SendPlain(m: Main, req: SendRequest): (r: Main)
    requires Inv(m) && m.current.None?
    ensures Inv(r) && r.db == m.db
    ensures |m.sessions| <= |r.sessions| <= |m.sessions| + 1 && r.sessions[..|m.sessions|] == m.sessions
    ensures r.current.Some? <==> m.db.apiKey.Some?
    ensures r.current.Some? ==> r.current.value == |m.sessions|
    ensures |r.log| >= |m.log| && r.log[..|m.log|] == m.log
  {
    var n := |m.sessions|;
    var title := match req.conversationId
      case Some(id) => Backfill(m.db, id, req.message)
      case None => [];
    match Plain.Open(m.db, n, req.message, req.conversationId, req.isReasoning)
    case NoKey(out) =>
      assert (m.log + out + title)[..|m.log|] == m.log;
      m.(log := m.log + out + title)
    case Started(s) =>
      assert (m.log + title)[..|m.log|] == m.log;
      m.(sessions := m.sessions + [s], current := Some(n), log := m.log + title)
  }

  /** What every send does before routing: abort the current request, and
      store the user message of a known conversation. */
  function Prelude(m: Main, req: SendRequest): (r: Main)
    requires Inv(m)
    ensures Inv(r) && r.current.None? && r.db == SaveUserMessage(m.db, req)
    ensures r.log == m.log + (if m.current.Some? then [Abort(m.current.value)] else [])
    ensures |r.sessions| == |m.sessions|
    ensures m.current.Some? ==> r.sessions[m.current.value].phase.Closed?
    ensures forall i :: 0 <= i < |m.sessions| && m.current != Some(i) ==> r.sessions[i] == m.sessions[i]
  {
    var m1 := AbortCurrent(m);
    m1.(db := SaveUserMessage(m1.db, req))
  }

  /** `chat:send`. */
  function SendMessage(m: Main, req: SendRequest, f: Foreign, parse: Parser): (r: Main)
    requires Inv(m)
    ensures Inv(r)
    ensures r.current.Some? ==> r.current.value == |m.sessions|
    ensures Extends(Prelude(m, req).db, r.db)
  {
    var m2 := Prelude(m, req);
    if |req.attachments| > 0 then SendVision(m2, req, f.visionEvents, parse)
    else if req.isWebSearch then SendWebSearch(m2, req, f.search, f.answer)
    else SendPlain(m2, req)
  }

  /** `chat:stop`. */
  function StopGeneration(m: Main): (r: Main)
    requires Inv(m)
    ensures Inv(r) && r.current.None?
  {
    AbortCurrent(m)
  }

  /** A transport event for request `i`. A firing timer aborts the current
      request even when it is not request `i`. */
  function Deliver(m: Main, i: nat, ev: NetEvent, parse: Parser): (r: Main)
    requires Inv(m)
    ensures Inv(r) && r.current == m.current && |r.sessions| == |m.sessions|
    ensures |r.log| >= |m.log| && r.log[..|m.log|] == m.log
  {
    if i >= |m.sessions| then m
    else
      var s := m.sessions[i];
      var r := Plain.Step(s, m.db, m.current, ev, parse);
      Plain.StepKeepsTimerOk(s, m.db, m.current, ev, parse);
      var sessions := m.sessions[i := r.session];
      var sessions2 :=
        if ev.Timeout? && s.timerArmed && m.current.Some? && m.current.value != i
        then sessions[m.current.value := Plain.Cancel(sessions[m.current.value])]
        else sessions;
      assert (m.log + r.out)[..|m.log|] == m.log;
      m.(db := r.db, sessions := sessions2, log := m.log + r.out)
  }

  function Apply(m: Main, cmd: Command, parse: Parser): (r: Main)
    requires Inv(m)
    ensures Inv(r)
  {
    match cmd
    case Send(req, f) => SendMessage(m, req, f, parse)
    case Stop => StopGeneration(m)
    case Net(i, ev) => Deliver(m, i, ev, parse)
  }

  function ApplyAll(m: Main, cmds: seq<Command>, parse: Parser): (r: Main)
    requires Inv(m)
    ensures Inv(r)
    decreases |cmds|
  {
    if |cmds| == 0 then m else ApplyAll(Apply(m, cmds[0], parse), cmds[1..], parse)
  }

  // ---------------------------------------------------------------------------
  // Properties

  /** `chat:stop` aborts the current request, if any, and nothing else; a
      second stop does nothing. */
  lemma StopAbortsCurrent(m: Main)
    requires Inv(m)
    ensures var r := StopGeneration(m);
      && r.db == m.db && r.current.None?
      && (m.current.None? ==> r == m)
      && (m.current.Some? ==> r.log == m.log + [Abort(m.current.value)] && r.sessions[m.current.value].phase.Closed?)
      && (forall i :: 0 <= i < |m.sessions| && m.current != Some(i) ==> r.sessions[i] == m.sessions[i])
      && StopGeneration(r) == r
  {
  }

  /** Only a plain chat with an API key becomes the current request, so only
      it can be stopped or aborted by a later send; a vision or web-search send
      leaves no current request. Attachments take precedence over web search. */
  lemma OnlyPlainIsCurrent(m: Main, req: SendRequest, f: Foreign, parse: Parser)
    requires Inv(m)
    ensures var r := SendMessage(m, req, f, parse);
      && (r.current.Some? <==> |req.attachments| == 0 && !req.isWebSearch && m.db.apiKey.Some?)
      && (r.current.Some? ==>
            var s := r.sessions[r.current.value];
            s.prompt == req.message && s.conversationId == req.conversationId
            && s.phase.AwaitingResponse? && s.timerArmed)
  {
    var m2 := Prelude(m, req);
    if |req.attachments| == 0 && !req.isWebSearch && m.db.apiKey.Some? {
      assert m2.db.apiKey == m.db.apiKey;
      var r := SendPlain(m2, req);
      assert r.sessions == m2.sessions + [r.sessions[|m2.sessions|]];
    }
  }

  /** A send aborts the request that was current, first thing. */
  lemma SendAbortsPrevious(m: Main, req: SendRequest, f: Foreign, parse: Parser)
    requires Inv(m) && m.current.Some?
    ensures var r := SendMessage(m, req, f, parse);
      var k := m.current.value;
      && |r.log| > |m.log| && r.log[|m.log|] == Abort(k)
      && r.sessions[k].phase.Closed?
  {
    var m2 := Prelude(m, req);
    var r := SendMessage(m, req, f, parse);
    assert r.log[..|m2.log|] == m2.log;
    assert m2.log[|m.log|] == Abort(m.current.value);
    if |req.attachments| == 0 && !req.isWebSearch {
      assert r.sessions[..|m2.sessions|] == m2.sessions;
      assert r.sessions[m.current.value] == r.sessions[..|m2.sessions|][m.current.value];
    }
  }

  /** With a known conversation the user message, marker included, is stored
      before anything else, whatever the route and even when a key is missing. */
  lemma KnownConversationSavedFirst(m: Main, req: SendRequest, f: Foreign, parse: Parser)
    requires Inv(m) && req.conversationId.Some?
    ensures var r := SendMessage(m, req, f, parse);
      var n := |m.db.messages|;
      && |r.db.messages| > n && r.db.messages[..n] == m.db.messages
      && r.db.messages[n].conversationId == req.conversationId.value
      && r.db.messages[n].role == User
      && r.db.messages[n].content == StoredContent(req)
  {
    SavedUserMessage(m.db, req);
    ExtendsKeepsRow(Prelude(m, req).db, SendMessage(m, req, f, parse).db, |m.db.messages|);
  }

  /** Saving the user message of a known conversation appends exactly one row. */
  lemma SavedUserMessage(db: Db, req: SendRequest)
    requires Valid(db) && req.conversationId.Some?
    ensures var d := SaveUserMessage(db, req);
      var n := |db.messages|;
      && |d.messages| == n + 1 && d.messages[..n] == db.messages
      && d.messages[n].conversationId == req.conversationId.value
      && d.messages[n].role == User && d.messages[n].content == StoredContent(req)
  {
  }

  lemma ExtendsKeepsRow(a: Db, b: Db, n: nat)
    requires Extends(a, b) && n < |a.messages|
    ensures |b.messages| > n && b.messages[n] == a.messages[n] && b.messages[..n] == a.messages[..n]
  {
    assert b.messages[n] == b.messages[..|a.messages|][n];
    assert b.messages[..n] == b.messages[..|a.messages|][..n];
  }

  /** Web search without both key rows reports the one message and ends;
      nothing is created. */
  lemma WebSearchNeedsBothKeys(m: Main, req: SendRequest, f: Foreign, parse: Parser)
    requires Inv(m) && |req.attachments| == 0 && req.isWebSearch
    requires m.db.apiKey.None? || m.db.tavilyKey.None?
    ensures var r := SendMessage(m, req, f, parse);
      var m2 := Prelude(m, req);
      && r.log == m2.log + [AppError(WebSearchKeysMessage), StreamEnd]
      && r.db == SaveUserMessage(m.db, req)
      && r.current.None?
  {
  }

  /** The vision route without an API key reports and ends before creating
      anything or calling the model. */
  lemma VisionNeedsKey(m: Main, req: SendRequest, f: Foreign, parse: Parser)
    requires Inv(m) && |req.attachments| > 0 && m.db.apiKey.None?
    ensures var r := SendMessage(m, req, f, parse);
      && r.log == Prelude(m, req).log + [AppError(Plain.MissingKeyMessage), StreamEnd]
      && r.db == SaveUserMessage(m.db, req)
      && r.current.None?
  {
  }

  /** A rejected vision call: the tokens streamed before the failure stay
      sent, the prefixed error and `chat:stream-end` follow, and neither an
      answer nor a title backfill comes after the lazy creation. */
  lemma VisionRejectedReports(m: Main, req: SendRequest, evs: seq<NetEvent>, parse: Parser)
    requires Inv(m) && m.db.apiKey.Some?
    requires Vision.CallVision(evs, parse).outcome.Rejected?
    ensures var r := SendVision(m, req, evs, parse);
      var call := Vision.CallVision(evs, parse);
      var l := VisionLazy(m.db, req);
      && r.db == l.db
      && r.log == m.log + l.out + TokenMessages(call.tokens)
                  + [AppError(VisionErrorPrefix + call.outcome.message), StreamEnd]
  {
  }

  /** The plain route sends the prompt twice for a known conversation: it was
      stored before the history was read, so it is the last history message,
      and it is appended once more as the request's final message. */
  lemma PromptSentTwice(m: Main, req: SendRequest, f: Foreign, parse: Parser)
    requires Inv(m) && |req.attachments| == 0 && !req.isWebSearch
    requires m.db.apiKey.Some? && req.conversationId.Some?
    ensures var r := SendMessage(m, req, f, parse);
      var msgs := r.sessions[r.current.value].payload.messages;
      && |msgs| >= 3
      && msgs[|msgs| - 1] == Plain.ChatMessage(User, req.message)
      && msgs[|msgs| - 2] == Plain.ChatMessage(User, req.message)
  {
    OnlyPlainIsCurrent(m, req, f, parse);
    PlainPayload(m, req, f, parse);
    var db2 := Prelude(m, req).db;
    SavedPromptEndsHistory(m.db, req);
    var history := RecentHistory(db2, req.conversationId.value);
    Plain.PayloadShape(req.message, history, req.isReasoning);
  }

  /** The stored user message of a known conversation is the newest row of
      the history window read right after it. */
  lemma SavedPromptEndsHistory(db: Db, req: SendRequest)
    requires Valid(db) && req.conversationId.Some? && |req.attachments| == 0
    ensures var h := RecentHistory(SaveUserMessage(db, req), req.conversationId.value);
      |h| > 0 && h[|h| - 1].role == User && h[|h| - 1].content == req.message
  {
    var id := req.conversationId.value;
    var db2 := SaveUserMessage(db, req);
    var stored := db2.messages[|db.messages|];
    assert db2.messages == db.messages + [stored];
    OfConversationAppend(db.messages, stored, id);
    var all := OfConversation(db2.messages, id);
    assert all[|all| - 1] == stored;
    RecentHistoryWindow(db2, id);
  }

  /** The request body of a plain send is built from the prompt and the
      history as it stands after the user message is saved. */
  lemma PlainPayload(m: Main, req: SendRequest, f: Foreign, parse: Parser)
    requires Inv(m) && |req.attachments| == 0 && !req.isWebSearch && m.db.apiKey.Some?
    ensures var r := SendMessage(m, req, f, parse);
      && r.current.Some?
      && r.sessions[r.current.value].payload
         == Plain.BuildPayload(req.message, Plain.History(Prelude(m, req).db, req.conversationId), req.isReasoning)
  {
    var m2 := Prelude(m, req);
    assert m2.db.apiKey == m.db.apiKey;
    var r := SendPlain(m2, req);
    assert r.sessions == m2.sessions + [r.sessions[|m2.sessions|]];
  }

  /** A plain send into a new conversation launches no title task: none at
      send time (the backfill needs a conversation id) and none at lazy
      creation. */
  lemma NewPlainConversationUntitled(m: Main, req: SendRequest, f: Foreign, parse: Parser)
    requires Inv(m) && |req.attachments| == 0 && !req.isWebSearch && req.conversationId.None?
    ensures var r := SendMessage(m, req, f, parse);
      && |r.log| >= |m.log| && r.log[..|m.log|] == m.log
      && forall i :: |m.log| <= i < |r.log| ==> !r.log[i].TitleTask?
  {
    var m2 := Prelude(m, req);
    var r := SendMessage(m, req, f, parse);
    assert r.log[..|m2.log|] == m2.log;
    assert r.log[..|m.log|] == r.log[..|m2.log|][..|m.log|];
  }

  /** A new vision conversation with a text prompt that the model answers
      launches two title tasks with that prompt: one at creation and one from
      the backfill, which sees the default title. */
  lemma VisionNewConversationTitledTwice(m: Main, req: SendRequest, f: Foreign, parse: Parser)
    requires Inv(m) && |req.attachments| > 0 && req.conversationId.None?
    requires m.db.apiKey.Some? && !IsBlank(req.message)
    requires Vision.CallVision(f.visionEvents, parse).outcome.Resolved?
    ensures var r := SendMessage(m, req, f, parse);
      && |r.db.conversations| > |m.db.conversations|
      && var id := r.db.conversations[|m.db.conversations|].id;
      exists i, j :: |m.log| <= i < j < |r.log| && r.log[i] == TitleTask(id, req.message) && r.log[j] == TitleTask(id, req.message)
  {
    var m2 := Prelude(m, req);
    assert m2.db == m.db && |m2.log| >= |m.log|;
    assert SendMessage(m, req, f, parse) == SendVision(m2, req, f.visionEvents, parse);
    VisionRouteTitledTwice(m2, req, f.visionEvents, parse);
    var r := SendVision(m2, req, f.visionEvents, parse);
    var i, j := |m2.log| + 1, |r.log| - 1;
    assert |m.log| <= i < j < |r.log|;
  }

  /** A resolved vision call, unfolded: what the route sends and stores. */
  lemma VisionResolved(m: Main, req: SendRequest, evs: seq<NetEvent>, parse: Parser)
    requires Inv(m) && m.db.apiKey.Some?
    requires Vision.CallVision(evs, parse).outcome.Resolved?
    ensures var l := VisionLazy(m.db, req);
      var call := Vision.CallVision(evs, parse);
      var db2 := Persist(l.db, l.conversationId, call.outcome.text);
      var title := Backfill(db2, l.conversationId.value, if IsBlank(req.message) then ImageAnalysis else req.message);
      var r := SendVision(m, req, evs, parse);
      && r.db == db2
      && r.log == m.log + l.out + TokenMessages(call.tokens) + ([StreamEnd] + title)
      && |m.log| <= |r.log| && r.log[|m.log|..] == l.out + TokenMessages(call.tokens) + ([StreamEnd] + title)
  {
    var l := VisionLazy(m.db, req);
    var call := Vision.CallVision(evs, parse);
    var db2 := Persist(l.db, l.conversationId, call.outcome.text);
    var title := Backfill(db2, l.conversationId.value, if IsBlank(req.message) then ImageAnalysis else req.message);
    DropPrefix4(m.log, l.out, TokenMessages(call.tokens), [StreamEnd] + title);
  }

  /** A new vision conversation: created with the default title, announced,
      and titled from a non-blank message. */
  lemma VisionLazyNew(db: Db, req: SendRequest)
    requires Valid(db) && req.conversationId.None? && !IsBlank(req.message)
    ensures var id := InsertConversation(db, DefaultTitle).id;
      var l := VisionLazy(db, req);
      && l.conversationId == Some(id)
      && l.out == [Created(id), TitleTask(id, req.message)]
      && Conversation(id, DefaultTitle) in l.db.conversations
      && l.db.conversations == db.conversations + [Conversation(id, DefaultTitle)]
      && l.db.apiKey == db.apiKey
  {
  }

  /** The backfill always fires for a conversation still under the default
      title. */
  lemma BackfillNew(db: Db, id: nat, prompt: string)
    requires Valid(db) && db.apiKey.Some? && Conversation(id, DefaultTitle) in db.conversations
    ensures Backfill(db, id, prompt) == [TitleTask(id, prompt)]
  {
  }

  lemma VisionRouteTitledTwice(m: Main, req: SendRequest, evs: seq<NetEvent>, parse: Parser)
    requires Inv(m) && req.conversationId.None?
    requires m.db.apiKey.Some? && !IsBlank(req.message)
    requires Vision.CallVision(evs, parse).outcome.Resolved?
    ensures var r := SendVision(m, req, evs, parse);
      && |r.db.conversations| > |m.db.conversations|
      && var id := r.db.conversations[|m.db.conversations|].id;
      && |m.log| + 1 < |r.log| - 1
      && r.log[|m.log| + 1] == TitleTask(id, req.message)
      && r.log[|r.log| - 1] == TitleTask(id, req.message)
  {
    VisionRouteCreates(m, req, evs, parse);
    VisionRouteTitles(m, req, evs, parse);
  }

  /** The new conversation is the one row the vision route adds. */
  lemma VisionRouteCreates(m: Main, req: SendRequest, evs: seq<NetEvent>, parse: Parser)
    requires Inv(m) && req.conversationId.None?
    requires m.db.apiKey.Some? && !IsBlank(req.message)
    requires Vision.CallVision(evs, parse).outcome.Resolved?
    ensures var r := SendVision(m, req, evs, parse);
      && |r.db.conversations| > |m.db.conversations|
      && r.db.conversations[|m.db.conversations|].id == InsertConversation(m.db, DefaultTitle).id
  {
    VisionLazyNew(m.db, req);
    VisionResolved(m, req, evs, parse);
  }

  /** The second message after the send and the last one are both title
      tasks for the new conversation. */
  lemma VisionRouteTitles(m: Main, req: SendRequest, evs: seq<NetEvent>, parse: Parser)
    requires Inv(m) && req.conversationId.None?
    requires m.db.apiKey.Some? && !IsBlank(req.message)
    requires Vision.CallVision(evs, parse).outcome.Resolved?
    ensures var r := SendVision(m, req, evs, parse);
      var id := InsertConversation(m.db, DefaultTitle).id;
      && |m.log| + 1 < |r.log| - 1
      && r.log[|m.log| + 1] == TitleTask(id, req.message)
      && r.log[|r.log| - 1] == TitleTask(id, req.message)
  {
    var l := VisionLazy(m.db, req);
    var id := InsertConversation(m.db, DefaultTitle).id;
    var call := Vision.CallVision(evs, parse);
    var db2 := Persist(l.db, l.conversationId, call.outcome.text);
    var title := Backfill(db2, id, req.message);
    var added := l.out + TokenMessages(call.tokens) + ([StreamEnd] + title);
    VisionLazyNew(m.db, req);
    BackfillNew(db2, id, req.message);
    VisionResolved(m, req, evs, parse);
    TitlesAt(m.log, added, id, req.message);
  }

  lemma TitlesAt(before: seq<Out>, added: seq<Out>, id: nat, prompt: string)
    requires |added| > 2 && added[1] == TitleTask(id, prompt) && added[|added| - 1] == TitleTask(id, prompt)
    ensures var log := before + added;
      && |before| + 1 < |log| - 1
      && log[|before| + 1] == TitleTask(id, prompt) && log[|log| - 1] == TitleTask(id, prompt)
  {
  }

  /** A firing timer of request `i` aborts the current request `k` even when
      `k` is another, newer request: the newer request is closed and the
      window is told its connection timed out, while the current request
      stays set. */
  lemma StaleTimerAbortsCurrent(m: Main, i: nat, parse: Parser)
    requires Inv(m) && i < |m.sessions| && m.sessions[i].timerArmed
    requires m.current.Some? && m.current.value != i
    ensures var r := Deliver(m, i, Timeout, parse);
      var k := m.current.value;
      && r.log == m.log + [Abort(k), AppError(Plain.TimeoutMessage), StreamEnd]
      && r.sessions[k].phase.Closed?
      && r.current == m.current
      && r.db == m.db
  {
  }

  /** The situation arises from two plain sends in a row: the first request
      is aborted by the second before its response head, which leaves its
      timer pending, and when it fires it kills the second request. */
  lemma StaleTimerScenario(key: string, a: string, b: string, parse: Parser)
    ensures var m0 := Boot(Some(key), None);
      var ra := SendRequest(a, None, false, false, []);
      var rb := SendRequest(b, None, false, false, []);
      var m1 := SendMessage(m0, ra, Foreign([], WebSearch.SearchFailed(""), WebSearch.AnswerStream([], None)), parse);
      var m2 := SendMessage(m1, rb, Foreign([], WebSearch.SearchFailed(""), WebSearch.AnswerStream([], None)), parse);
      var m3 := Deliver(m2, 0, Timeout, parse);
      && m2.current == Some(1) && m2.sessions[1].phase.AwaitingResponse?
      && m2.sessions[0].phase.Closed? && m2.sessions[0].timerArmed
      && m3.sessions[1].phase.Closed?
      && m3.log[|m2.log|..] == [Abort(1), AppError(Plain.TimeoutMessage), StreamEnd]
  {
    var none := Foreign([], WebSearch.SearchFailed(""), WebSearch.AnswerStream([], None));
    var m0 := Boot(Some(key), None);
    var ra := SendRequest(a, None, false, false, []);
    var rb := SendRequest(b, None, false, false, []);
    OnlyPlainIsCurrent(m0, ra, none, parse);
    var m1 := SendMessage(m0, ra, none, parse);
    assert m1.db.apiKey == Some(key);
    OnlyPlainIsCurrent(m1, rb, none, parse);
    var m2 := SendMessage(m1, rb, none, parse);
    assert m1.current == Some(0);
    assert m1.sessions[0].timerArmed;
    SendAbortsPrevious(m1, rb, none, parse);
    assert m2.sessions[0] == Plain.Cancel(m1.sessions[0]);
    StaleTimerAbortsCurrent(m2, 0, parse);
  }

  /** A resolved vision call: the chunks sent spell the answer, one
      `chat:stream-end` follows them, and the answer is stored under the
      conversation exactly when it is non-empty. */
  lemma VisionDelivers(m: Main, req: SendRequest, f: Foreign, parse: Parser)
    requires Inv(m) && |req.attachments| > 0 && m.db.apiKey.Some?
    requires Vision.CallVision(f.visionEvents, parse).outcome.Resolved?
    ensures var r := SendMessage(m, req, f, parse);
      var text := Vision.CallVision(f.visionEvents, parse).outcome.text;
      var l := VisionLazy(Prelude(m, req).db, req);
      var n := |l.db.messages|;
      && |Prelude(m, req).log| <= |r.log|
      && var added := r.log[|Prelude(m, req).log|..];
      && Concat(ChunkTexts(added)) == text
      && EndCount(added) == 1
      && |r.db.messages| == n + (if text != "" then 1 else 0)
      && (text != "" ==> r.db.messages[n] == StoredMessage(r.db.messages[n].id, l.conversationId.value, Assistant, text))
  {
    var m2 := Prelude(m, req);
    assert SendMessage(m, req, f, parse) == SendVision(m2, req, f.visionEvents, parse);
    VisionRouteDelivers(m2, req, f.visionEvents, parse);
  }

  lemma VisionRouteDelivers(m: Main, req: SendRequest, evs: seq<NetEvent>, parse: Parser)
    requires Inv(m) && m.db.apiKey.Some?
    requires Vision.CallVision(evs, parse).outcome.Resolved?
    ensures var r := SendVision(m, req, evs, parse);
      var text := Vision.CallVision(evs, parse).outcome.text;
      var l := VisionLazy(m.db, req);
      var n := |l.db.messages|;
      && |m.log| <= |r.log|
      && var added := r.log[|m.log|..];
      && Concat(ChunkTexts(added)) == text
      && EndCount(added) == 1
      && |r.db.messages| == n + (if text != "" then 1 else 0)
      && (text != "" ==> r.db.messages[n] == StoredMessage(r.db.messages[n].id, l.conversationId.value, Assistant, text))
  {
    VisionRouteSends(m, req, evs, parse);
    VisionRouteStores(m, req, evs, parse);
  }

  lemma VisionRouteSends(m: Main, req: SendRequest, evs: seq<NetEvent>, parse: Parser)
    requires Inv(m) && m.db.apiKey.Some?
    requires Vision.CallVision(evs, parse).outcome.Resolved?
    ensures var r := SendVision(m, req, evs, parse);
      && |m.log| <= |r.log|
      && Concat(ChunkTexts(r.log[|m.log|..])) == Vision.CallVision(evs, parse).outcome.text
      && EndCount(r.log[|m.log|..]) == 1
  {
    var l := VisionLazy(m.db, req);
    var call := Vision.CallVision(evs, parse);
    var db2 := Persist(l.db, l.conversationId, call.outcome.text);
    var title := Backfill(db2, l.conversationId.value, if IsBlank(req.message) then ImageAnalysis else req.message);
    var r := SendVision(m, req, evs, parse);
    var added := l.out + TokenMessages(call.tokens) + ([StreamEnd] + title);
    assert |m.log| <= |r.log| && r.log[|m.log|..] == added by {
      VisionResolved(m, req, evs, parse);
    }
    assert Concat(ChunkTexts(added)) == call.outcome.text && EndCount(added) == 1 by {
      Vision.ResolvesWithTokens(evs, parse);
      AddedTexts(l.out, call.tokens, title);
    }
  }

  lemma VisionRouteStores(m: Main, req: SendRequest, evs: seq<NetEvent>, parse: Parser)
    requires Inv(m) && m.db.apiKey.Some?
    requires Vision.CallVision(evs, parse).outcome.Resolved?
    ensures var r := SendVision(m, req, evs, parse);
      var text := Vision.CallVision(evs, parse).outcome.text;
      var l := VisionLazy(m.db, req);
      var n := |l.db.messages|;
      && |r.db.messages| == n + (if text != "" then 1 else 0)
      && (text != "" ==> r.db.messages[n] == StoredMessage(r.db.messages[n].id, l.conversationId.value, Assistant, text))
  {
    VisionResolved(m, req, evs, parse);
  }

  /** A web search with both keys: `chat:stream-end` is sent exactly once
      whether the chain succeeds or fails; on success the chunks sent spell the
      answer, which is stored under the conversation when non-empty. */
  lemma WebSearchDelivers(m: Main, req: SendRequest, f: Foreign, parse: Parser)
    requires Inv(m) && |req.attachments| == 0 && req.isWebSearch
    requires m.db.apiKey.Some? && m.db.tavilyKey.Some?
    ensures var r := SendMessage(m, req, f, parse);
      var m2 := Prelude(m, req);
      var run := WebSearch.RunChain(req.message, m.db.apiKey.value, m.db.tavilyKey.value, f.search, f.answer);
      var l := SearchLazy(m2.db, req);
      var n := |l.db.messages|;
      && |m2.log| <= |r.log|
      && var added := r.log[|m2.log|..];
      && EndCount(added) == 1
      && ChunkTexts(added) == WebSearch.TokenTexts(run.outs)
      && (run.result.Ok? ==> Concat(ChunkTexts(added)) == run.result.value)
      && |r.db.messages| == n + (if run.result.Ok? && run.result.value != "" then 1 else 0)
      && (run.result.Ok? && run.result.value != "" ==>
            r.db.messages[n] == StoredMessage(r.db.messages[n].id, l.conversationId.value, Assistant, run.result.value))
  {
    var m2 := Prelude(m, req);
    assert SendMessage(m, req, f, parse) == SendWebSearch(m2, req, f.search, f.answer);
    assert m2.db.apiKey == m.db.apiKey && m2.db.tavilyKey == m.db.tavilyKey;
    WebSearchRouteDelivers(m2, req, f.search, f.answer);
  }

  lemma WebSearchRouteDelivers(m: Main, req: SendRequest, search: WebSearch.SearchOutcome, answer: WebSearch.AnswerStream)
    requires Inv(m) && m.db.apiKey.Some? && m.db.tavilyKey.Some?
    ensures var r := SendWebSearch(m, req, search, answer);
      var run := WebSearch.RunChain(req.message, m.db.apiKey.value, m.db.tavilyKey.value, search, answer);
      var l := SearchLazy(m.db, req);
      var n := |l.db.messages|;
      && |m.log| <= |r.log|
      && var added := r.log[|m.log|..];
      && EndCount(added) == 1
      && ChunkTexts(added) == WebSearch.TokenTexts(run.outs)
      && (run.result.Ok? ==> Concat(ChunkTexts(added)) == run.result.value)
      && |r.db.messages| == n + (if run.result.Ok? && run.result.value != "" then 1 else 0)
      && (run.result.Ok? && run.result.value != "" ==>
            r.db.messages[n] == StoredMessage(r.db.messages[n].id, l.conversationId.value, Assistant, run.result.value))
  {
    WebSearchRouteSends(m, req, search, answer);
    WebSearchRouteStores(m, req, search, answer);
  }

  lemma WebSearchRouteSends(m: Main, req: SendRequest, search: WebSearch.SearchOutcome, answer: WebSearch.AnswerStream)
    requires Inv(m) && m.db.apiKey.Some? && m.db.tavilyKey.Some?
    ensures var r := SendWebSearch(m, req, search, answer);
      var run := WebSearch.RunChain(req.message, m.db.apiKey.value, m.db.tavilyKey.value, search, answer);
      && |m.log| <= |r.log|
      && EndCount(r.log[|m.log|..]) == 1
      && ChunkTexts(r.log[|m.log|..]) == WebSearch.TokenTexts(run.outs)
      && (run.result.Ok? ==> Concat(ChunkTexts(r.log[|m.log|..])) == run.result.value)
  {
    var l := SearchLazy(m.db, req);
    var run := WebSearch.RunChain(req.message, m.db.apiKey.value, m.db.tavilyKey.value, search, answer);
    var chain := ChainMessages(run.outs);
    var r := SendWebSearch(m, req, search, answer);
    assert r.log == m.log + l.out + chain + [StreamEnd];
    DropPrefix4(m.log, l.out, chain, [StreamEnd]);
    WebSearch.ResultMatchesTokens(req.message, m.db.apiKey.value, m.db.tavilyKey.value, search, answer);
    ChainAddedTexts(l.out, run.outs);
  }

  lemma WebSearchRouteStores(m: Main, req: SendRequest, search: WebSearch.SearchOutcome, answer: WebSearch.AnswerStream)
    requires Inv(m) && m.db.apiKey.Some? && m.db.tavilyKey.Some?
    ensures var r := SendWebSearch(m, req, search, answer);
      var run := WebSearch.RunChain(req.message, m.db.apiKey.value, m.db.tavilyKey.value, search, answer);
      var l := SearchLazy(m.db, req);
      var n := |l.db.messages|;
      && |r.db.messages| == n + (if run.result.Ok? && run.result.value != "" then 1 else 0)
      && (run.result.Ok? && run.result.value != "" ==>
            r.db.messages[n] == StoredMessage(r.db.messages[n].id, l.conversationId.value, Assistant, run.result.value))
  {
  }
}

=== FILE: plain.dfy ===
/** One plain chat request (`callDeepSeek`): the API-key check, the payload
    with the last 20 stored messages as history, the 15-second timer, and the
    reaction to each transport event. A 200 body is decoded line by line; its
    reasoning deltas are forwarded at once and its content deltas go through
    the coalescing emitter. The first body chunk of a request that has no
    conversation yet creates one. At the end the residual buffer is flushed,
    `chat:stream-end` is sent, and the whole answer is stored. A non-200 body is
    collected and reported, shortened to 100 characters. */
module Plain {
  import opened Common
  import opened Sse
  import opened Throttle
  import opened Store
  import opened Channels

  const ChatModel: string := "deepseek-v3-2-251201"
  const SystemInstruction: string := "You are a helpful AI assistant."

  /** Characters of an error body quoted in the message. */
  const ErrorBodyLimit: nat := 100

  const MissingKeyMessage: string := Warn + "API Key not found. Please set it in Settings."
  const TimeoutMessage: string := Warn + "Connection Timeout (15s). Please check your network."

  const Disconnected: string := Warn + "Network disconnected. Please check your connection."
  const TimedOut: string := Warn + "Connection timed out."
  const Refused: string := Warn + "Connection refused by server."
  const Unresolved: string := Warn + "DNS Error: Could not resolve hostname."
  const NetworkErrorPrefix: string := Warn + "Network Error: "

  datatype ChatMessage = ChatMessage(role: Role, content: string)

  /** The reasoning parameters; the temperature is kept in tenths (6 is 0.6). */
  datatype Knobs = Knobs(thinking: string, effort: string, temperatureTenths: nat, maxTokens: nat)

  const ReasoningKnobs: Knobs := Knobs("enabled", "high", 6, 4096)

  datatype Payload = Payload(model: string, messages: seq<ChatMessage>, stream: bool, reasoning: Option<Knobs>)

  /** The history rows as request messages, in the same order. */
  function HistoryMessages(history: seq<StoredMessage>): (r: seq<ChatMessage>)
    ensures |r| == |history|
    ensures forall i :: 0 <= i < |history| ==> r[i] == ChatMessage(history[i].role, history[i].content)
  {
    if |history| == 0 then []
    else [ChatMessage(history[0].role, history[0].content)] + HistoryMessages(history[1..])
  }

  /** The request body: the system instruction, the history, and the prompt
      appended once more as the last user message. */
  function BuildPayload(prompt: string, history: seq<StoredMessage>, isReasoning: bool): (r: Payload)
    ensures r.model == ChatModel && r.stream
    ensures r.reasoning.Some? <==> isReasoning
    ensures |r.messages| == |history| + 2 && r.messages[|r.messages| - 1] == ChatMessage(User, prompt)
  {
    Payload(ChatModel,
            [ChatMessage(System, SystemInstruction)] + HistoryMessages(history) + [ChatMessage(User, prompt)],
            true,
            if isReasoning then Some(ReasoningKnobs) else None)
  }

  /** The messages are framed by the system instruction and the prompt, with
      the history in between, in order. */
  lemma PayloadShape(prompt: string, history: seq<StoredMessage>, isReasoning: bool)
    ensures var p := BuildPayload(prompt, history, isReasoning);
      && p.model == ChatModel && p.stream
      && |p.messages| == |history| + 2
      && p.messages[0] == ChatMessage(System, SystemInstruction)
      && p.messages[|history| + 1] == ChatMessage(User, prompt)
      && (forall i :: 0 <= i < |history| ==> p.messages[i + 1] == ChatMessage(history[i].role, history[i].content))
  {
  }

  /** Reasoning mode adds the four parameters and changes nothing else. */
  lemma ReasoningOnlyAddsKnobs(prompt: string, history: seq<StoredMessage>)
    ensures BuildPayload(prompt, history, true) == BuildPayload(prompt, history, false).(reasoning := Some(ReasoningKnobs))
    ensures BuildPayload(prompt, history, false).reasoning.None?
  {
  }

  /** The history sent with a request: none without a conversation, else the
      conversation's recent window. */
  function History(db: Db, conversationId: Option<nat>): seq<StoredMessage>
  {
    match conversationId
    case None => []
    case Some(id) => RecentHistory(db, id)
  }

  /** The user-facing text for a transport error code. */
  function NetworkErrorMessage(code: string): string
  {
    if code == "net::ERR_INTERNET_DISCONNECTED" then Disconnected
    else if code == "net::ERR_TIMED_OUT" then TimedOut
    else if code == "net::ERR_CONNECTION_REFUSED" then Refused
    else if code == "net::ERR_NAME_NOT_RESOLVED" then Unresolved
    else NetworkErrorPrefix + code
  }

  predicate KnownCode(code: string)
  {
    code in {"net::ERR_INTERNET_DISCONNECTED", "net::ERR_TIMED_OUT", "net::ERR_CONNECTION_REFUSED", "net::ERR_NAME_NOT_RESOLVED"}
  }

  /** Every error text carries the warning sign; an unknown code is quoted
      verbatim, so two different unknown codes never share a message. */
  lemma NetworkErrorMessageWarns(code: string, other: string)
    ensures StartsWith(NetworkErrorMessage(code), Warn)
    ensures !KnownCode(code) ==> NetworkErrorMessage(code)[|NetworkErrorPrefix|..] == code
    ensures !KnownCode(code) && !KnownCode(other) && NetworkErrorMessage(code) == NetworkErrorMessage(other) ==> code == other
  {
    if !KnownCode(code) && !KnownCode(other) && NetworkErrorMessage(code) == NetworkErrorMessage(other) {
      assert code == NetworkErrorMessage(code)[|NetworkErrorPrefix|..];
    }
  }

  /** `API Error <status>: <first 100 characters of the body>`, with the warning sign. */
  function ApiErrorMessage(status: nat, body: string): string
  {
    Warn + "API Error " + NatToString(status) + ": " + Take(body, ErrorBodyLimit)
  }

  /** The quoted body is a prefix of the real one, of at most 100 characters. */
  lemma ApiErrorMessageQuotes(status: nat, body: string)
    ensures var m := ApiErrorMessage(status, body);
      var head := Warn + "API Error " + NatToString(status) + ": ";
      && StartsWith(m, Warn)
      && |head| <= |m| <= |head| + ErrorBodyLimit
      && m[|head|..] <= body
      && (|body| <= ErrorBodyLimit ==> m[|head|..] == body)
  {
    var head := Warn + "API Error " + NatToString(status) + ": ";
    var m := ApiErrorMessage(status, body);
    assert m == head + Take(body, ErrorBodyLimit);
    assert m[|head|..] == Take(body, ErrorBodyLimit);
  }

  /** Waiting for the response head, reading a 200 body, collecting an error
      body, or finished (ended, failed or aborted). */
  datatype Phase = AwaitingResponse | Streaming | ReadingErrorBody(status: nat, body: string) | Closed

  /** The closure of one request. `request` numbers the outbound request;
      `timerArmed` is the pending 15-second timeout. */
  datatype Session = Session(
    request: nat,
    prompt: string,
    conversationId: Option<nat>,
    payload: Payload,
    phase: Phase,
    timerArmed: bool,
    firstChunk: bool,
    emitter: Emitter)

  datatype Start = NoKey(out: seq<Out>) | Started(session: Session)

  /** Entering `callDeepSeek`: without an API key it reports and ends at once,
      otherwise the request is written and the timer armed. */
  function Open(db: Db, request: nat, prompt: string, conversationId: Option<nat>, isReasoning: bool): (r: Start)
    ensures r.NoKey? <==> db.apiKey.None?
    ensures r.NoKey? ==> r.out == [AppError(MissingKeyMessage), StreamEnd]
    ensures r.Started? ==> var s := r.session;
      && s.request == request && s.prompt == prompt && s.conversationId == conversationId
      && s.phase.AwaitingResponse? && s.timerArmed && s.firstChunk && s.emitter == Initial
      && s.payload == BuildPayload(prompt, History(db, conversationId), isReasoning)
  {
    if db.apiKey.None? then NoKey([AppError(MissingKeyMessage), StreamEnd])
    else Started(Session(request, prompt, conversationId, BuildPayload(prompt, History(db, conversationId), isReasoning),
                         AwaitingResponse, true, true, Initial))
  }

  /** The emitter after a chunk's deltas, and the messages sent for them. */
  datatype Fed = Fed(emitter: Emitter, out: seq<Out>)

  /** Forwarding a chunk's deltas, all stamped with the chunk's clock reading:
      a reasoning delta is sent as is, a content delta goes through the emitter. */
  function Feed(e: Emitter, evs: seq<DeltaEvent>, now: int): (r: Fed)
    ensures forall i :: 0 <= i < |r.out| ==> r.out[i].StreamChunk? || r.out[i].StreamReasoning?
    ensures r.emitter.full == e.full + Concat(Contents(evs))
    decreases |evs|
  {
    if |evs| == 0 then Fed(e, [])
    else
      var ev := evs[0];
      if ev.Reasoning? then
        var rest := Feed(e, evs[1..], now);
        assert Contents(evs) == Contents(evs[1..]);
        Fed(rest.emitter, [StreamReasoning(ev.text)] + rest.out)
      else
        var p := PushContent(e, ev.text, now);
        var rest := Feed(p.next, evs[1..], now);
        ConcatCons(ev.text, Contents(evs[1..]));
        Assoc(e.full, ev.text, Concat(Contents(evs[1..])));
        assert Contents(evs) == [ev.text] + Contents(evs[1..]);
        var head := if p.sent.Some? then [StreamChunk(p.sent.value)] else [];
        Fed(rest.emitter, head + rest.out)
  }

  /** The emitter's invariant survives a chunk: what was sent before, what this
      chunk sends, and the buffer still spell the full text. */
  lemma {:induction false} FeedAccounts(e: Emitter, sent: seq<string>, evs: seq<DeltaEvent>, now: int)
    requires Accounts(e, sent)
    ensures Accounts(Feed(e, evs, now).emitter, sent + ChunkTexts(Feed(e, evs, now).out))
    decreases |evs|
  {
    var r := Feed(e, evs, now);
    if |evs| == 0 {
      assert ChunkTexts([]) == [];
      assert sent + [] == sent;
    } else if evs[0].Reasoning? {
      var rest := Feed(e, evs[1..], now);
      FeedAccounts(e, sent, evs[1..], now);
      FeedReasoningHead(e, evs, now);
    } else {
      var p := PushContent(e, evs[0].text, now);
      PushAccounts(e, sent, evs[0].text, now);
      var rest := Feed(p.next, evs[1..], now);
      FeedAccounts(p.next, sent + OptSeq(p.sent), evs[1..], now);
      FeedContentHead(e, evs, now);
      assert sent + (OptSeq(p.sent) + ChunkTexts(rest.out)) == sent + OptSeq(p.sent) + ChunkTexts(rest.out);
    }
  }

  /** A leading reasoning delta sends no chunk. */
  lemma FeedReasoningHead(e: Emitter, evs: seq<DeltaEvent>, now: int)
    requires |evs| > 0 && evs[0].Reasoning?
    ensures Feed(e, evs, now).emitter == Feed(e, evs[1..], now).emitter
    ensures ChunkTexts(Feed(e, evs, now).out) == ChunkTexts(Feed(e, evs[1..], now).out)
  {
    var rest := Feed(e, evs[1..], now);
    assert Feed(e, evs, now).out == [StreamReasoning(evs[0].text)] + rest.out;
    ChunkTextsAppend([StreamReasoning(evs[0].text)], rest.out);
    SingleOut(StreamReasoning(evs[0].text));
  }

  /** A leading content delta sends what the emitter releases for it, if anything. */
  lemma FeedContentHead(e: Emitter, evs: seq<DeltaEvent>, now: int)
    requires |evs| > 0 && evs[0].Content?
    ensures var p := PushContent(e, evs[0].text, now);
      && Feed(e, evs, now).emitter == Feed(p.next, evs[1..], now).emitter
      && ChunkTexts(Feed(e, evs, now).out) == OptSeq(p.sent) + ChunkTexts(Feed(p.next, evs[1..], now).out)
  {
    var p := PushContent(e, evs[0].text, now);
    var rest := Feed(p.next, evs[1..], now);
    var head: seq<Out> := if p.sent.Some? then [StreamChunk(p.sent.value)] else [];
    assert Feed(e, evs, now).out == head + rest.out;
    ChunkTextsAppend(head, rest.out);
    if p.sent.Some? {
      SingleOut(StreamChunk(p.sent.value));
    } else {
      assert ChunkTexts(head) == [];
    }
  }

  /** Every reasoning delta is forwarded, in order, as its own message. */
  lemma {:induction false} FeedForwardsReasoning(e: Emitter, evs: seq<DeltaEvent>, now: int)
    ensures ReasoningTexts(Feed(e, evs, now).out) == Reasonings(evs)
    decreases |evs|
  {
    if |evs| > 0 {
      var ev := evs[0];
      var r := Feed(e, evs, now);
      if ev.Reasoning? {
        var rest := Feed(e, evs[1..], now);
        FeedForwardsReasoning(e, evs[1..], now);
        ReasoningTextsAppend([StreamReasoning(ev.text)], rest.out);
        SingleOut(StreamReasoning(ev.text));
      } else {
        var p := PushContent(e, ev.text, now);
        var rest := Feed(p.next, evs[1..], now);
        FeedForwardsReasoning(p.next, evs[1..], now);
        var head: seq<Out> := if p.sent.Some? then [StreamChunk(p.sent.value)] else [];
        ReasoningTextsAppend(head, rest.out);
        if p.sent.Some? {
          SingleOut(StreamChunk(p.sent.value));
        }
        assert ReasoningTexts(head) == [];
      }
    }
  }

  /** A conversation created on the first body chunk, or the one already known. */
  datatype Lazy = Lazy(db: Db, conversationId: Option<nat>, out: seq<Out>)

  /** Lazy creation: a "New Chat" conversation, the delayed user message, and
      `chat:created`. The title-generation step after it refers to a name that
      does not exist in that scope, throws, and is swallowed by the surrounding
      `catch`, so no title task is launched. */
  function LazyCreate(db: Db, prompt: string): (r: Lazy)
    requires Valid(db)
    ensures Valid(r.db)
    ensures r.conversationId.Some? && !HasConversation(db, r.conversationId.value)
    ensures var id := r.conversationId.value;
      && r.db.conversations == db.conversations + [Conversation(id, DefaultTitle)]
      && |r.db.messages| == |db.messages| + 1 && r.db.messages[..|db.messages|] == db.messages
      && r.db.messages[|db.messages|].conversationId == id
      && r.db.messages[|db.messages|].role == User
      && r.db.messages[|db.messages|].content == prompt
      && r.out == [Created(id)]
  {
    var c := InsertConversation(db, DefaultTitle);
    Lazy(InsertMessage(c.db, c.id, User, prompt), Some(c.id), [Created(c.id)])
  }

  /** The conversation a 200 body chunk is written under: created on the first
      chunk when the request has none, else left as it is. */
  function LazyFor(s: Session, db: Db): (r: Lazy)
    requires Valid(db)
    ensures Valid(r.db)
    ensures ChunkTexts(r.out) == [] && ReasoningTexts(r.out) == [] && EndCount(r.out) == 0
    ensures forall i :: 0 <= i < |r.out| ==> !r.out[i].TitleTask?
  {
    if s.firstChunk && s.conversationId.None? then
      var l := LazyCreate(db, s.prompt);
      SingleOut(l.out[0]);
      l
    else Lazy(db, s.conversationId, [])
  }

  /** A session's step: the new session, the database, and the messages sent. */
  datatype Stepped = Stepped(session: Session, db: Db, out: seq<Out>)

  /** The response head: clears the timer and picks the body's reading mode;
      only a session still waiting for its head is affected. */
  function OnResponse(s: Session, db: Db, status: nat): (r: Stepped)
    ensures r.db == db && r.out == []
    ensures s.phase.AwaitingResponse? ==>
      && !r.session.timerArmed
      && (r.session.phase.Streaming? <==> status == 200)
      && (status != 200 ==> r.session.phase == ReadingErrorBody(status, ""))
    ensures !s.phase.AwaitingResponse? ==> r.session == s
  {
    if s.phase.AwaitingResponse? then
      Stepped(s.(timerArmed := false, phase := if status == 200 then Streaming else ReadingErrorBody(status, "")), db, [])
    else Stepped(s, db, [])
  }

  /** A body chunk: a 200 body feeds the emitter (writing the conversation
      first when needed); an error body collects it; otherwise it is ignored. */
  function OnData(s: Session, db: Db, chunk: string, now: int, parse: Parser): (r: Stepped)
    requires Valid(db)
    ensures Valid(r.db)
    ensures r.session.phase == (match s.phase
      case ReadingErrorBody(status, body) => ReadingErrorBody(status, body + chunk)
      case _ => s.phase)
    ensures !s.phase.Streaming? ==> r.db == db && r.out == []
    ensures s.phase.Streaming? ==> EndCount(r.out) == 0
  {
    match s.phase
    case Streaming =>
      var l := LazyFor(s, db);
      var f := Feed(s.emitter, DecodeChunk(chunk, parse), now);
      EndCountAppend(l.out, f.out);
      NoEnds(f.out);
      Stepped(s.(conversationId := l.conversationId, firstChunk := false, emitter := f.emitter), l.db, l.out + f.out)
    case ReadingErrorBody(status, body) => Stepped(s.(phase := ReadingErrorBody(status, body + chunk)), db, [])
    case _ => Stepped(s, db, [])
  }

  /** The flushed residue, if any. */
  function FlushOut(e: Emitter): (r: seq<Out>)
    ensures |r| <= 1 && forall i :: 0 <= i < |r| ==> r[i].StreamChunk?
  {
    match Flush(e)
    case Some(b) => [StreamChunk(b)]
    case None => []
  }

  /** The end of the body: a 200 body flushes, ends the stream and stores the
      reply; an error body is reported; otherwise it is ignored. */
  function OnEnd(s: Session, db: Db): (r: Stepped)
    requires Valid(db)
    ensures Valid(r.db)
    ensures (s.phase.Streaming? || s.phase.ReadingErrorBody?) ==>
      r.session.phase.Closed? && |r.out| >= 1 && r.out[|r.out| - 1] == StreamEnd
    ensures s.phase.ReadingErrorBody? ==>
      r.db == db && r.out == [AppError(ApiErrorMessage(s.phase.status, s.phase.body)), StreamEnd]
    ensures !(s.phase.Streaming? || s.phase.ReadingErrorBody?) ==> r == Stepped(s, db, [])
  {
    match s.phase
    case Streaming =>
      var db' := if s.emitter.full != "" && s.conversationId.Some?
        then InsertMessage(db, s.conversationId.value, Assistant, s.emitter.full) else db;
      Stepped(s.(phase := Closed), db', FlushOut(s.emitter) + [StreamEnd])
    case ReadingErrorBody(status, body) =>
      Stepped(s.(phase := Closed), db, [AppError(ApiErrorMessage(status, body)), StreamEnd])
    case _ => Stepped(s, db, [])
  }

  /** A transport error: reported once, ending the stream and clearing the
      timer, unless the session is already finished. */
  function OnFailure(s: Session, db: Db, code: string): (r: Stepped)
    ensures r.db == db
    ensures s.phase.Closed? ==> r == Stepped(s, db, [])
    ensures !s.phase.Closed? ==>
      && r.session.phase.Closed? && !r.session.timerArmed
      && |r.out| == 2 && r.out[0].AppError? && r.out[1] == StreamEnd
  {
    if s.phase.Closed? then Stepped(s, db, [])
    else Stepped(s.(phase := Closed, timerArmed := false), db, [AppError(NetworkErrorMessage(code)), StreamEnd])
  }

  /** The timer callback aborts whatever request is current at that moment,
      which need not be this session's own; it does not clear the current
      request. A timer is cleared only by a response head or a transport error,
      so the timer of an aborted request still fires. */
  function OnTimeout(s: Session, db: Db, current: Option<nat>): (r: Stepped)
    ensures r.db == db && !r.session.timerArmed
    ensures !s.timerArmed ==> r == Stepped(s, db, [])
    ensures s.timerArmed && current.Some? ==>
      r.out == [Abort(current.value), AppError(TimeoutMessage), StreamEnd]
    ensures s.timerArmed && current.None? ==> r.out == []
    ensures r.session.phase.Closed? <==> s.phase.Closed? || (s.timerArmed && current == Some(s.request))
  {
    if !s.timerArmed then Stepped(s, db, [])
    else match current
      case None => Stepped(s.(timerArmed := false), db, [])
      case Some(k) =>
        Stepped(s.(timerArmed := false, phase := if k == s.request then Closed else s.phase),
                db, [Abort(k), AppError(TimeoutMessage), StreamEnd])
  }

  /** One transport event for the session, given the request that is current
      when it arrives. */
  function Step(s: Session, db: Db, current: Option<nat>, ev: NetEvent, parse: Parser): (r: Stepped)
    requires Valid(db)
    ensures Valid(r.db)
    ensures r.session.request == s.request && r.session.prompt == s.prompt && r.session.payload == s.payload
  {
    match ev
    case Response(status) => OnResponse(s, db, status)
    case Data(chunk, now) => OnData(s, db, chunk, now, parse)
    case End => OnEnd(s, db)
    case Failure(code) => OnFailure(s, db, code)
    case Timeout => OnTimeout(s, db, current)
  }

  /** `abort()` on the session's request: nothing more arrives for it, but its
      timer is left pending. */
  function Cancel(s: Session): (r: Session)
    ensures r.phase.Closed? && r.timerArmed == s.timerArmed
  {
    s.(phase := Closed)
  }

  /** A sequence of events for one session, with a fixed current request. */
  function Run(s: Session, db: Db, current: Option<nat>, evs: seq<NetEvent>, parse: Parser): (r: Stepped)
    requires Valid(db)
    ensures Valid(r.db)
    decreases |evs|
  {
    if |evs| == 0 then Stepped(s, db, [])
    else
      var a := Step(s, db, current, evs[0], parse);
      var b := Run(a.session, a.db, current, evs[1..], parse);
      Stepped(b.session, b.db, a.out + b.out)
  }

  // ---------------------------------------------------------------------------
  // Properties of a single step

  /** What a 200 body chunk does, in terms of the conversation it is written
      under and the chunk's deltas fed through the emitter. */
  lemma DataStep(s: Session, db: Db, current: Option<nat>, chunk: string, now: int, parse: Parser)
    requires Valid(db) && s.phase.Streaming?
    ensures var r := Step(s, db, current, Data(chunk, now), parse);
      var l := LazyFor(s, db);
      var f := Feed(s.emitter, DecodeChunk(chunk, parse), now);
      && r == Stepped(s.(conversationId := l.conversationId, firstChunk := false, emitter := f.emitter), l.db, l.out + f.out)
      && ChunkTexts(r.out) == ChunkTexts(f.out)
      && ReasoningTexts(r.out) == ReasoningTexts(f.out)
      && EndCount(r.out) == 0
  {
    var l := LazyFor(s, db);
    var f := Feed(s.emitter, DecodeChunk(chunk, parse), now);
    ChunkTextsAppend(l.out, f.out);
    ReasoningTextsAppend(l.out, f.out);
    EndCountAppend(l.out, f.out);
    NoEnds(f.out);
  }

  /** A 200 body chunk: the full text grows by exactly the chunk's parsed
      `content` fields, and the reasoning messages carry exactly its
      `reasoning_content` fields, both in line order up to a `[DONE]` line. */
  lemma DataFollowsPayloads(s: Session, db: Db, current: Option<nat>, chunk: string, now: int, parse: Parser)
    requires Valid(db) && s.phase.Streaming?
    ensures var r := Step(s, db, current, Data(chunk, now), parse);
      var ps := Payloads(Split(chunk, '\n'));
      && r.session.phase.Streaming?
      && r.session.emitter.full == s.emitter.full + ParsedContent(ps, parse)
      && Concat(ReasoningTexts(r.out)) == ParsedReasoning(ps, parse)
  {
    var ps := Payloads(Split(chunk, '\n'));
    DataStep(s, db, current, chunk, now, parse);
    ContentChannel(ps, parse);
    ReasoningChannel(ps, parse);
    FeedForwardsReasoning(s.emitter, DecodeChunk(chunk, parse), now);
  }

  /** The first 200 body chunk of a request without a conversation creates
      exactly one "New Chat" conversation holding the prompt as its user
      message, announces it first, and launches no title task. */
  lemma LazyCreation(s: Session, db: Db, current: Option<nat>, chunk: string, now: int, parse: Parser)
    requires Valid(db) && s.phase.Streaming? && s.firstChunk && s.conversationId.None?
    ensures var r := Step(s, db, current, Data(chunk, now), parse);
      && |r.db.conversations| == |db.conversations| + 1
      && var id := r.db.conversations[|db.conversations|].id;
      && r.db.conversations == db.conversations + [Conversation(id, DefaultTitle)]
      && !HasConversation(db, id)
      && |r.db.messages| == |db.messages| + 1 && r.db.messages[..|db.messages|] == db.messages
      && r.db.messages[|db.messages|].conversationId == id
      && r.db.messages[|db.messages|].role == User
      && r.db.messages[|db.messages|].content == s.prompt
      && r.session.conversationId == Some(id) && !r.session.firstChunk
      && r.out[0] == Created(id)
      && forall i :: 0 <= i < |r.out| ==> !r.out[i].TitleTask?
  {
    DataStep(s, db, current, chunk, now, parse);
    var f := Feed(s.emitter, DecodeChunk(chunk, parse), now);
    var c := InsertConversation(db, DefaultTitle);
    assert LazyFor(s, db) == LazyCreate(db, s.prompt);
    assert LazyFor(s, db).out == [Created(c.id)];
  }

  /** Later chunks, and chunks of a request that already has a conversation,
      leave the database alone. */
  lemma LaterChunksDoNotWrite(s: Session, db: Db, current: Option<nat>, chunk: string, now: int, parse: Parser)
    requires Valid(db) && (!s.firstChunk || s.conversationId.Some?)
    ensures var r := Step(s, db, current, Data(chunk, now), parse);
      r.db == db && r.session.conversationId == s.conversationId
  {
  }

  /** The end of a 200 body completes delivery: the chunks sent over the whole
      request spell the full text exactly, one `chat:stream-end` closes it, and
      the full text is stored as the assistant message exactly when it is
      non-empty and the request has a conversation. */
  lemma EndDelivers(s: Session, db: Db, current: Option<nat>, before: seq<Out>, parse: Parser)
    requires Valid(db) && s.phase.Streaming? && Accounts(s.emitter, ChunkTexts(before))
    ensures var r := Step(s, db, current, End, parse);
      && r.session.phase.Closed?
      && Concat(ChunkTexts(before + r.out)) == s.emitter.full
      && EndCount(r.out) == 1 && r.out[|r.out| - 1] == StreamEnd
      && (s.emitter.full != "" && s.conversationId.Some? <==> |r.db.messages| == |db.messages| + 1)
      && (|r.db.messages| == |db.messages| + 1 ==>
            r.db.messages[|db.messages|].conversationId == s.conversationId.value
            && r.db.messages[|db.messages|].role == Assistant
            && r.db.messages[|db.messages|].content == Concat(ChunkTexts(before + r.out)))
      && (|r.db.messages| != |db.messages| + 1 ==> r.db == db)
      && |db.messages| <= |r.db.messages| && r.db.messages[..|db.messages|] == db.messages
  {
    EndStores(s, db, current, parse);
    EndFlushes(s, db, current, before, parse);
  }

  /** What the end of a 200 body writes: the full text, under the
      conversation, when both exist. */
  lemma EndStores(s: Session, db: Db, current: Option<nat>, parse: Parser)
    requires Valid(db) && s.phase.Streaming?
    ensures var r := Step(s, db, current, End, parse);
      && r.session.phase.Closed?
      && (s.emitter.full != "" && s.conversationId.Some? <==> |r.db.messages| == |db.messages| + 1)
      && (|r.db.messages| == |db.messages| + 1 ==>
            r.db.messages[|db.messages|].conversationId == s.conversationId.value
            && r.db.messages[|db.messages|].role == Assistant
            && r.db.messages[|db.messages|].content == s.emitter.full)
      && (|r.db.messages| != |db.messages| + 1 ==> r.db == db)
      && |db.messages| <= |r.db.messages| && r.db.messages[..|db.messages|] == db.messages
  {
  }

  /** What the end of a 200 body sends: the rest of the buffer, if any, and
      one `chat:stream-end`, after which the chunks spell the full text. */
  lemma EndFlushes(s: Session, db: Db, current: Option<nat>, before: seq<Out>, parse: Parser)
    requires Valid(db) && s.phase.Streaming? && Accounts(s.emitter, ChunkTexts(before))
    ensures var r := Step(s, db, current, End, parse);
      && Concat(ChunkTexts(before + r.out)) == s.emitter.full
      && EndCount(r.out) == 1 && r.out[|r.out| - 1] == StreamEnd
  {
    assert Step(s, db, current, End, parse).out == FlushOut(s.emitter) + [StreamEnd];
    FlushThenEnd(s.emitter, before);
  }

  lemma FlushThenEnd(e: Emitter, before: seq<Out>)
    requires Accounts(e, ChunkTexts(before))
    ensures var out := FlushOut(e) + [StreamEnd];
      && Concat(ChunkTexts(before + out)) == e.full
      && EndCount(out) == 1 && out[|out| - 1] == StreamEnd
  {
    var flushed := FlushOut(e);
    var out := flushed + [StreamEnd];
    ChunkTextsAppend(before, out);
    ChunkTextsAppend(flushed, [StreamEnd]);
    SingleOut(StreamEnd);
    if e.buffer != "" {
      SingleOut(StreamChunk(e.buffer));
    } else {
      assert ChunkTexts(flushed) == [];
    }
    assert ChunkTexts(out) == OptSeq(Flush(e));
    FlushCompletes(e, ChunkTexts(before));
    assert forall i :: 0 <= i < |out| - 1 ==> !out[i].StreamEnd? by {
      assert |out| - 1 == |flushed|;
      forall i | 0 <= i < |flushed| ensures out[i] == flushed[i] { }
    }
    EndsOnceAtLast(out);
  }

  /** The steps that send no chunk and leave the emitter alone: everything
      except a body chunk or the end of a 200 body. */
  lemma QuietStep(s: Session, db: Db, current: Option<nat>, ev: NetEvent, parse: Parser)
    requires Valid(db) && !(ev.Data? && s.phase.Streaming?) && !(ev.End? && s.phase.Streaming?)
    ensures var r := Step(s, db, current, ev, parse);
      && r.session.emitter == s.emitter
      && ChunkTexts(r.out) == [] && ReasoningTexts(r.out) == []
      && (s.phase.Closed? && !ev.Timeout? ==> r == Stepped(s, db, []))
      && EndCount(r.out) <= 1
      && (EndCount(r.out) == 1 && !ev.Timeout? ==> r.session.phase.Closed?)
  {
    var r := Step(s, db, current, ev, parse);
    match ev
    case Response(status) => QuietLog(r.out);
    case Data(_, _) => QuietLog(r.out);
    case End => QuietLog(r.out);
    case Failure(_) => QuietLog(r.out);
    case Timeout => QuietLog(r.out);
  }

  /** A log with no chunk or reasoning message, whose only possible
      `chat:stream-end` is its last message. */
  lemma QuietLog(log: seq<Out>)
    requires forall i :: 0 <= i < |log| ==> !log[i].StreamChunk? && !log[i].StreamReasoning?
    requires forall i :: 0 <= i < |log| - 1 ==> !log[i].StreamEnd?
    ensures ChunkTexts(log) == [] && ReasoningTexts(log) == []
    ensures EndCount(log) <= 1 && (EndCount(log) == 1 ==> log[|log| - 1].StreamEnd?)
  {
    NoChunks(log);
    NoReasonings(log);
    if |log| > 0 && log[|log| - 1].StreamEnd? {
      EndsOnceAtLast(log);
    } else {
      NoEnds(log);
    }
  }

  /** Every other event keeps the emitter's invariant over everything sent. */
  lemma StepAccounts(s: Session, db: Db, current: Option<nat>, ev: NetEvent, before: seq<Out>, parse: Parser)
    requires Valid(db) && Accounts(s.emitter, ChunkTexts(before))
    requires !(ev.End? && s.phase.Streaming?)
    ensures var r := Step(s, db, current, ev, parse);
      Accounts(r.session.emitter, ChunkTexts(before + r.out))
  {
    var r := Step(s, db, current, ev, parse);
    ChunkTextsAppend(before, r.out);
    if ev.Data? && s.phase.Streaming? {
      DataStep(s, db, current, ev.chunk, ev.now, parse);
      FeedAccounts(s.emitter, ChunkTexts(before), DecodeChunk(ev.chunk, parse), ev.now);
    } else {
      QuietStep(s, db, current, ev, parse);
      assert ChunkTexts(before) + ChunkTexts(r.out) == ChunkTexts(before);
    }
  }

  /** Apart from the timer, a finished session ignores every event, and a step
      sends `chat:stream-end` at most once, only when it finishes the session. */
  lemma StepEndsOnce(s: Session, db: Db, current: Option<nat>, ev: NetEvent, parse: Parser)
    requires Valid(db) && !ev.Timeout?
    ensures var r := Step(s, db, current, ev, parse);
      && (s.phase.Closed? ==> r == Stepped(s, db, []))
      && EndCount(r.out) <= 1
      && (EndCount(r.out) == 1 ==> r.session.phase.Closed?)
  {
    if ev.Data? && s.phase.Streaming? {
      DataStep(s, db, current, ev.chunk, ev.now, parse);
    } else if ev.End? && s.phase.Streaming? {
      EndsOnceAtLast(Step(s, db, current, ev, parse).out);
    } else {
      QuietStep(s, db, current, ev, parse);
    }
  }

  /** The timer invariant: a pending timer means the response head has not
      arrived, or the request was aborted before it did. */
  predicate TimerOk(s: Session)
  {
    s.timerArmed ==> s.phase.AwaitingResponse? || s.phase.Closed?
  }

  lemma StepKeepsTimerOk(s: Session, db: Db, current: Option<nat>, ev: NetEvent, parse: Parser)
    requires Valid(db) && TimerOk(s)
    ensures TimerOk(Step(s, db, current, ev, parse).session) && TimerOk(Cancel(s))
  {
  }

  // ---------------------------------------------------------------------------
  // Properties of whole runs

  /** Without a timer firing, a session sends `chat:stream-end` at most once
      over any sequence of events, and never once it is finished. */
  lemma {:induction false} RunEndsOnce(s: Session, db: Db, current: Option<nat>, evs: seq<NetEvent>, parse: Parser)
    requires Valid(db)
    requires forall i :: 0 <= i < |evs| ==> !evs[i].Timeout?
    ensures EndCount(Run(s, db, current, evs, parse).out) <= (if s.phase.Closed? then 0 else 1)
    ensures EndCount(Run(s, db, current, evs, parse).out) == 1 ==> Run(s, db, current, evs, parse).session.phase.Closed?
    ensures s.phase.Closed? ==> Run(s, db, current, evs, parse).session.phase.Closed?
    decreases |evs|
  {
    if |evs| == 0 {
      assert EndCount([]) == 0;
    } else {
      var a := Step(s, db, current, evs[0], parse);
      StepEndsOnce(s, db, current, evs[0], parse);
      RunEndsOnce(a.session, a.db, current, evs[1..], parse);
      var b := Run(a.session, a.db, current, evs[1..], parse);
      EndCountAppend(a.out, b.out);
      if s.phase.Closed? {
        assert a == Stepped(s, db, []);
      } else if EndCount(a.out) == 1 {
        assert a.session.phase.Closed?;
      }
    }
  }

  /** Nothing is written to the database unless a 200 response head arrives:
      an API key error, an error status, a transport error or a timeout
      before it leave the store as it was. */
  lemma {:induction false} NoWriteWithoutOk(s: Session, db: Db, current: Option<nat>, evs: seq<NetEvent>, parse: Parser)
    requires Valid(db) && !s.phase.Streaming?
    requires forall i :: 0 <= i < |evs| ==> evs[i] != Response(200)
    ensures Run(s, db, current, evs, parse).db == db
    ensures !Run(s, db, current, evs, parse).session.phase.Streaming?
    decreases |evs|
  {
    if |evs| > 0 {
      var a := Step(s, db, current, evs[0], parse);
      assert a.db == db && !a.session.phase.Streaming?;
      NoWriteWithoutOk(a.session, db, current, evs[1..], parse);
    }
  }

  /** The body text carried by a run of body chunks. */
  function BodyOf(evs: seq<NetEvent>): string
    requires forall i :: 0 <= i < |evs| ==> evs[i].Data?
  {
    if |evs| == 0 then "" else evs[0].chunk + BodyOf(evs[1..])
  }

  /** Body chunks of an error response are appended to the collected body,
      in order, and nothing is sent or stored while they arrive. */
  lemma {:induction false} ErrorBodyCollects(s: Session, db: Db, current: Option<nat>, evs: seq<NetEvent>, parse: Parser)
    requires Valid(db) && s.phase.ReadingErrorBody?
    requires forall i :: 0 <= i < |evs| ==> evs[i].Data?
    ensures var r := Run(s, db, current, evs, parse);
      && r.db == db && r.out == []
      && r.session == s.(phase := ReadingErrorBody(s.phase.status, s.phase.body + BodyOf(evs)))
    decreases |evs|
  {
    if |evs| == 0 {
      assert s.phase.body + "" == s.phase.body;
    } else {
      var a := Step(s, db, current, evs[0], parse);
      assert a == Stepped(s.(phase := ReadingErrorBody(s.phase.status, s.phase.body + evs[0].chunk)), db, []);
      ErrorBodyCollects(a.session, db, current, evs[1..], parse);
      Assoc(s.phase.body, evs[0].chunk, BodyOf(evs[1..]));
    }
  }

  /** A response head with a status other than 200, its body chunks, and the
      end of the body: the session reports the status and the first 100
      characters of the whole body, then ends the stream, and stores nothing. */
  lemma ApiErrorReported(s: Session, db: Db, current: Option<nat>, status: nat, evs: seq<NetEvent>, parse: Parser)
    requires Valid(db) && s.phase.AwaitingResponse? && status != 200
    requires forall i :: 0 <= i < |evs| ==> evs[i].Data?
    ensures var head := Step(s, db, current, Response(status), parse);
      var body := Run(head.session, head.db, current, evs, parse);
      var fin := Step(body.session, body.db, current, End, parse);
      && !head.session.timerArmed
      && head.out == [] && body.out == []
      && fin.out == [AppError(ApiErrorMessage(status, BodyOf(evs))), StreamEnd]
      && fin.db == db && fin.session.phase.Closed?
  {
    var head := Step(s, db, current, Response(status), parse);
    ErrorBodyCollects(head.session, db, current, evs, parse);
    assert "" + BodyOf(evs) == BodyOf(evs);
  }

  /** A transport error on a live session reports the mapped message, ends
      the stream once, disarms the timer and stores nothing; a finished
      session ignores it. */
  lemma FailureReported(s: Session, db: Db, current: Option<nat>, code: string, parse: Parser)
    requires Valid(db)
    ensures var r := Step(s, db, current, Failure(code), parse);
      && r.db == db
      && (s.phase.Closed? ==> r == Stepped(s, db, []))
      && (!s.phase.Closed? ==>
            r.out == [AppError(NetworkErrorMessage(code)), StreamEnd]
            && r.session.phase.Closed? && !r.session.timerArmed
            && StartsWith(r.out[0].message, Warn))
  {
    NetworkErrorMessageWarns(code, code);
  }

  lemma AccountsRegroup(e: Emitter, before: seq<Out>, x: seq<Out>, y: seq<Out>, xy: seq<Out>)
    requires xy == x + y && Accounts(e, ChunkTexts(before + x + y))
    ensures Accounts(e, ChunkTexts(before + xy))
  {
    assert before + x + y == before + xy;
  }

  /** Over any run before the end of the body, the chunks sent and the buffer
      spell the full text. */
  lemma {:induction false} RunAccounts(s: Session, db: Db, current: Option<nat>, evs: seq<NetEvent>, before: seq<Out>, parse: Parser)
    requires Valid(db) && Accounts(s.emitter, ChunkTexts(before))
    requires forall i :: 0 <= i < |evs| ==> !evs[i].End?
    ensures var r := Run(s, db, current, evs, parse);
      Accounts(r.session.emitter, ChunkTexts(before + r.out))
    decreases |evs|
  {
    if |evs| > 0 {
      var a := Step(s, db, current, evs[0], parse);
      StepAccounts(s, db, current, evs[0], before, parse);
      RunAccounts(a.session, a.db, current, evs[1..], before + a.out, parse);
      var b := Run(a.session, a.db, current, evs[1..], parse);
      var r := Run(s, db, current, evs, parse);
      assert r.out == a.out + b.out && r.session == b.session;
      AccountsRegroup(b.session.emitter, before, a.out, b.out, r.out);
    } else {
      assert before + [] == before;
    }
  }

  /** Content preservation for a whole request: after any events up to the
      end of a 200 body, the `chat:stream-chunk` messages spell the full text,
      and that exact text is what is stored for the conversation. */
  lemma ContentPreserved(s: Session, db: Db, current: Option<nat>, evs: seq<NetEvent>, parse: Parser)
    requires Valid(db) && s.emitter == Initial
    requires forall i :: 0 <= i < |evs| ==> !evs[i].End?
    requires Run(s, db, current, evs, parse).session.phase.Streaming?
    ensures var pre := Run(s, db, current, evs, parse);
      var fin := Step(pre.session, pre.db, current, End, parse);
      var sent := Concat(ChunkTexts(pre.out + fin.out));
      && sent == pre.session.emitter.full
      && (sent != "" && pre.session.conversationId.Some? ==>
            |fin.db.messages| == |pre.db.messages| + 1 && fin.db.messages[..|pre.db.messages|] == pre.db.messages
            && fin.db.messages[|pre.db.messages|].content == sent
            && fin.db.messages[|pre.db.messages|].role == Assistant)
  {
    assert ChunkTexts([]) == [];
    assert Accounts(s.emitter, ChunkTexts([]));
    RunAccounts(s, db, current, evs, [], parse);
    var pre := Run(s, db, current, evs, parse);
    assert [] + pre.out == pre.out;
    EndDelivers(pre.session, pre.db, current, pre.out, parse);
  }

  /** The `content` text a run of 200 body chunks carries: each chunk's
      parsed `content` fields, chunk after chunk. */
  function ChunksContent(evs: seq<NetEvent>, parse: Parser): string
    requires forall i :: 0 <= i < |evs| ==> evs[i].Data?
  {
    if |evs| == 0 then "" else ParsedContent(Payloads(Split(evs[0].chunk, '\n')), parse) + ChunksContent(evs[1..], parse)
  }

  /** Over a run of 200 body chunks, the session keeps streaming and the full
      text grows by exactly the chunks' parsed `content` fields, in order. */
  lemma {:induction false} StreamedContent(s: Session, db: Db, current: Option<nat>, evs: seq<NetEvent>, parse: Parser)
    requires Valid(db) && s.phase.Streaming?
    requires forall i :: 0 <= i < |evs| ==> evs[i].Data?
    ensures var r := Run(s, db, current, evs, parse);
      && r.session.phase.Streaming?
      && r.session.emitter.full == s.emitter.full + ChunksContent(evs, parse)
    decreases |evs|
  {
    if |evs| == 0 {
      assert s.emitter.full + "" == s.emitter.full;
    } else {
      var a := Step(s, db, current, evs[0], parse);
      DataFollowsPayloads(s, db, current, evs[0].chunk, evs[0].now, parse);
      assert evs[0] == Data(evs[0].chunk, evs[0].now);
      StreamedContent(a.session, a.db, current, evs[1..], parse);
      Assoc(s.emitter.full, ParsedContent(Payloads(Split(evs[0].chunk, '\n')), parse), ChunksContent(evs[1..], parse));
    }
  }

  /** A 200 response whose body chunks all arrive before its end: the
      `chat:stream-chunk` messages spell exactly the chunks' parsed `content`
      fields, and that text is what is stored for the conversation. */
  lemma StreamedReply(s: Session, db: Db, current: Option<nat>, evs: seq<NetEvent>, parse: Parser)
    requires Valid(db) && s.phase.Streaming? && s.emitter == Initial
    requires forall i :: 0 <= i < |evs| ==> evs[i].Data?
    ensures var pre := Run(s, db, current, evs, parse);
      var fin := Step(pre.session, pre.db, current, End, parse);
      var sent := Concat(ChunkTexts(pre.out + fin.out));
      && sent == ChunksContent(evs, parse)
      && (sent != "" && pre.session.conversationId.Some? ==>
            |fin.db.messages| == |pre.db.messages| + 1
            && fin.db.messages[|pre.db.messages|].content == sent)
  {
    StreamedContent(s, db, current, evs, parse);
    ContentPreserved(s, db, current, evs, parse);
    assert "" + ChunksContent(evs, parse) == ChunksContent(evs, parse);
  }
}

=== FILE: sse.dfy ===
/** The event-stream line decoder shared by the plain-chat and vision paths.
    A received chunk is split on `\n` on its own (no carry-over between chunks);
    every line starting with `data: ` carries a payload; the payload `[DONE]`
    abandons the rest of the chunk; any other payload goes to the JSON parser,
    and a payload the parser rejects is skipped. */
module Sse {
  import opened Common

  const DataPrefix: string := "data: "
  const DoneSentinel: string := "[DONE]"

  /** What `JSON.parse(data).choices[0]?.delta` yields, with an absent or falsy
      field written as the empty string. */
  datatype Delta = Delta(reasoning: string, content: string)

  /** The JSON parse and envelope lookup, which is foreign: `None` when it throws. */
  type Parser = string -> Option<Delta>

  /** One decoded fragment, on the reasoning or the content channel. */
  datatype DeltaEvent = Reasoning(text: string) | Content(text: string)

  /** What the transport delivers for one outbound request: the response head
      with its status, a body chunk with the clock reading taken for it, the end
      of the body, a request error with its message, or the 15 s timer firing. */
  datatype NetEvent = Response(status: nat) | Data(chunk: string, now: int) | End | Failure(code: string) | Timeout

  predicate IsDataLine(line: string)
  {
    StartsWith(line, DataPrefix)
  }

  /** `line.slice(6)` of a data line. */
  function PayloadOf(line: string): string
    requires IsDataLine(line)
  {
    line[|DataPrefix|..]
  }

  predicate IsDoneLine(line: string)
  {
    IsDataLine(line) && PayloadOf(line) == DoneSentinel
  }

  /** The payloads the loop over one chunk's lines reaches, in order: data lines
      only, stopping at the first `[DONE]`. */
  function Payloads(lines: seq<string>): (ps: seq<string>)
    ensures |ps| <= |lines|
    ensures forall i :: 0 <= i < |ps| ==> ps[i] != DoneSentinel
    ensures forall i :: 0 <= i < |ps| ==> DataPrefix + ps[i] in lines
  {
    if |lines| == 0 then []
    else if IsDataLine(lines[0]) then
      assert lines[0] == DataPrefix + PayloadOf(lines[0]);
      if PayloadOf(lines[0]) == DoneSentinel then []
      else [PayloadOf(lines[0])] + Payloads(lines[1..])
    else Payloads(lines[1..])
  }

  /** Index of the first `data: [DONE]` line, or the number of lines. */
  function FirstDone(lines: seq<string>): (k: nat)
    ensures k <= |lines|
    ensures forall i :: 0 <= i < k ==> !IsDoneLine(lines[i])
    ensures k < |lines| ==> IsDoneLine(lines[k])
  {
    if |lines| == 0 || IsDoneLine(lines[0]) then 0 else 1 + FirstDone(lines[1..])
  }

  /** Reference definition: the payloads of all data lines, ignoring the sentinel. */
  function DataPayloads(lines: seq<string>): seq<string>
  {
    if |lines| == 0 then []
    else (if IsDataLine(lines[0]) then [PayloadOf(lines[0])] else []) + DataPayloads(lines[1..])
  }

  /** The decoder reaches exactly the data payloads that precede the first
      `[DONE]` line. */
  lemma {:induction false} PayloadsStopAtDone(lines: seq<string>)
    ensures Payloads(lines) == DataPayloads(lines[..FirstDone(lines)])
  {
    if |lines| == 0 {
    } else if IsDoneLine(lines[0]) {
    } else {
      PayloadsStopAtDone(lines[1..]);
      assert lines[..FirstDone(lines)][1..] == lines[1..][..FirstDone(lines[1..])];
    }
  }

  /** Lines after a `[DONE]` line in the same chunk are never reached. */
  lemma {:induction false} PayloadsAbandonRest(a: seq<string>, b: seq<string>)
    requires exists i :: 0 <= i < |a| && IsDoneLine(a[i])
    ensures Payloads(a + b) == Payloads(a)
  {
    if IsDoneLine(a[0]) {
      assert (a + b)[0] == a[0];
    } else {
      assert (a + b)[0] == a[0];
      assert (a + b)[1..] == a[1..] + b;
      var i :| 0 <= i < |a| && IsDoneLine(a[i]);
      assert IsDoneLine(a[1..][i - 1]);
      PayloadsAbandonRest(a[1..], b);
    }
  }

  /** Without a `[DONE]` line, decoding a prefix of lines does not affect the rest. */
  lemma {:induction false} PayloadsAppend(a: seq<string>, b: seq<string>)
    requires forall i :: 0 <= i < |a| ==> !IsDoneLine(a[i])
    ensures Payloads(a + b) == Payloads(a) + Payloads(b)
  {
    if |a| == 0 {
      assert a + b == b;
    } else {
      assert (a + b)[0] == a[0];
      assert (a + b)[1..] == a[1..] + b;
      PayloadsAppend(a[1..], b);
    }
  }

  /** The events one parsed payload produces: reasoning first, then content,
      each only when non-empty. */
  function EventsOf(d: Option<Delta>): (evs: seq<DeltaEvent>)
    ensures |evs| <= 2
    ensures d.None? ==> evs == []
    ensures forall i :: 0 <= i < |evs| ==> evs[i].text != ""
  {
    match d
    case None => []
    case Some(delta) =>
      (if delta.reasoning != "" then [Reasoning(delta.reasoning)] else [])
      + (if delta.content != "" then [Content(delta.content)] else [])
  }

  /** The events of a sequence of payloads, in order. */
  function Decode(ps: seq<string>, parse: Parser): (evs: seq<DeltaEvent>)
    ensures forall i :: 0 <= i < |evs| ==> evs[i].text != ""
  {
    if |ps| == 0 then [] else EventsOf(parse(ps[0])) + Decode(ps[1..], parse)
  }

  /** The events of one received chunk. */
  function DecodeChunk(chunk: string, parse: Parser): seq<DeltaEvent>
  {
    Decode(Payloads(Split(chunk, '\n')), parse)
  }

  lemma {:induction false} DecodeAppend(a: seq<string>, b: seq<string>, parse: Parser)
    ensures Decode(a + b, parse) == Decode(a, parse) + Decode(b, parse)
  {
    if |a| == 0 {
      assert a + b == b;
    } else {
      assert (a + b)[1..] == a[1..] + b;
      DecodeAppend(a[1..], b, parse);
    }
  }

  /** A payload the parser rejects is dropped without affecting any other payload. */
  lemma {:induction false} DecodeSkipsUnparsable(ps: seq<string>, i: nat, parse: Parser)
    requires i < |ps| && parse(ps[i]).None?
    ensures Decode(ps, parse) == Decode(ps[..i] + ps[i + 1..], parse)
  {
    var tail := [ps[i]] + ps[i + 1..];
    assert ps == ps[..i] + tail;
    DecodeAppend(ps[..i], tail, parse);
    DecodeAppend(ps[..i], ps[i + 1..], parse);
    assert tail[0] == ps[i] && tail[1..] == ps[i + 1..];
    assert Decode(tail, parse) == EventsOf(parse(ps[i])) + Decode(ps[i + 1..], parse);
    assert EventsOf(parse(ps[i])) == [];
  }

  /** The content-channel texts of a sequence of events, in order. */
  function Contents(evs: seq<DeltaEvent>): (cs: seq<string>)
    ensures |cs| <= |evs|
  {
    if |evs| == 0 then []
    else (if evs[0].Content? then [evs[0].text] else []) + Contents(evs[1..])
  }

  /** The reasoning-channel texts of a sequence of events, in order. */
  function Reasonings(evs: seq<DeltaEvent>): seq<string>
  {
    if |evs| == 0 then []
    else (if evs[0].Reasoning? then [evs[0].text] else []) + Reasonings(evs[1..])
  }

  /** Reference definition: the `content` fields of the parsed payloads, joined. */
  function ParsedContent(ps: seq<string>, parse: Parser): string
  {
    if |ps| == 0 then ""
    else (match parse(ps[0]) case Some(d) => d.content case None => "") + ParsedContent(ps[1..], parse)
  }

  /** Reference definition: the `reasoning_content` fields of the parsed payloads, joined. */
  function ParsedReasoning(ps: seq<string>, parse: Parser): string
  {
    if |ps| == 0 then ""
    else (match parse(ps[0]) case Some(d) => d.reasoning case None => "") + ParsedReasoning(ps[1..], parse)
  }

  lemma {:induction false} ContentsAppend(a: seq<DeltaEvent>, b: seq<DeltaEvent>)
    ensures Contents(a + b) == Contents(a) + Contents(b)
  {
    if |a| == 0 {
      assert a + b == b;
    } else {
      assert (a + b)[0] == a[0];
      assert (a + b)[1..] == a[1..] + b;
      ContentsAppend(a[1..], b);
    }
  }

  lemma {:induction false} ReasoningsAppend(a: seq<DeltaEvent>, b: seq<DeltaEvent>)
    ensures Reasonings(a + b) == Reasonings(a) + Reasonings(b)
  {
    if |a| == 0 {
      assert a + b == b;
    } else {
      assert (a + b)[0] == a[0];
      assert (a + b)[1..] == a[1..] + b;
      ReasoningsAppend(a[1..], b);
    }
  }

  /** The content channel carries exactly the parsed `content` fields, in order:
      reasoning text never reaches it, and the text is neither lost nor duplicated. */
  lemma {:induction false} ContentChannel(ps: seq<string>, parse: Parser)
    ensures Concat(Contents(Decode(ps, parse))) == ParsedContent(ps, parse)
  {
    if |ps| > 0 {
      var head := EventsOf(parse(ps[0]));
      var rest := Decode(ps[1..], parse);
      ContentChannel(ps[1..], parse);
      assert Decode(ps, parse) == head + rest;
      ContentsAppend(head, rest);
      ConcatAppend(Contents(head), Contents(rest));
      HeadFields(parse(ps[0]));
    }
  }

  /** The events of one parsed payload carry its two fields. */
  lemma HeadFields(o: Option<Delta>)
    ensures Concat(Contents(EventsOf(o))) == (match o case Some(d) => d.content case None => "")
    ensures Concat(Reasonings(EventsOf(o))) == (match o case Some(d) => d.reasoning case None => "")
  {
    match o
    case None =>
      assert Contents([]) == [] && Reasonings([]) == [];
    case Some(d) =>
      var r: seq<DeltaEvent> := if d.reasoning != "" then [Reasoning(d.reasoning)] else [];
      var c: seq<DeltaEvent> := if d.content != "" then [Content(d.content)] else [];
      assert EventsOf(o) == r + c;
      ContentsAppend(r, c);
      ReasoningsAppend(r, c);
      assert Contents(r) == [] && Reasonings(c) == [];
      if d.content != "" {
        assert Contents(c) == [d.content];
        ConcatOne(d.content);
      } else {
        assert Contents(c) == [];
      }
      if d.reasoning != "" {
        assert Reasonings(r) == [d.reasoning];
        ConcatOne(d.reasoning);
      } else {
        assert Reasonings(r) == [];
      }
  }

  /** The reasoning channel carries exactly the parsed `reasoning_content` fields, in order. */
  lemma {:induction false} ReasoningChannel(ps: seq<string>, parse: Parser)
    ensures Concat(Reasonings(Decode(ps, parse))) == ParsedReasoning(ps, parse)
  {
    if |ps| > 0 {
      var head := EventsOf(parse(ps[0]));
      var rest := Decode(ps[1..], parse);
      ReasoningChannel(ps[1..], parse);
      assert Decode(ps, parse) == head + rest;
      ReasoningsAppend(head, rest);
      ConcatAppend(Reasonings(head), Reasonings(rest));
      HeadFields(parse(ps[0]));
    }
  }
}

=== FILE: store.dfy ===
/** The SQLite database of the main process, as abstract sequences: the
    `conversations` and `messages` tables with AUTOINCREMENT ids (which start at
    1 and only grow, so a stored id is never falsy), and the two `settings`
    rows the pipeline reads (`api_key`, `tavily_key`). Decryption of the stored
    keys is foreign and taken as the identity. */
module Store {
  import opened Common

  /** Title of a conversation created without one. */
  const DefaultTitle: string := "New Chat"

  /** `LIMIT 20` of the history query. */
  const HistoryLimit: nat := 20

  datatype Conversation = Conversation(id: nat, title: string)

  datatype StoredMessage = StoredMessage(id: nat, conversationId: nat, role: Role, content: string)

  datatype Db = Db(
    conversations: seq<Conversation>,
    messages: seq<StoredMessage>,
    nextConversationId: nat,
    nextMessageId: nat,
    apiKey: Option<string>,
    tavilyKey: Option<string>)

  /** AUTOINCREMENT discipline: rows are kept in insertion order, ids are at
      least 1, strictly increasing, and below the next id to hand out. */
  predicate Valid(db: Db)
  {
    && 1 <= db.nextConversationId && 1 <= db.nextMessageId
    && (forall i :: 0 <= i < |db.conversations| ==> 1 <= db.conversations[i].id < db.nextConversationId)
    && (forall i, j :: 0 <= i < j < |db.conversations| ==> db.conversations[i].id < db.conversations[j].id)
    && (forall i :: 0 <= i < |db.messages| ==> 1 <= db.messages[i].id < db.nextMessageId)
    && (forall i, j :: 0 <= i < j < |db.messages| ==> db.messages[i].id < db.messages[j].id)
  }

  function Empty(apiKey: Option<string>, tavilyKey: Option<string>): (db: Db)
    ensures Valid(db)
  {
    Db([], [], 1, 1, apiKey, tavilyKey)
  }

  predicate HasConversation(db: Db, id: nat)
  {
    exists i :: 0 <= i < |db.conversations| && db.conversations[i].id == id
  }

  /** A new row and the id it was given (`lastInsertRowid`). */
  datatype Inserted = Inserted(db: Db, id: nat)

  /** `INSERT INTO conversations (title) VALUES (?)`. */
  function InsertConversation(db: Db, title: string): (r: Inserted)
    requires Valid(db)
    ensures Valid(r.db)
    ensures r.id >= 1 && !HasConversation(db, r.id)
    ensures r.db.conversations == db.conversations + [Conversation(r.id, title)]
    ensures r.db.messages == db.messages
    ensures r.db.apiKey == db.apiKey && r.db.tavilyKey == db.tavilyKey
  {
    var id := db.nextConversationId;
    Inserted(db.(conversations := db.conversations + [Conversation(id, title)],
                 nextConversationId := id + 1), id)
  }

  /** `INSERT INTO messages (conversation_id, role, content) VALUES (?, ?, ?)`. */
  function InsertMessage(db: Db, conversationId: nat, role: Role, content: string): (r: Db)
    requires Valid(db)
    ensures Valid(r)
    ensures |r.messages| == |db.messages| + 1 && r.messages[..|db.messages|] == db.messages
    ensures var m := r.messages[|db.messages|];
      m.conversationId == conversationId && m.role == role && m.content == content
    ensures r.conversations == db.conversations
    ensures r.apiKey == db.apiKey && r.tavilyKey == db.tavilyKey
  {
    var id := db.nextMessageId;
    var r := db.(messages := db.messages + [StoredMessage(id, conversationId, role, content)],
                 nextMessageId := id + 1);
    assert r.messages[..|db.messages|] == db.messages;
    r
  }

  /** `WHERE conversation_id = ?`, in storage order. */
  function OfConversation(msgs: seq<StoredMessage>, conversationId: nat): (r: seq<StoredMessage>)
    ensures |r| <= |msgs|
    ensures forall i :: 0 <= i < |r| ==> r[i].conversationId == conversationId && r[i] in msgs
  {
    if |msgs| == 0 then []
    else
      var last := msgs[|msgs| - 1];
      OfConversation(msgs[..|msgs| - 1], conversationId) + (if last.conversationId == conversationId then [last] else [])
  }

  lemma {:induction false} OfConversationAppend(msgs: seq<StoredMessage>, m: StoredMessage, conversationId: nat)
    ensures OfConversation(msgs + [m], conversationId)
      == OfConversation(msgs, conversationId) + (if m.conversationId == conversationId then [m] else [])
  {
    assert (msgs + [m])[..|msgs|] == msgs;
  }

  predicate IdsAscending(ms: seq<StoredMessage>)
  {
    forall i, j :: 0 <= i < j < |ms| ==> ms[i].id < ms[j].id
  }

  predicate IdsDescending(ms: seq<StoredMessage>)
  {
    forall i, j :: 0 <= i < j < |ms| ==> ms[i].id > ms[j].id
  }

  /** Filtering keeps the storage order, hence ascending ids. */
  lemma {:induction false} OfConversationAscending(msgs: seq<StoredMessage>, conversationId: nat)
    requires IdsAscending(msgs)
    ensures IdsAscending(OfConversation(msgs, conversationId))
  {
    if |msgs| > 0 {
      var init := msgs[..|msgs| - 1];
      var last := msgs[|msgs| - 1];
      OfConversationAscending(init, conversationId);
      var f := OfConversation(init, conversationId);
      forall i | 0 <= i < |f|
        ensures f[i].id < last.id
      {
        var k :| 0 <= k < |init| && init[k] == f[i];
      }
    }
  }

  function Reverse<T>(s: seq<T>): (r: seq<T>)
    ensures |r| == |s|
    ensures forall i :: 0 <= i < |s| ==> r[i] == s[|s| - 1 - i]
  {
    if |s| == 0 then [] else [s[|s| - 1]] + Reverse(s[..|s| - 1])
  }

  function Min(a: nat, b: nat): nat
  {
    if a <= b then a else b
  }

  /** The history query as written: the conversation's rows `ORDER BY id DESC`
      (the reverse of storage order), `LIMIT 20`, then `.reverse()`. */
  function RecentHistory(db: Db, conversationId: nat): (r: seq<StoredMessage>)
    ensures |r| <= HistoryLimit
    ensures forall i :: 0 <= i < |r| ==> r[i].conversationId == conversationId && r[i] in db.messages
  {
    var desc := Reverse(OfConversation(db.messages, conversationId));
    Reverse(desc[..Min(HistoryLimit, |desc|)])
  }

  /** In a valid store the reversed rows really are in descending id order, so
      the query's `ORDER BY id DESC` is the reverse of storage order. */
  lemma ReversedIsDescending(db: Db, conversationId: nat)
    requires Valid(db)
    ensures IdsDescending(Reverse(OfConversation(db.messages, conversationId)))
  {
    OfConversationAscending(db.messages, conversationId);
  }

  /** Taking the first `n` of the reversal and reversing back keeps the last `n`. */
  lemma {:induction false} ReverseTakeReverse<T>(s: seq<T>, n: nat)
    requires n <= |s|
    ensures Reverse(Reverse(s)[..n]) == s[|s| - n..]
  {
    var rs := Reverse(s);
    var t := rs[..n];
    var r := Reverse(t);
    var suffix := s[|s| - n..];
    forall i | 0 <= i < n
      ensures r[i] == suffix[i]
    {
      assert r[i] == t[n - 1 - i];
      assert t[n - 1 - i] == rs[n - 1 - i];
      assert rs[n - 1 - i] == s[|s| - n + i];
    }
    assert |r| == |suffix|;
  }

  /** The history window is the at most 20 most recent messages of the
      conversation, oldest first. */
  lemma RecentHistoryWindow(db: Db, conversationId: nat)
    requires Valid(db)
    ensures var all := OfConversation(db.messages, conversationId);
      && |RecentHistory(db, conversationId)| == Min(HistoryLimit, |all|)
      && RecentHistory(db, conversationId) == all[|all| - Min(HistoryLimit, |all|)..]
      && IdsAscending(RecentHistory(db, conversationId))
  {
    var all := OfConversation(db.messages, conversationId);
    OfConversationAscending(db.messages, conversationId);
    ReverseTakeReverse(all, Min(HistoryLimit, |all|));
  }

  /** Rows of a conversation: `SELECT COUNT(*) FROM messages WHERE conversation_id = ?`. */
  function MessageCount(db: Db, conversationId: nat): nat
  {
    |OfConversation(db.messages, conversationId)|
  }

  /** `SELECT title ... FROM conversations WHERE id = ?`. */
  function FindConversation(convs: seq<Conversation>, id: nat): (r: Option<Conversation>)
    ensures r.Some? <==> exists i :: 0 <= i < |convs| && convs[i].id == id
    ensures r.Some? ==> r.value in convs && r.value.id == id
  {
    if |convs| == 0 then None
    else if convs[0].id == id then Some(convs[0])
    else FindConversation(convs[1..], id)
  }
}

=== FILE: throttle.dfy ===
/** The coalescing emitter of the plain-chat stream: every non-empty content
    delta is added to the full text and to a buffer; the buffer is sent as one
    `chat:stream-chunk` when more than 50 ms have passed since the last send
    (the last-send time starts at 0), and whatever is left is sent once at the
    end of the stream, if non-empty. */
module Throttle {
  import opened Common

  /** Milliseconds that must strictly be exceeded between two sends. */
  const Interval: int := 50

  /** `fullContent`, `streamBuffer` and `lastSendTime` of one stream. */
  datatype Emitter = Emitter(full: string, buffer: string, lastSend: int)

  const Initial: Emitter := Emitter("", "", 0)

  /** State after one content delta, and the chunk sent for it, if any. */
  datatype Push = Push(next: Emitter, sent: Option<string>)

  function OptSeq(o: Option<string>): seq<string>
  {
    match o case Some(s) => [s] case None => []
  }

  /** Adding one content delta received at time `now`. */
  function PushContent(e: Emitter, content: string, now: int): (r: Push)
    ensures r.next.full == e.full + content
    ensures r.sent.Some? <==> now - e.lastSend > Interval
    ensures r.sent.Some? ==> r.next.buffer == "" && r.next.lastSend == now
    ensures r.sent.None? ==> r.next.lastSend == e.lastSend && r.next.buffer == e.buffer + content
    ensures r.sent.Some? ==> r.sent.value == e.buffer + content
  {
    var buffer := e.buffer + content;
    if now - e.lastSend > Interval then Push(Emitter(e.full + content, "", now), Some(buffer))
    else Push(Emitter(e.full + content, buffer, e.lastSend), None)
  }

  /** The end-of-stream flush: the residual buffer, only when it is non-empty. */
  function Flush(e: Emitter): (r: Option<string>)
    ensures r.Some? <==> e.buffer != ""
  {
    if e.buffer != "" then Some(e.buffer) else None
  }

  /** The emitter's invariant: what has been sent, followed by the buffer, is the full text. */
  predicate Accounts(e: Emitter, sent: seq<string>)
  {
    Concat(sent) + e.buffer == e.full
  }

  lemma InitialAccounts()
    ensures Accounts(Initial, [])
  {
  }

  /** One delta keeps the invariant: nothing is lost or sent twice across a send. */
  lemma PushAccounts(e: Emitter, sent: seq<string>, content: string, now: int)
    requires Accounts(e, sent)
    ensures var r := PushContent(e, content, now); Accounts(r.next, sent + OptSeq(r.sent))
  {
    var r := PushContent(e, content, now);
    ConcatAppend(sent, OptSeq(r.sent));
    if r.sent.Some? {
      ConcatOne(r.sent.value);
    } else {
      assert Concat([]) == "";
    }
  }

  /** After the flush everything sent, in order, is exactly the full text. */
  lemma FlushCompletes(e: Emitter, sent: seq<string>)
    requires Accounts(e, sent)
    ensures Concat(sent + OptSeq(Flush(e))) == e.full
  {
    ConcatAppend(sent, OptSeq(Flush(e)));
    if e.buffer != "" {
      ConcatOne(e.buffer);
    } else {
      assert Concat([]) == "";
    }
  }

  /** A content delta together with the clock reading taken for it. */
  datatype Timed = Timed(content: string, now: int)

  /** A chunk that was sent and the time it was sent at. */
  datatype Sent = Sent(text: string, at: int)

  /** The emitter after a run of deltas, and the sends made along the way. */
  datatype RunResult = RunResult(last: Emitter, sends: seq<Sent>)

  /** Feeding a sequence of timed deltas, collecting the sends. */
  function Run(e: Emitter, items: seq<Timed>): RunResult
    decreases |items|
  {
    if |items| == 0 then RunResult(e, [])
    else
      var p := PushContent(e, items[0].content, items[0].now);
      var rest := Run(p.next, items[1..]);
      if p.sent.Some? then RunResult(rest.last, [Sent(p.sent.value, items[0].now)] + rest.sends)
      else rest
  }

  /** Rate bound: each send happens more than 50 ms after the previous one (the
      first after the initial last-send time), and afterwards the emitter
      remembers the time of the last send. */
  lemma {:induction false} RunSpacing(e: Emitter, items: seq<Timed>)
    ensures var r := Run(e, items);
      && (|r.sends| > 0 ==> r.sends[0].at > e.lastSend + Interval)
      && (forall k :: 0 <= k < |r.sends| - 1 ==> r.sends[k + 1].at > r.sends[k].at + Interval)
      && r.last.lastSend == (if |r.sends| == 0 then e.lastSend else r.sends[|r.sends| - 1].at)
    decreases |items|
  {
    if |items| > 0 {
      var p := PushContent(e, items[0].content, items[0].now);
      RunSpacing(p.next, items[1..]);
    }
  }

  function SentTexts(ss: seq<Sent>): seq<string>
  {
    if |ss| == 0 then [] else [ss[0].text] + SentTexts(ss[1..])
  }

  /** Concatenation of the delta contents, in order. */
  function ContentOf(items: seq<Timed>): string
  {
    if |items| == 0 then "" else items[0].content + ContentOf(items[1..])
  }

  /** A leading delta that is sent: the send comes first, and the buffered
      text it carries is the old buffer and the delta. */
  lemma RunSendHead(e: Emitter, items: seq<Timed>)
    requires |items| > 0 && PushContent(e, items[0].content, items[0].now).sent.Some?
    requires var p := PushContent(e, items[0].content, items[0].now);
      var rest := Run(p.next, items[1..]);
      ContentOf(items[1..]) == Concat(SentTexts(rest.sends)) + rest.last.buffer
    ensures e.buffer + ContentOf(items) == Concat(SentTexts(Run(e, items).sends)) + Run(e, items).last.buffer
  {
    var c := items[0].content;
    var p := PushContent(e, c, items[0].now);
    var rest := Run(p.next, items[1..]);
    var tail := ContentOf(items[1..]);
    var s := p.sent.value;
    var sends := [Sent(s, items[0].now)] + rest.sends;
    assert Run(e, items).sends == sends;
    assert sends[1..] == rest.sends;
    assert SentTexts(sends) == [s] + SentTexts(rest.sends);
    ConcatCons(s, SentTexts(rest.sends));
    assert ContentOf(items) == c + tail;
    Assoc(e.buffer, c, tail);
    Assoc(s, Concat(SentTexts(rest.sends)), rest.last.buffer);
  }

  /** Content preservation over a run: the sends, then the buffer, spell out
      every delta in order, and the full text grows by exactly the deltas. */
  lemma {:induction false} RunAccounts(e: Emitter, items: seq<Timed>)
    ensures Run(e, items).last.full == e.full + ContentOf(items)
    ensures e.buffer + ContentOf(items) == Concat(SentTexts(Run(e, items).sends)) + Run(e, items).last.buffer
    decreases |items|
  {
    if |items| > 0 {
      var c := items[0].content;
      var p := PushContent(e, c, items[0].now);
      var tail := ContentOf(items[1..]);
      RunAccounts(p.next, items[1..]);
      assert ContentOf(items) == c + tail;
      Assoc(e.full, c, tail);
      Assoc(e.buffer, c, tail);
      if p.sent.Some? {
        RunSendHead(e, items);
      } else {
        assert Run(e, items) == Run(p.next, items[1..]);
      }
    }
  }
}

=== FILE: vision.dfy ===
/** The vision call: one user message whose content is an `image_url` part per
    image attachment followed by a single `text` part, sent with `stream: true`
    and no history; the streamed body is decoded like the plain chat's, but only
    `delta.content` is read, every non-empty content delta goes straight to the
    token callback, and the promise resolves with their concatenation. */
module Vision {
  import opened Common
  import opened Sse

  const VisionModel: string := "doubao-seed-1-6-vision-250815"

  /** An attachment chosen in the input box: its `type` and its data URI. */
  datatype Attachment = Attachment(kind: string, content: string)

  predicate IsImage(a: Attachment)
  {
    a.kind == "image"
  }

  /** One element of a multi-part message content. */
  datatype Part = ImageUrl(url: string) | Text(text: string)

  datatype VisionMessage = VisionMessage(role: Role, content: seq<Part>)

  datatype VisionPayload = VisionPayload(model: string, messages: seq<VisionMessage>, stream: bool)

  /** The image parts, in attachment order, non-images dropped. */
  function ImageParts(atts: seq<Attachment>): (parts: seq<Part>)
    ensures |parts| <= |atts|
    ensures forall i :: 0 <= i < |parts| ==> parts[i].ImageUrl?
  {
    if |atts| == 0 then []
    else (if IsImage(atts[0]) then [ImageUrl(atts[0].content)] else []) + ImageParts(atts[1..])
  }

  /** The data URIs of the image attachments, in order (reference definition). */
  function ImageUrls(atts: seq<Attachment>): seq<string>
  {
    if |atts| == 0 then []
    else if IsImage(atts[0]) then [atts[0].content] + ImageUrls(atts[1..])
    else ImageUrls(atts[1..])
  }

  /** The message content: the image parts, then exactly one text part. */
  function ContentParts(prompt: string, atts: seq<Attachment>): seq<Part>
  {
    ImageParts(atts) + [Text(prompt)]
  }

  function BuildPayload(prompt: string, atts: seq<Attachment>): VisionPayload
  {
    VisionPayload(VisionModel, [VisionMessage(User, ContentParts(prompt, atts))], true)
  }

  /** The content parts are one image part per image attachment, carrying its
      data URI in attachment order, and a single text part, last, with the prompt. */
  lemma {:induction false} ContentPartsShape(prompt: string, atts: seq<Attachment>)
    ensures var parts := ContentParts(prompt, atts);
      && |parts| == |ImageUrls(atts)| + 1
      && (forall i :: 0 <= i < |parts| - 1 ==> parts[i] == ImageUrl(ImageUrls(atts)[i]))
      && parts[|parts| - 1] == Text(prompt)
      && (forall i :: 0 <= i < |parts| && parts[i].Text? ==> i == |parts| - 1)
  {
    ImagePartsAreUrls(atts);
  }

  lemma {:induction false} ImagePartsAreUrls(atts: seq<Attachment>)
    ensures |ImageParts(atts)| == |ImageUrls(atts)|
    ensures forall i :: 0 <= i < |ImageParts(atts)| ==> ImageParts(atts)[i] == ImageUrl(ImageUrls(atts)[i])
  {
    if |atts| > 0 {
      ImagePartsAreUrls(atts[1..]);
      var restParts := ImageParts(atts[1..]);
      var restUrls := ImageUrls(atts[1..]);
      if IsImage(atts[0]) {
        var parts := [ImageUrl(atts[0].content)] + restParts;
        var urls := [atts[0].content] + restUrls;
        assert ImageParts(atts) == parts && ImageUrls(atts) == urls;
        forall i | 0 <= i < |parts|
          ensures parts[i] == ImageUrl(urls[i])
        {
          if i > 0 {
            assert parts[i] == restParts[i - 1] && urls[i] == restUrls[i - 1];
          }
        }
      } else {
        assert ImageParts(atts) == [] + restParts;
        assert [] + restParts == restParts;
      }
    }
  }

  /** The payload is a single user turn, with no history, streamed. */
  lemma PayloadShape(prompt: string, atts: seq<Attachment>)
    ensures var p := BuildPayload(prompt, atts);
      && p.stream && |p.messages| == 1 && p.messages[0].role == User
      && p.messages[0].content == ContentParts(prompt, atts)
  {
  }

  /** Where the request is: waiting for the response head, reading a 200 body,
      reading an error body, or settled. */
  datatype Phase = Awaiting | Streaming | ErrorBody(status: nat, body: string) | Settled

  /** `Pending` while the promise has not settled. */
  datatype Outcome = Pending | Resolved(text: string) | Rejected(message: string)

  /** `fullContent`, the tokens handed to `onToken`, and the promise. */
  datatype Call = Call(phase: Phase, full: string, tokens: seq<string>, outcome: Outcome)

  const Start: Call := Call(Awaiting, "", [], Pending)

  /** `API Error <status>: <body>`: the whole body, not truncated. */
  function ApiError(status: nat, body: string): string
  {
    "API Error " + NatToString(status) + ": " + body
  }

  /** One transport event. The request has no timer, so `Timeout` never
      arrives; the model ignores events that cannot arrive in a phase. */
  function Step(c: Call, ev: NetEvent, parse: Parser): (r: Call)
    ensures |r.tokens| >= |c.tokens| && r.tokens[..|c.tokens|] == c.tokens
    ensures r.tokens != c.tokens ==> c.phase.Streaming? && ev.Data?
    ensures c.phase.Settled? ==> r == c
    ensures r.phase.Settled? && !c.phase.Settled? ==> !r.outcome.Pending?
  {
    match c.phase
    case Settled => c
    case Awaiting =>
      (match ev
       case Response(status) => c.(phase := if status == 200 then Streaming else ErrorBody(status, ""))
       case Failure(code) => c.(phase := Settled, outcome := Rejected(code))
       case _ => c)
    case Streaming =>
      (match ev
       case Data(chunk, _) =>
         var cs := Contents(DecodeChunk(chunk, parse));
         c.(full := c.full + Concat(cs), tokens := c.tokens + cs)
       case End => c.(phase := Settled, outcome := Resolved(c.full))
       case Failure(code) => c.(phase := Settled, outcome := Rejected(code))
       case _ => c)
    case ErrorBody(status, body) =>
      (match ev
       case Data(chunk, _) => c.(phase := ErrorBody(status, body + chunk))
       case End => c.(phase := Settled, outcome := Rejected(ApiError(status, body)))
       case Failure(code) => c.(phase := Settled, outcome := Rejected(code))
       case _ => c)
  }

  function Run(c: Call, evs: seq<NetEvent>, parse: Parser): (r: Call)
    ensures |r.tokens| >= |c.tokens| && r.tokens[..|c.tokens|] == c.tokens
    ensures c.phase.Settled? ==> r == c
    decreases |evs|
  {
    if |evs| == 0 then c else Run(Step(c, evs[0], parse), evs[1..], parse)
  }

  /** `callVisionModel(prompt, attachments, apiKey, onToken)` fed the given transport events. */
  function CallVision(evs: seq<NetEvent>, parse: Parser): Call
  {
    Run(Start, evs, parse)
  }

  /** The call's invariant: the full text is the tokens handed out so far, the
      outcome is settled exactly in the settled phase, and an error body is read
      only while no token was handed out. */
  predicate Consistent(c: Call)
  {
    && c.full == Concat(c.tokens)
    && (c.outcome.Pending? <==> !c.phase.Settled?)
    && (c.outcome.Resolved? ==> c.outcome.text == Concat(c.tokens))
    && (c.phase.ErrorBody? || c.phase.Awaiting? ==> c.tokens == [])
  }

  lemma StepConsistent(c: Call, ev: NetEvent, parse: Parser)
    requires Consistent(c)
    ensures Consistent(Step(c, ev, parse))
  {
    if c.phase.Streaming? && ev.Data? {
      ConcatAppend(c.tokens, Contents(DecodeChunk(ev.chunk, parse)));
    }
  }

  lemma {:induction false} RunConsistent(c: Call, evs: seq<NetEvent>, parse: Parser)
    requires Consistent(c)
    ensures Consistent(Run(c, evs, parse))
    decreases |evs|
  {
    if |evs| > 0 {
      StepConsistent(c, evs[0], parse);
      RunConsistent(Step(c, evs[0], parse), evs[1..], parse);
    }
  }

  /** The promise resolves with exactly the in-order concatenation of the tokens
      handed to the callback. */
  lemma ResolvesWithTokens(evs: seq<NetEvent>, parse: Parser)
    ensures var c := CallVision(evs, parse);
      c.outcome.Resolved? ==> c.outcome.text == Concat(c.tokens)
  {
    RunConsistent(Start, evs, parse);
  }

  /** Once settled, nothing changes any more. */
  lemma {:induction false} SettledIsFinal(c: Call, evs: seq<NetEvent>, parse: Parser)
    requires c.phase.Settled?
    ensures Run(c, evs, parse) == c
    decreases |evs|
  {
    if |evs| > 0 {
      SettledIsFinal(Step(c, evs[0], parse), evs[1..], parse);
    }
  }

  /** A transport error before the promise settles rejects it with the
      error, keeping the tokens already handed out. */
  lemma FailureRejects(c: Call, code: string, parse: Parser)
    requires !c.phase.Settled?
    ensures Step(c, Failure(code), parse) == c.(phase := Settled, outcome := Rejected(code))
  {
  }

  /** After a transport error no further token is handed out and the
      rejection stands, whatever else arrives. */
  lemma FailureIsFinal(c: Call, code: string, rest: seq<NetEvent>, parse: Parser)
    requires !c.phase.Settled?
    ensures var r := Run(c, [Failure(code)] + rest, parse);
      r.tokens == c.tokens && r.full == c.full && r.outcome == Rejected(code)
  {
    FailureRejects(c, code, parse);
    assert ([Failure(code)] + rest)[1..] == rest;
    SettledIsFinal(Step(c, Failure(code), parse), rest, parse);
  }

  /** After a non-200 response head, no token is ever handed out, and the body's
      end rejects with `API Error <status>: <body>`. */
  lemma {:induction false} ErrorStatusRejects(status: nat, body: seq<string>, rest: seq<NetEvent>, parse: Parser)
    requires status != 200
    ensures var c := Run(Step(Start, Response(status), parse), DataEvents(body) + [End] + rest, parse);
      c.tokens == [] && c.outcome == Rejected(ApiError(status, ConcatAll(body)))
  {
    var c0 := Step(Start, Response(status), parse);
    ErrorBodyRun(status, "", body, parse);
    var c1 := Run(c0, DataEvents(body), parse);
    RunAppend(c0, DataEvents(body), [End] + rest, parse);
    assert DataEvents(body) + [End] + rest == DataEvents(body) + ([End] + rest);
    var c2 := Step(c1, End, parse);
    assert ([End] + rest)[1..] == rest;
    SettledIsFinal(c2, rest, parse);
  }

  /** A body delivered as chunks without clock readings. */
  function DataEvents(chunks: seq<string>): (evs: seq<NetEvent>)
    ensures |evs| == |chunks|
    ensures forall i :: 0 <= i < |evs| ==> evs[i] == Data(chunks[i], 0)
  {
    if |chunks| == 0 then [] else [Data(chunks[0], 0)] + DataEvents(chunks[1..])
  }

  function ConcatAll(chunks: seq<string>): string
  {
    if |chunks| == 0 then "" else chunks[0] + ConcatAll(chunks[1..])
  }

  lemma {:induction false} RunAppend(c: Call, a: seq<NetEvent>, b: seq<NetEvent>, parse: Parser)
    ensures Run(c, a + b, parse) == Run(Run(c, a, parse), b, parse)
    decreases |a|
  {
    if |a| == 0 {
      assert a + b == b;
    } else {
      assert (a + b)[0] == a[0];
      assert (a + b)[1..] == a[1..] + b;
      RunAppend(Step(c, a[0], parse), a[1..], b, parse);
    }
  }

  lemma {:induction false} ErrorBodyRun(status: nat, body: string, chunks: seq<string>, parse: Parser)
    ensures Run(Call(ErrorBody(status, body), "", [], Pending), DataEvents(chunks), parse)
         == Call(ErrorBody(status, body + ConcatAll(chunks)), "", [], Pending)
    decreases |chunks|
  {
    if |chunks| > 0 {
      var evs := DataEvents(chunks);
      var c0 := Call(ErrorBody(status, body), "", [], Pending);
      assert evs[1..] == DataEvents(chunks[1..]);
      assert Step(c0, evs[0], parse) == Call(ErrorBody(status, body + chunks[0]), "", [], Pending);
      assert Run(c0, evs, parse) == Run(Step(c0, evs[0], parse), evs[1..], parse);
      ErrorBodyRun(status, body + chunks[0], chunks[1..], parse);
      assert ConcatAll(chunks) == chunks[0] + ConcatAll(chunks[1..]);
      assert body + chunks[0] + ConcatAll(chunks[1..]) == body + ConcatAll(chunks);
      assert Run(c0, evs, parse) == Call(ErrorBody(status, body + chunks[0] + ConcatAll(chunks[1..])), "", [], Pending);
    } else {
      assert DataEvents(chunks) == [];
      assert body + ConcatAll(chunks) == body;
    }
  }

  /** Only `delta.content` is read: over one 200 body chunk the tokens are exactly
      the non-empty parsed `content` fields of the data lines before `[DONE]`,
      and reasoning text is never handed out. */
  lemma ChunkTokens(c: Call, chunk: string, now: int, parse: Parser)
    requires c.phase.Streaming?
    ensures var c' := Step(c, Data(chunk, now), parse);
      && c'.tokens == c.tokens + Contents(DecodeChunk(chunk, parse))
      && Concat(Contents(DecodeChunk(chunk, parse))) == ParsedContent(Payloads(Split(chunk, '\n')), parse)
  {
    ContentChannel(Payloads(Split(chunk, '\n')), parse);
  }
}

=== FILE: websearch.dfy ===
/** The web-search chain: a key check, the `searching` status, the search
    provider call, the `done` status carrying the results, the context built
    from the results, a second key check, and the streamed answer whose
    non-empty chunks are passed on one by one. Any failure sends an error
    suffix through the token callback and rejects. The search provider and the
    answering model are foreign: their outcomes are inputs. */
module WebSearch {
  import opened Common

  const NoResults: string := "No relevant search results found."
  const BlockSeparator: string := "\n---\n"
  const MissingTavilyKey: string := "Tavily API Key is missing. Please set it in Settings."
  const MissingApiKey: string := "DeepSeek API Key is missing. Please check your settings."

  /** A retrieved document: `pageContent` and the `metadata` fields the chain reads. */
  datatype Doc = Doc(pageContent: string, source: Option<string>, url: Option<string>, title: Option<string>)

  /** The object passed to the status callback. */
  datatype SearchStatus = Searching | Done(results: seq<Doc>)

  /** What the search provider call settles with. The retriever is created
      with `k: 5`, but the documents it returns are taken as they come, so
      their number is not bounded here. */
  datatype SearchOutcome = Found(docs: seq<Doc>) | SearchFailed(message: string)

  /** The chunks the answering model streams, and the error it stops with, if any. */
  datatype AnswerStream = AnswerStream(chunks: seq<string>, failure: Option<string>)

  /** One call of the status or of the token callback, in call order. */
  datatype ChainOut = Status(status: SearchStatus) | Token(text: string)

  /** What phase two sends to the answering model: the system message built
      from the search context, then the prompt as the human message. */
  datatype ModelRequest = ModelRequest(context: string, human: string)
  {
    function SystemMessage(): string
    {
      SystemPrompt(human, context)
    }
  }

  /** Every callback call, the model request if phase two started, and the settled promise. */
  datatype ChainRun = ChainRun(outs: seq<ChainOut>, request: Option<ModelRequest>, result: Result<string>)

  /** JavaScript truthiness of an optional string. */
  predicate Truthy(o: Option<string>)
  {
    o.Some? && o.value != ""
  }

  /** `doc.metadata.source || doc.metadata.url || 'Unknown URL'`. */
  function SourceLabel(d: Doc): (r: string)
    ensures Truthy(d.source) ==> r == d.source.value
    ensures !Truthy(d.source) && Truthy(d.url) ==> r == d.url.value
    ensures !Truthy(d.source) && !Truthy(d.url) ==> r == "Unknown URL"
    ensures r != ""
  {
    if Truthy(d.source) then d.source.value else if Truthy(d.url) then d.url.value else "Unknown URL"
  }

  /** `doc.metadata.title || 'Untitled'`. */
  function TitleLabel(d: Doc): (r: string)
    ensures r != ""
    ensures Truthy(d.title) ==> r == d.title.value
    ensures !Truthy(d.title) ==> r == "Untitled"
  {
    if Truthy(d.title) then d.title.value else "Untitled"
  }

  /** The block of the document at zero-based position `i`. */
  function FormatDoc(d: Doc, i: nat): string
  {
    "\nSource " + NatToString(i + 1) + ": " + SourceLabel(d)
      + "\nTitle: " + TitleLabel(d)
      + "\nContent: " + d.pageContent + "\n"
  }

  /** `f` applied to each document and its position, counting from `start`. */
  function Numbered(docs: seq<Doc>, start: nat, f: (Doc, nat) -> string): (bs: seq<string>)
    ensures |bs| == |docs|
    ensures forall i :: 0 <= i < |docs| ==> bs[i] == f(docs[i], start + i)
  {
    if |docs| == 0 then [] else [f(docs[0], start)] + Numbered(docs[1..], start + 1, f)
  }

  /** The blocks of `docs`, numbered from `start`. */
  function FormatBlocks(docs: seq<Doc>, start: nat): (bs: seq<string>)
    ensures |bs| == |docs|
    ensures forall i :: 0 <= i < |docs| ==> bs[i] == FormatDoc(docs[i], start + i)
  {
    Numbered(docs, start, FormatDoc)
  }

  /** The search context embedded in the system prompt. */
  function Context(docs: seq<Doc>): string
  {
    if |docs| > 0 then Join(FormatBlocks(docs, 0), BlockSeparator) else NoResults
  }

  lemma {:induction false} JoinSnoc(pieces: seq<string>, p: string, sep: string)
    requires |pieces| > 0
    ensures Join(pieces + [p], sep) == Join(pieces, sep) + sep + p
    decreases |pieces|
  {
    if |pieces| == 1 {
      assert (pieces + [p])[1..] == [p];
    } else {
      assert (pieces + [p])[1..] == pieces[1..] + [p];
      JoinSnoc(pieces[1..], p, sep);
    }
  }

  /** No results give exactly the fixed marker; otherwise the context is the
      first block, and one more document appends its block, numbered after the
      others, behind the separator, so blocks keep the documents' order. */
  lemma {:induction false} ContextShape(docs: seq<Doc>, d: Doc)
    ensures Context([]) == NoResults
    ensures Context([d]) == FormatDoc(d, 0)
    ensures |docs| > 0 ==> Context(docs + [d]) == Context(docs) + BlockSeparator + FormatDoc(d, |docs|)
  {
    assert FormatBlocks([d], 0) == [FormatDoc(d, 0)];
    if |docs| > 0 {
      ContextSnoc(docs, d);
    }
  }

  /** One more document adds one entry, numbered after the others. */
  lemma {:induction false} NumberedSnoc(docs: seq<Doc>, d: Doc, start: nat, f: (Doc, nat) -> string)
    ensures Numbered(docs + [d], start, f) == Numbered(docs, start, f) + [f(d, start + |docs|)]
    decreases |docs|
  {
    if |docs| == 0 {
      assert docs + [d] == [d] && [d][1..] == [];
    } else {
      assert (docs + [d])[0] == docs[0] && (docs + [d])[1..] == docs[1..] + [d];
      NumberedSnoc(docs[1..], d, start + 1, f);
    }
  }

  /** One more document adds one block, numbered after the others. */
  lemma FormatBlocksSnoc(docs: seq<Doc>, d: Doc, start: nat)
    ensures FormatBlocks(docs + [d], start) == FormatBlocks(docs, start) + [FormatDoc(d, start + |docs|)]
  {
    NumberedSnoc(docs, d, start, FormatDoc);
  }

  lemma ContextSnoc(docs: seq<Doc>, d: Doc)
    requires |docs| > 0
    ensures Context(docs + [d]) == Context(docs) + BlockSeparator + FormatDoc(d, |docs|)
  {
    var bs := FormatBlocks(docs, 0);
    var last := FormatDoc(d, |docs|);
    FormatBlocksSnoc(docs, d, 0);
    assert FormatBlocks(docs + [d], 0) == bs + [last];
    JoinSnoc(bs, last, BlockSeparator);
  }

  /** The system message of phase two. */
  function SystemPrompt(prompt: string, context: string): string
  {
    "You are a helpful AI assistant with access to real-time web search results.\n"
      + "User's question: " + prompt + "\n\n"
      + "Here are the search results from the web:\n" + context + "\n\n"
      + "Please answer the user's question comprehensively based on the search results above.\n"
      + "If the search results don't contain the answer, say so, but try to answer from your own knowledge if possible.\n"
      + "Cite your sources using [Source X] format if you use information from them."
  }

  /** The suffix sent through the token callback when the chain fails. */
  function ErrorToken(message: string): string
  {
    "\n\n[Error: " + message + "]"
  }

  /** The non-empty chunks of the answer, each as a token callback call. */
  function Tokens(chunks: seq<string>): (outs: seq<ChainOut>)
    ensures |outs| <= |chunks|
    ensures forall i :: 0 <= i < |outs| ==> outs[i].Token? && outs[i].text != ""
  {
    if |chunks| == 0 then []
    else (if chunks[0] != "" then [Token(chunks[0])] else []) + Tokens(chunks[1..])
  }

  /** `fullResponse`: the non-empty chunks concatenated. */
  function Answer(chunks: seq<string>): string
  {
    if |chunks| == 0 then "" else chunks[0] + Answer(chunks[1..])
  }

  /** The texts of the token callback calls, in order. */
  function TokenTexts(outs: seq<ChainOut>): seq<string>
  {
    if |outs| == 0 then []
    else (if outs[0].Token? then [outs[0].text] else []) + TokenTexts(outs[1..])
  }

  /** The statuses passed to the status callback, in order. */
  function Statuses(outs: seq<ChainOut>): seq<SearchStatus>
  {
    if |outs| == 0 then []
    else (if outs[0].Status? then [outs[0].status] else []) + Statuses(outs[1..])
  }

  /** `runWebSearchChain(prompt, apiKey, tavilyKey, onToken, onStatus)`. */
  function RunChain(prompt: string, apiKey: string, tavilyKey: string,
                    search: SearchOutcome, answer: AnswerStream): (r: ChainRun)
    ensures |r.outs| >= 1
    ensures r.result.Ok? ==> r.request.Some? && answer.failure.None?
  {
    if tavilyKey == "" then
      ChainRun([Token(ErrorToken(MissingTavilyKey))], None, Err(MissingTavilyKey))
    else
      match search
      case SearchFailed(m) =>
        ChainRun([Status(Searching), Token(ErrorToken(m))], None, Err(m))
      case Found(docs) =>
        var statuses := [Status(Searching), Status(Done(docs))];
        if apiKey == "" then
          ChainRun(statuses + [Token(ErrorToken(MissingApiKey))], None, Err(MissingApiKey))
        else
          var request := ModelRequest(Context(docs), prompt);
          var tokens := Tokens(answer.chunks);
          match answer.failure
          case None => ChainRun(statuses + tokens, Some(request), Ok(Answer(answer.chunks)))
          case Some(m) => ChainRun(statuses + tokens + [Token(ErrorToken(m))], Some(request), Err(m))
  }

  /** The answering model is asked exactly when the search key is set, the
      search succeeded and the model key is set. */
  lemma ModelAskedIff(prompt: string, apiKey: string, tavilyKey: string, search: SearchOutcome, answer: AnswerStream)
    ensures RunChain(prompt, apiKey, tavilyKey, search, answer).request.Some?
      <==> tavilyKey != "" && search.Found? && apiKey != ""
  {
  }

  lemma {:induction false} TokenTextsAppend(a: seq<ChainOut>, b: seq<ChainOut>)
    ensures TokenTexts(a + b) == TokenTexts(a) + TokenTexts(b)
  {
    if |a| == 0 {
      assert a + b == b;
    } else {
      assert (a + b)[0] == a[0];
      assert (a + b)[1..] == a[1..] + b;
      TokenTextsAppend(a[1..], b);
    }
  }

  lemma {:induction false} StatusesAppend(a: seq<ChainOut>, b: seq<ChainOut>)
    ensures Statuses(a + b) == Statuses(a) + Statuses(b)
  {
    if |a| == 0 {
      assert a + b == b;
    } else {
      assert (a + b)[0] == a[0];
      assert (a + b)[1..] == a[1..] + b;
      StatusesAppend(a[1..], b);
    }
  }

  /** The answer is exactly the concatenation of the texts handed to the token callback. */
  lemma {:induction false} AnswerIsTokens(chunks: seq<string>)
    ensures Concat(TokenTexts(Tokens(chunks))) == Answer(chunks)
    ensures Statuses(Tokens(chunks)) == []
  {
    if |chunks| > 0 {
      var head: seq<ChainOut> := if chunks[0] != "" then [Token(chunks[0])] else [];
      AnswerIsTokens(chunks[1..]);
      TokenTextsAppend(head, Tokens(chunks[1..]));
      StatusesAppend(head, Tokens(chunks[1..]));
      ConcatAppend(TokenTexts(head), TokenTexts(Tokens(chunks[1..])));
      ConcatAppend([], TokenTexts(Tokens(chunks[1..])));
      if chunks[0] != "" {
        assert TokenTexts(head) == [chunks[0]];
        ConcatOne(chunks[0]);
      } else {
        assert TokenTexts(head) == [];
      }
    }
  }

  /** The two status calls of a successful search carry no token. */
  lemma StatusPair(docs: seq<Doc>)
    ensures Statuses([Status(Searching), Status(Done(docs))]) == [Searching, Done(docs)]
    ensures TokenTexts([Status(Searching), Status(Done(docs))]) == []
  {
    var statuses := [Status(Searching), Status(Done(docs))];
    var last := [Status(Done(docs))];
    assert statuses[1..] == last && last[1..] == [];
    assert Statuses(last) == [Done(docs)] + Statuses([]);
    assert TokenTexts(last) == [] + TokenTexts([]);
    assert Statuses(statuses) == [Searching] + Statuses(last);
    assert TokenTexts(statuses) == [] + TokenTexts(last);
  }

  /** A missing search key: no status at all, one token carrying the error
      suffix, no model request, and a rejection. */
  lemma {:induction false} MissingTavilyKeyFails(prompt: string, apiKey: string, search: SearchOutcome, answer: AnswerStream)
    ensures var r := RunChain(prompt, apiKey, "", search, answer);
      && Statuses(r.outs) == []
      && TokenTexts(r.outs) == [ErrorToken(MissingTavilyKey)]
      && r.request.None?
      && r.result == Err(MissingTavilyKey)
  {
  }

  /** No status follows a token. */
  predicate TokensLast(outs: seq<ChainOut>)
  {
    forall i, j :: 0 <= i < j < |outs| && outs[i].Token? ==> outs[j].Token?
  }

  /** A failed search: `searching`, then the error token, and no model request. */
  lemma SearchFailedSequence(prompt: string, apiKey: string, tavilyKey: string, m: string, answer: AnswerStream)
    requires tavilyKey != ""
    ensures var r := RunChain(prompt, apiKey, tavilyKey, SearchFailed(m), answer);
      && r.outs == [Status(Searching), Token(ErrorToken(m))]
      && Statuses(r.outs) == [Searching]
      && r.request.None?
  {
    var outs := [Status(Searching), Token(ErrorToken(m))];
    assert outs[1..] == [Token(ErrorToken(m))];
    assert Statuses(outs[1..]) == [];
  }

  /** A successful search: `searching`, `done` with the results, then only
      tokens; the model is asked exactly when the model key is set. */
  lemma FoundSequence(prompt: string, apiKey: string, tavilyKey: string, docs: seq<Doc>, answer: AnswerStream)
    requires tavilyKey != ""
    ensures var r := RunChain(prompt, apiKey, tavilyKey, Found(docs), answer);
      && |r.outs| >= 2 && r.outs[..2] == [Status(Searching), Status(Done(docs))]
      && Statuses(r.outs) == [Searching, Done(docs)]
      && (forall k :: 2 <= k < |r.outs| ==> r.outs[k].Token?)
      && (r.request.Some? <==> apiKey != "")
      && (r.request.Some? ==> r.request.value == ModelRequest(Context(docs), prompt))
  {
    var r := RunChain(prompt, apiKey, tavilyKey, Found(docs), answer);
    var statuses := [Status(Searching), Status(Done(docs))];
    StatusPair(docs);
    var tail: seq<ChainOut>;
    if apiKey == "" {
      tail := [Token(ErrorToken(MissingApiKey))];
    } else {
      var tokens := Tokens(answer.chunks);
      AnswerIsTokens(answer.chunks);
      match answer.failure
      case None =>
        tail := tokens;
      case Some(m) =>
        tail := tokens + [Token(ErrorToken(m))];
        StatusesAppend(tokens, [Token(ErrorToken(m))]);
    }
    assert r.outs == statuses + tail;
    assert Statuses(tail) == [];
    assert forall k :: 0 <= k < |tail| ==> tail[k].Token?;
    StatusesAppend(statuses, tail);
  }

  /** With a search key, `searching` is the first callback call, the search
      outcome decides whether `done` follows, and `done` carries the results as
      found (even none); no status ever follows a token, and the answering
      model is asked only after a successful search with a non-empty model key. */
  lemma {:induction false} StatusSequence(prompt: string, apiKey: string, tavilyKey: string, search: SearchOutcome, answer: AnswerStream)
    requires tavilyKey != ""
    ensures var r := RunChain(prompt, apiKey, tavilyKey, search, answer);
      && r.outs[0] == Status(Searching)
      && (search.Found? ==> Statuses(r.outs) == [Searching, Done(search.docs)])
      && (search.SearchFailed? ==> Statuses(r.outs) == [Searching])
      && TokensLast(r.outs)
      && (r.request.Some? <==> search.Found? && apiKey != "")
      && (r.request.Some? ==> r.request.value == ModelRequest(Context(search.docs), prompt))
  {
    match search
    case SearchFailed(m) =>
      SearchFailedSequence(prompt, apiKey, tavilyKey, m, answer);
    case Found(docs) =>
      FoundSequence(prompt, apiKey, tavilyKey, docs, answer);
      var r := RunChain(prompt, apiKey, tavilyKey, search, answer);
      assert r.outs[0] == r.outs[..2][0];
  }

  /** The outcome of phase two once the search succeeded and both keys are set. */
  lemma {:induction false} AnsweredRun(prompt: string, apiKey: string, tavilyKey: string, docs: seq<Doc>, answer: AnswerStream)
    requires tavilyKey != "" && apiKey != ""
    ensures var r := RunChain(prompt, apiKey, tavilyKey, Found(docs), answer);
      var statuses := [Status(Searching), Status(Done(docs))];
      && r.request == Some(ModelRequest(Context(docs), prompt))
      && (answer.failure.None? ==> r.outs == statuses + Tokens(answer.chunks) && r.result == Ok(Answer(answer.chunks)))
      && (answer.failure.Some? ==>
            && r.outs == statuses + Tokens(answer.chunks) + [Token(ErrorToken(answer.failure.value))]
            && r.result == Err(answer.failure.value))
  {
  }

  /** On success the promise's value is exactly the concatenation of the texts
      handed to the token callback; on failure the last token is the error suffix. */
  lemma {:induction false} ResultMatchesTokens(prompt: string, apiKey: string, tavilyKey: string, search: SearchOutcome, answer: AnswerStream)
    ensures var r := RunChain(prompt, apiKey, tavilyKey, search, answer);
      && (r.result.Ok? ==> r.result.value == Concat(TokenTexts(r.outs)))
      && (r.result.Err? ==> |r.outs| > 0 && r.outs[|r.outs| - 1] == Token(ErrorToken(r.result.message)))
  {
    var r := RunChain(prompt, apiKey, tavilyKey, search, answer);
    if tavilyKey != "" && search.Found? && apiKey != "" {
      AnsweredRun(prompt, apiKey, tavilyKey, search.docs, answer);
      if answer.failure.None? {
        var statuses := [Status(Searching), Status(Done(search.docs))];
        var tokens := Tokens(answer.chunks);
        AnswerIsTokens(answer.chunks);
        TokenTextsAppend(statuses, tokens);
        StatusPair(search.docs);
        assert r.outs == statuses + tokens;
        assert TokenTexts(r.outs) == TokenTexts(tokens);
        assert r.result.value == Answer(answer.chunks);
      }
    }
  }
}

=== FILE: window.dfy ===
/** The window and the main process together, for a plain (non-vision,
    non-search) send: what the assistant bubble ends up showing is what the
    main process stores as the assistant's reply. */
module Window {
  import opened Common
  import opened Channels
  import opened Store
  import opened Sse
  import Throttle
  import Plain
  import ChatStore

  /** A bubble that starts empty, fed the messages of a plain session that
      streams and then ends, shows the whole streamed text, and that text is
      the stored reply when one is stored. */
  lemma ReplayOfFinishedSession(h: ChatStore.UiState, s: Plain.Session, db: Db, current: Option<nat>,
                                evs: seq<NetEvent>, parse: Parser)
    requires |h.messages| > 0 && ChatStore.Last(h.messages).content == ""
    requires Valid(db) && s.emitter == Throttle.Initial
    requires forall i :: 0 <= i < |evs| ==> !evs[i].End?
    requires Plain.Run(s, db, current, evs, parse).session.phase.Streaming?
    ensures var pre := Plain.Run(s, db, current, evs, parse);
      var fin := Plain.Step(pre.session, pre.db, current, End, parse);
      var shown := ChatStore.Replay(h, pre.out + fin.out);
      && ChatStore.OnlyLastChanged(h.messages, shown.messages)
      && ChatStore.Last(shown.messages).role == ChatStore.Last(h.messages).role
      && ChatStore.Last(shown.messages).content == pre.session.emitter.full
      && !shown.isGenerating
      && (|fin.db.messages| > |pre.db.messages| ==>
            fin.db.messages[|pre.db.messages|].content == ChatStore.Last(shown.messages).content)
  {
    var pre := Plain.Run(s, db, current, evs, parse);
    var fin := Plain.Step(pre.session, pre.db, current, End, parse);
    assert ChunkTexts([]) == [];
    assert Throttle.Accounts(s.emitter, ChunkTexts([]));
    Plain.RunAccounts(s, db, current, evs, [], parse);
    assert [] + pre.out == pre.out;
    Plain.EndDelivers(pre.session, pre.db, current, pre.out, parse);
    EndCountAppend(pre.out, fin.out);
    ChatStore.ReplayShows(h, pre.out + fin.out);
    assert "" + Concat(ChunkTexts(pre.out + fin.out)) == Concat(ChunkTexts(pre.out + fin.out));
  }

  /** A send accepted by `handleSend` whose request is answered with a 200
      head and body chunks and then ends: the new assistant bubble shows the
      whole streamed text, generation has stopped, and when a reply was
      stored for the conversation the stored text is the text shown. The
      request may be opened on any valid database, so this covers the one
      `Controller.Prelude` leaves after storing the user message; the events
      are those `Controller.Deliver` hands to the session. */
  lemma AnswerShownIsAnswerStored(ui: ChatStore.UiState, online: bool, created: nat,
                                  db: Db, request: nat, current: Option<nat>, evs: seq<NetEvent>, parse: Parser)
    requires !IsBlank(ui.input) && !ui.isGenerating && online
    requires Valid(db)
    requires var sent := ChatStore.HandleSend(ui, online, created).sent.value;
      Plain.Open(db, request, sent.message, sent.conversationId, sent.isReasoning).Started?
    requires forall i :: 0 <= i < |evs| ==> !evs[i].End?
    requires var sent := ChatStore.HandleSend(ui, online, created).sent.value;
      var s := Plain.Open(db, request, sent.message, sent.conversationId, sent.isReasoning).session;
      Plain.Run(s, db, current, evs, parse).session.phase.Streaming?
    ensures var h := ChatStore.HandleSend(ui, online, created);
      var s := Plain.Open(db, request, h.sent.value.message, h.sent.value.conversationId, h.sent.value.isReasoning).session;
      var pre := Plain.Run(s, db, current, evs, parse);
      var fin := Plain.Step(pre.session, pre.db, current, End, parse);
      var shown := ChatStore.Replay(h.ui, pre.out + fin.out);
      && |shown.messages| == |ui.messages| + 2
      && ChatStore.Last(shown.messages).role == Assistant
      && ChatStore.Last(shown.messages).content == pre.session.emitter.full
      && !shown.isGenerating
      && (|fin.db.messages| > |pre.db.messages| ==>
            fin.db.messages[|pre.db.messages|].content == ChatStore.Last(shown.messages).content)
  {
    var h := ChatStore.HandleSend(ui, online, created);
    ChatStore.SendAppendsPair(ui, online, created);
    var sent := h.sent.value;
    var s := Plain.Open(db, request, sent.message, sent.conversationId, sent.isReasoning).session;
    ReplayOfFinishedSession(h.ui, s, db, current, evs, parse);
    var pre := Plain.Run(s, db, current, evs, parse);
  }
}
